=== FILE: README.md ===
# mkit-finalapiparser core, modelled in Dafny

This project models the behavioural core of the mkit-finalapiparser backend. The backend is a FastAPI service that manages members and modules of an OtomaX-style top-up gateway. It signs gateway requests, authenticates users and keeps an audit trail of soft deletions. The model covers these parts:

- **Entity stores and CRUD services** (`memory_repo.dfy`, `crud_service.dfy`, `member_registry.dfy`, `ids.dfy`).
  - The in-memory member and module repositories, the generic `BaseService` with its member and module services, the module service, and the member registration service.
  - Each is a class holding a dict and a counter.
  - Ids are a prefix followed by the zero-padded counter.
- **Schemas and validators** (`schemas.dfy`, `validators.dfy`, `ascii.dfy`).
  - The field constraints of the member and module schemas, `empty_to_none`, and the provider lookup.
  - Pydantic's lax reading of `bool` fields (booleans, 0 and 1, and words such as `"yes"` or `"off"`).
  - The three shared string validators, including how Python's `re.match` treats `$`.
- **Request signatures** (`signature.dfy`, `base64.dfy`).
  - The OtomaX raw strings.
  - A verified base64 encoder (section 4 of RFC 4648) with its decoder and round trip.
  - The unpadded base64url signature (section 5 of RFC 4648).
- **Soft delete and audit** (`audit_mixin.dfy`, `audit_decorators.dfy`, `repo_audit.dfy`, `record_status.dfy`, `lite_repo.dfy`).
  - The two `AuditMixin` classes and the `auditable`/`soft_deletable` decorators.
  - `AuditMixinRepository` and the record-status predicates and filters.
  - The SQLite user repository `LiteUserRepo`.
- **Transactions** (`session.dfy`, `uow.dfy`, `async_uow.dfy`).
  - An ORM session with its pending rows, its committed rows and a trace of database calls.
  - The two units of work: the unguarded one and the guarded one that always closes.
- **Authentication and seeding** (`auth.dfy`, `admin_seed.dfy`).
  - The credential check and the login / token-to-user facade.
  - Conditional seeding of the default administrator.
- **Errors** (`exceptions.dfy`).
  - The `AppExceptionError` hierarchy with default messages and status codes.
  - `generate_responses`.
- **Shared layers** (`values.dfy`, `wrappers.dfy`, `collections.dfy`).
  - Dynamic values with Python truthiness, `Option`/`Result`, and duplicate-free key listings.

Where the source changes state in place, the model is a class whose methods state the new state. Usually that is as a function of the old state, and the properties are proved as lemmas about those functions.

Foreign and non-deterministic behaviour is passed in as a parameter:
- the clock reading;
- the password hasher (hash and verify);
- the token encoder and decoder;
- SHA-1;
- `from_create` / `update_from`;
- whether the database rejects a flush, a commit or a rollback;
- the system actor id `ADM_ID`.

## Model

| member | source | states |
|---|---|---|
| Ids.DigitChar | app/repositories/rep_member.py:19 | the character of a decimal digit is a digit |
| Ids.DigitValue | app/repositories/rep_member.py:19 | the value of a digit character is below ten |
| Ids.DecimalIsDigits | app/repositories/rep_member.py:19 | `str(n)` is a non-empty digit string whose value is `n` |
| Ids.ZerosAreDigits | app/repositories/rep_member.py:19 | a run of `k` zeros is `k` digits of value 0 |
| Ids.ZerosSnoc | app/repositories/rep_member.py:19 | one more zero is the run plus `"0"` |
| Ids.LeadingZerosIgnored | app/repositories/rep_member.py:19 | leading zeros do not change the value of a digit string |
| Ids.ZFillKeepsValue | app/repositories/rep_member.py:19 | `zfill` keeps the value and pads only up to the width |
| Ids.MakeIdShape | app/repositories/rep_member.py:19 | an id is the prefix followed by at least three digits; exactly three below 1000 |
| Ids.DecimalShort | app/repositories/rep_member.py:19 | numbers below 1000 have at most three digits |
| Ids.ParseMakeId | app/repositories/rep_member.py:19 | parsing a generated id gives back its counter |
| Ids.MakeIdInjective | app/repositories/rep_member.py:19 | two counters give the same id exactly when they are equal |
| Ids.MakeIdAlnum | app/repositories/rep_member.py:19 | an alphanumeric prefix gives an alphanumeric id |
| MemoryRepo.InMemoryRepository.constructor | app/repositories/rep_member.py:12-14 | an empty dict and a counter at 0 |
| MemoryRepo.InMemoryRepository.NextId | app/repositories/rep_member.py:16-19 | the counter goes up by exactly one; the id is the prefix plus the counter zero-padded to 3 digits; it is not yet a key |
| MemoryRepo.InMemoryRepository.Create | app/repositories/rep_member.py:21-25 | the counter goes up by one; the fresh id was never stored; on success the built entity is stored under it and nothing is overwritten; a failed build changes nothing |
| MemoryRepo.InMemoryRepository.Get | app/repositories/rep_member.py:27-28 | None exactly for an unknown key, otherwise the stored entity |
| MemoryRepo.InMemoryRepository.Update | app/repositories/rep_member.py:30-33 | an unknown key raises `KeyError("<Member or Module> <key> tidak ditemukan.")` and changes nothing; a known key replaces that entry only |
| MemoryRepo.InMemoryRepository.Remove | app/repositories/rep_member.py:35-36 | the key is deleted and nothing else; a no-op for an unknown key |
| MemoryRepo.InMemoryRepository.All | app/repositories/rep_member.py:38-39 | exactly the stored values, one per key, in insertion order |
| MemoryRepo.NewMemberRepository | app/repositories/rep_member.py:6-14 | an empty member store with prefix `MEM` that builds `MemberInDB` |
| MemoryRepo.NewModuleRepository | app/repositories/rep_module.py:6-14 | an empty module store with prefix `MOD` that builds `ModuleInDB` |
| MemoryRepo.MemberBuildKeepsId | app/repositories/rep_member.py:23 | a member built from a create keeps the generated `memberid` |
| MemoryRepo.ModuleBuildKeepsId | app/repositories/rep_module.py:23 | a module built from a create keeps the generated `moduleid`, untouched by stripping |
| MemoryRepo.MemberBuildIdNeverFails | app/repositories/rep_member.py:23 | a generated id never makes `MemberInDB` validation fail |
| MemoryRepo.CreateRemoveCreate | app/repositories/rep_member.py:16-36 | two creates give distinct ids even with a remove between them; the second id was never stored |
| CrudService.IdError | app/service/crud/base_service.py:35 | the raised error has the given class, its default message and the context `{key: id}` |
| CrudService.CrudService.constructor | app/service/crud/base_service.py:20-24 | the given repo and prefix, with the counter at 0 |
| CrudService.CrudService.NextId | app/service/crud/base_service.py:26-29 | the counter goes up by one; the id is prefix plus zero-padded counter; it is not yet stored when every key came from this counter |
| CrudService.CrudService.Create | app/service/crud/base_service.py:32-39 | the id is consumed first, so an `EntityAlreadyExistsError` still advances the counter and changes nothing; otherwise exactly one entity is added under the fresh id and its public view is returned |
| CrudService.CrudService.Get | app/service/crud/base_service.py:42-46 | `EntityNotFoundError` with the id in its context for an unknown id, otherwise the public view |
| CrudService.CrudService.Update | app/service/crud/base_service.py:49-55 | an unknown id raises `EntityNotFoundError` and changes nothing; otherwise the updated object is stored back under the same id; the key set never changes |
| CrudService.CrudService.Remove | app/service/crud/base_service.py:58-68 | a DTO without the id field raises `KeyError`; an absent id raises `EntityNotFoundError`; both change nothing; otherwise only that entry is removed |
| CrudService.CrudService.List | app/service/crud/base_service.py:71-73 | one public view per stored key, no key twice; a failing view is one of the stored entities' |
| CrudService.MemberService.constructor | app/service/crud/member_service.py:18-19 | wraps the base service |
| CrudService.MemberService.FindName | app/service/crud/member_service.py:23-24 | true exactly when some stored member's name equals the given one exactly |
| CrudService.MemberService.Create | app/service/crud/member_service.py:21-28 | a taken name raises `EntityAlreadyExistsError` naming it and changes nothing; otherwise the base create runs: an id already stored raises `EntityAlreadyExistsError` with that id, else the public view of the built entity is returned; names stay pairwise distinct |
| CrudService.NewMemberService | app/service/crud/member_service.py:18-35 | as written: prefix `MEM`, context key `memid`, and `remove` reads the field `memid`, which `MemberDelete` does not have; the `MemberPublic` view |
| CrudService.NewMemberServiceCorrected | app/service/crud/member_service.py:18-19 | the corrected member service: as written, but `remove` reads `memberid` |
| CrudService.NewModuleCrudService | app/service/crud/module_service.py:17-25 | as written: prefix `MOD`, context key `modid`, `remove` reads the field `modid`; no uniqueness check, the `ModulePublic` view |
| CrudService.NewModuleCrudServiceCorrected | app/service/crud/module_service.py:17-25 | the corrected module service: as written, but `remove` reads `moduleid` |
| CrudService.NewModuleService | app/service/srv_module.py:25-28 | prefix `MOD`, with `moduleid` as both the context key and the delete field |
| CrudService.PrefixIdKeyMissesDeleteField | app/service/crud/base_service.py:59 | the key `remove` reads is `memid` or `modid`, which is neither `memberid` nor `moduleid` |
| CrudService.RemoveMemberAsWritten | app/service/crud/base_service.py:58-68 | reading `memid` off a `MemberDelete` always raises `KeyError` and deletes nothing |
| CrudService.RemoveModuleAsWritten | app/service/crud/base_service.py:58-68 | reading `modid` off a `ModuleDelete` always raises `KeyError` and deletes nothing |
| CrudService.RemoveMember | app/service/crud/base_service.py:58-68 | `remove` reading the DTO's own id field: a stored entity is removed and nothing else; an absent one raises `EntityNotFoundError` and changes nothing |
| CrudService.RemoveThroughFactories | app/service/crud/base_service.py:58-68 | the same stored member: the factory as written raises `KeyError("memid")`, the corrected one removes exactly that member |
| CrudService.CreateTwice | app/service/crud/module_service.py:14-25 | two creates with identical data both store, under distinct ids |
| MemberRegistry.RegistrationFields | app/service/srv_member.py:25-34 | exactly the `MemberInDB` fields: the given id, `is_active` True and every `MemberCreate` field copied from the input |
| MemberRegistry.RegisteredMember | app/service/srv_member.py:25-36 | a registration that validates stores a valid `MemberInDB` with the given id, `is_active` True and the given name, address and URL |
| MemberRegistry.NotFound | app/service/srv_member.py:40-42 | a 400 `EntityExcError` with no context, whose message differs from the already-registered one |
| MemberRegistry.AlreadyRegistered | app/service/srv_member.py:23-24 | a 400 `EntityExcError` with no context |
| MemberRegistry.MemberRegistry.constructor | app/service/srv_member.py:16-17 | the given repository contents |
| MemberRegistry.MemberRegistry.NextId | app/service/srv_member.py:21-22 | `MKIT` plus the member count plus one; it parses back to that number and meets the `memberid` constraint |
| MemberRegistry.MemberRegistry.Register | app/service/srv_member.py:19-36 | a taken id raises `EntityExcError` and stores nothing; a failed validation stores nothing; on success exactly the validated member is added, and the returned view is it without pin and password, with the given id, `is_active` True and the given name, address and URL; a valid store stays valid |
| MemberRegistry.MemberRegistry.Get | app/service/srv_member.py:38-43 | `EntityExcError` for an unknown id; otherwise the public view of the stored row, which for a valid row is the row without pin and password |
| MemberRegistry.MemberRegistry.ListMembers | app/service/srv_member.py:45-50 | one public view per stored member, none with pin or password; when every stored row is valid it cannot fail |
| MemberRegistry.PublicViews | app/service/srv_member.py:45-50 | the list comprehension over the stored members: the i-th result is the public view of the i-th key, every key exactly once, no pin or password; an error only when some stored row fails validation, and never when all are valid |
| MemberRegistry.MemberRegistry.Update | app/service/srv_member.py:52-60 | an unknown id raises and changes nothing; otherwise every field the update carries overwrites the stored one, the rest stay, and the merged row is stored before its view is made |
| MemberRegistry.MemberRegistry.UpdateSkippingNone | app/service/srv_member.py:52-60 | the corrected update: fields that normalised to None are left as stored, the others overwrite |
| MemberRegistry.MemberRegistry.Remove | app/service/srv_member.py:62-67 | an unknown id raises and changes nothing; otherwise only that member is removed, and a valid store stays valid |
| MemberRegistry.SetFields | app/service/srv_member.py:58 | exactly the update fields whose value is not None |
| MemberRegistry.BlankNameUpdateAsWritten | app/service/srv_member.py:58-60 | a blank name stores `name = None`, leaves the store invalid, and then fails building the view |
| MemberRegistry.BlankNameUpdate | app/service/srv_member.py:58-60 | with None skipped the same update leaves the member as stored and returns its view |
| MemberRegistry.RegisterAfterRemoval | app/service/srv_member.py:21-24 | numbering by count reuses `MKIT002` after `MKIT001` is removed, so registration raises and stores nothing |
| Schemas.FindProvider | app/schemas/sch_module.py:19-21 | the first enum member whose lower-cased value is the key, or None exactly when no member matches |
| Schemas.ValidateProvider | app/schemas/sch_module.py:16-22 | an accepted value equals its member's value ignoring case; a rejected one matches no member and raises `ValueError("Invalid provider: '…'")` |
| Schemas.LowerProviderValues | app/config/__init__.py:27-29 | the two enum values lower-case to `digipos` and `isimple` |
| Schemas.ValidateProviderAccepts | app/schemas/sch_module.py:16-22 | accepted exactly when the value lower-cases to `digipos` or `isimple` |
| Schemas.ValidateProviderIdempotent | app/schemas/sch_module.py:16-22 | validating the value of an accepted member gives that member back |
| Schemas.ProviderAfterValidatorKeeps | app/schemas/sch_module.py:11-22 | the declared field accepts exactly the strings `DIGIPOS` and `ISIMPLE`, and for those the case-insensitive validator gives the same member |
| Schemas.ProviderFieldAsWritten | app/schemas/sch_module.py:11-22 | as declared the enum check runs first: a value is accepted exactly when it is the string `DIGIPOS` or `ISIMPLE`, and the result is that member; anything else is a `ValidationError` on `provider` |
| Schemas.ProviderField | app/schemas/sch_module.py:16-22 | the corrected field: a string is accepted when it equals a member's value ignoring case; otherwise a `ValidationError` on `provider` |
| Schemas.ProviderFieldRejectsLowerCase | app/schemas/sch_module.py:34 | a lower-case provider name such as the schema's own example `digipos` is rejected as declared and accepted by the corrected field, as that member |
| Schemas.ProviderFieldAccepts | app/schemas/sch_module.py:16-22 | the corrected field accepts exactly the two provider names in any letter case |
| Schemas.GeneratedIdValid | app/schemas/sch_member.py:47-49 | an alphanumeric prefix of two or more characters plus a zero-padded counter meets `min_length=5` and `^[a-zA-Z0-9]*$` |
| Schemas.ServiceIdsValid | app/schemas/sch_module.py:47-49 | every `MEM`, `MOD` and `MKIT` id meets the id constraint |
| Schemas.LaxWord | app/schemas/sch_member.py:16 | a string in a `bool` field is read as True exactly when it lower-cases to one of `1 on t true y yes`, as False exactly for `0 off f false n no` |
| Schemas.LaxBool | app/schemas/sch_member.py:16 | Pydantic's lax `bool`: a boolean as it is, 0 and 1 as False and True, the words ignoring case; None, timestamps and other values refused |
| Schemas.LaxBoolExamples | app/schemas/sch_member.py:16 | `"true"` and `"TRUE"` read as True, `"off"` as False, 1 as True; `"maybe"` and 2 are refused |
| Schemas.CoerceBool | app/schemas/sch_member.py:16 | only the named field changes, and only when the lax reading accepts it, to that boolean |
| Schemas.MemberBools | app/schemas/sch_member.py:16-23 | the same keys; every field except `is_active` and `allow_nosign` unchanged |
| Schemas.MemberBoolsOfDefaults | app/schemas/sch_member.py:16-23 | with the defaults filled, each boolean field is a boolean exactly when the given value is absent or lax-readable, and then it is that reading or the default |
| Schemas.Without | app/service/srv_member.py:36 | `model_dump(exclude=…)`: the keys minus the excluded ones, values unchanged |
| Schemas.ValidateMemberInDB | app/schemas/sch_member.py:12-51 | an accepted row has no extra field and is a valid `MemberInDB`; the non-boolean fields keep the given values and the two booleans are the lax reading of the given value or the default; a rejection is a `ValidationError` |
| Schemas.MemberInDBConditions | app/schemas/sch_member.py:12-51 | a row of known fields is a valid `MemberInDB` after defaults and coercion exactly when each field constraint holds |
| Schemas.ValidateMemberInDBAccepts | app/schemas/sch_member.py:12-51 | accepted exactly when there is no extra field and every field constraint holds, i.e. when the row with defaults and coercion is a valid `MemberInDB` |
| Schemas.ValidateMemberPublic | app/schemas/sch_member.py:54-57 | an accepted row is a valid `MemberPublic`: the given public fields are kept, the booleans read laxly with their defaults |
| Schemas.PublicView | app/schemas/sch_member.py:54-57 | the view excluding pin and password: an accepted view has neither and only `MemberPublic` fields; a rejection is a `ValidationError` |
| Schemas.PublicViewOfValidMember | app/schemas/sch_member.py:54-57 | the public view of a valid stored member always validates, equals the member without pin and password |
| Schemas.ValidateMemberCreate | app/schemas/sch_member.py:60-68 | exactly the `MemberCreate` fields, pin and password of six characters or more, `allow_nosign` the lax reading of the given value or False, the other given fields kept |
| Schemas.CreateNameUnconstrained | app/schemas/sch_member.py:15-63 | a create name over 100 characters is accepted by `MemberCreate` but then rejected by `MemberInDB` |
| Schemas.EmptyToNone | app/schemas/sch_member.py:82-90 | the value when it is truthy, None otherwise, so `0` also becomes None; a `SecretStr` instance, which equals none of `None`, `""`, `False`, is kept |
| Schemas.EmptyToNoneIdempotent | app/schemas/sch_member.py:86-90 | normalising twice is normalising once |
| Schemas.NormalizeMemberUpdate | app/schemas/sch_member.py:71-90 | accepted exactly when the name normalises to None or a string, the pin and password to None, a string or a `SecretStr` instance, and each boolean field is None or a lax boolean; the result has exactly the given update fields: the string fields through `empty_to_none`, a non-empty `str` pin or password wrapped as `SecretStr` and a `SecretStr` one kept, the booleans coerced |
| Schemas.PinUpdateWrapped | app/schemas/sch_member.py:75-90 | a pin given as `"123456"` or as `SecretStr("123456")` is accepted and comes out as `SecretStr("123456")` |
| Schemas.EmptyUpdateValid | app/schemas/sch_member.py:71-80 | an empty update is valid and sets nothing |
| Schemas.BlankNameNormalised | app/schemas/sch_member.py:82-90 | a blank name in an update becomes None |
| Schemas.Strip | app/schemas/sch_module.py:30 | `str_strip_whitespace` (Rust `str::trim`, Unicode White_Space): the result is no longer, neither starts nor ends with whitespace, and a whitespace-free string is unchanged |
| Schemas.StripTrims | app/schemas/sch_module.py:30 | the stripped string is a slice `s[a..b]` of the input with only whitespace before `a` and from `b` on |
| Schemas.GeneratedModuleIdAccepted | app/schemas/sch_module.py:30-49 | a generated `MOD` id survives stripping and is accepted |
| Schemas.ValidateModuleCreate | app/schemas/sch_module.py:58-68 | exactly the `ModuleCreate` fields: a provider the declared field accepts, a `base_url`, a string `name`; each of `username`, `msisdn`, `pin`, `password` given as a `str` (wrapped unstripped as a `SecretStr`) or a `SecretStr` (kept); the other given values kept, `email` None when not given |
| Schemas.ValidateModuleInDB | app/schemas/sch_module.py:25-55 | as declared: exactly the `ModuleInDB` fields, the provider kept exactly and one of `DIGIPOS` / `ISIMPLE`, a valid stripped `moduleid`, `base_url` None when not given |
| Schemas.ModuleInDBWith | app/schemas/sch_module.py:25-55 | for a given provider reading: exactly the `ModuleInDB` fields, no extra input field, the provider member's value, `moduleid` and `name` stripped and the id valid, each secret field a stripped `str` wrapped as `SecretStr` or a `SecretStr` instance kept, a `str` `email` stripped, `is_active` read laxly, `base_url` kept, `base_url` and `email` None when not given |
| Schemas.ValidateModuleInDBCorrected | app/schemas/sch_module.py:16-22 | the corrected field: the provider is any letter case of a member's value and is stored as that member's value |
| Schemas.ModuleInDBCorrectedExtends | app/schemas/sch_module.py:11-22 | whatever the declared field accepts the corrected one accepts, with the same result |
| Schemas.CreatedModuleValidates | app/repositories/rep_module.py:21-25 | a valid `ModuleCreate` with a generated `MOD` id added is a valid `ModuleInDB`, and its `SecretStr` fields pass through unchanged |
| Schemas.FillModuleInDB | app/schemas/sch_module.py:25-55 | the stored fields of an accepted row: the given keys plus the three defaulted ones, the provider member's value, `moduleid` and `name` stripped, secret fields as `SecretStr` (a `str` stripped first), `email` stripped or None, `is_active` the lax reading or True, `base_url` as given or None |
| Schemas.ModuleInDBInput | app/schemas/sch_module.py:47-55 | the defaults filled: `base_url` and `email` None and `is_active` True when not given, `is_active` read as a boolean, every other given field unchanged |
| Schemas.ModulePublicView | app/schemas/sch_module.py:71-72 | succeeds exactly when the module has a string `moduleid`, and keeps only that |
| Ascii.Upper | srv_signature.py:59 | `str.upper()` on ASCII: same length, and each character is that character upper-cased |
| Ascii.Lower | app/schemas/sch_module.py:20 | `str.lower()` on ASCII: same length, and each character is that character lower-cased |
| Ascii.UpperAbsorbsCase | srv_signature.py:59 | upper-casing is insensitive to a prior upper- or lower-casing |
| Ascii.LowerAbsorbsCase | app/schemas/sch_module.py:20 | lower-casing is insensitive to a prior upper- or lower-casing |
| Ascii.LowerOfLowerCase | app/schemas/sch_module.py:20 | a string without capital letters is its own lower-case form |
| Validators.Body | app/schemas/cmn_validator.py:15-18 | the string without one final newline: the string is the body, or the body plus a newline |
| Validators.Run | app/schemas/cmn_validator.py:15-18 | the greedy run of a character class: every character before it is in the class, the next is not |
| Validators.ClassPlusDollarIff | app/schemas/cmn_validator.py:15-31 | for a newline-free class, `re.match("^[…]+$")` accepts exactly the non-empty class strings, with or without one final newline |
| Validators.CharsetValidator | app/schemas/cmn_validator.py:13-33 | under three characters raises the minimum-length `ValueError`; otherwise a failure is the character-set `ValueError`; an accepted value comes back unchanged |
| Validators.IsAlphanumericUnderscore | app/schemas/cmn_validator.py:13-20 | `is_alphanumeric_underscore`: under three characters the minimum-length error, otherwise a failure is the `[a-zA-Z0-9_]` error; an accepted value unchanged |
| Validators.IsAlphanumericWithSpace | app/schemas/cmn_validator.py:26-33 | `is_alphanumric_withspace`: the same with the `[a-zA-Z0-9 ]` error |
| Validators.AlphanumericUnderscoreAccepts | app/schemas/cmn_validator.py:13-20 | accepted iff three or more characters and the body is non-empty and all `[a-zA-Z0-9_]`, one final newline allowed |
| Validators.AlphanumericWithSpaceAccepts | app/schemas/cmn_validator.py:26-33 | the same for `[a-zA-Z0-9 ]` |
| Validators.CharsetValidatorsAcceptTrailingNewline | app/schemas/cmn_validator.py:16-19 | `"ab\n"` passes both validators as written (the newline counts toward the length) and fails the whole-string versions |
| Validators.StrictCharsetAccepts | app/schemas/cmn_validator.py:13-33 | the corrected validators accept iff three or more characters, every one from the class |
| Validators.IsAlphanumericUnderscoreStrict | app/schemas/cmn_validator.py:13-20 | the corrected underscore validator: the same errors and an accepted value unchanged |
| Validators.IsAlphanumericWithSpaceStrict | app/schemas/cmn_validator.py:26-33 | the corrected space validator: the same errors and an accepted value unchanged |
| Validators.FirstLineLength | app/schemas/cmn_validator.py:52 | the index of the first newline, or the whole length |
| Validators.PasswordPatternIff | app/schemas/cmn_validator.py:52-53 | the password pattern under `re.match` accepts exactly what it accepts as a whole-string match, with or without one final newline |
| Validators.ValidatePassword | app/schemas/cmn_validator.py:39-57 | under six characters raises the length error; a space raises the space error; an accepted value comes back unchanged |
| Validators.ValidatePasswordStrict | app/schemas/cmn_validator.py:39-57 | the corrected validator: under six characters the length error, a space the space error, otherwise a failure is the class error; an accepted value comes back unchanged |
| Validators.PasswordStrictAccepts | app/schemas/cmn_validator.py:39-57 | the corrected validator accepts exactly six or more characters, no space, a letter or digit and a special character |
| Validators.PasswordStrictImpliesAccepted | app/schemas/cmn_validator.py:39-57 | whatever the corrected validator accepts the validator as written accepts too |
| Validators.PasswordAcceptsNewlineFree | app/schemas/cmn_validator.py:39-57 | on newline-free input: accepted iff six or more characters, no space, a letter or digit, and a special character |
| Validators.PasswordAcceptsTrailingNewline | app/schemas/cmn_validator.py:52-53 | `"abcde!\n"` is accepted as written and rejected by the whole-string check |
| Validators.TabIsNeitherSpaceNorSpecial | app/schemas/cmn_validator.py:49-56 | tabs pass the space check but never count as special, so `"abc\t\t1"` raises the class error |
| Base64.CharSextet | srv_signature.py:65 | defined exactly on the 64 alphabet characters, padding excluded |
| Base64.SextetCharRoundTrip | srv_signature.py:65 | every sextet maps to an alphabet character and back |
| Base64.EncodeGroup | srv_signature.py:65 | one to three bytes become four characters |
| Base64.Encode | srv_signature.py:65 | the output has four characters per started group of three bytes |
| Base64.DecodeQuad | srv_signature.py:65 | a decoded group of four is one to three bytes, three unless it is the padded last group; its first two characters are alphabet characters |
| Base64.Decode | srv_signature.py:65 | a string decodes only when its length is a multiple of four, into three bytes per group less at most two |
| Base64.RegroupArithmetic | srv_signature.py:65 | regrouping three bytes into four sextets and back gives the bytes |
| Base64.DecodeEncodeOne | srv_signature.py:65 | a one-byte last group decodes back |
| Base64.DecodeEncodeTwo | srv_signature.py:65 | a two-byte last group decodes back |
| Base64.DecodeEncodeThree | srv_signature.py:65 | a three-byte group decodes back |
| Base64.DecodeEncodeGroup | srv_signature.py:65 | any encoded group decodes back |
| Base64.DecodeEncode | srv_signature.py:65 | decoding undoes encoding for every byte sequence |
| Base64.GroupLayout | srv_signature.py:65 | an encoded group is alphabet characters then exactly the padding its length calls for |
| Base64.ConcatLayout | srv_signature.py:65 | unpadded groups followed by a padded one keep that layout |
| Base64.EncodeLayout | srv_signature.py:65 | the whole encoding is alphabet characters followed by exactly the padding its length calls for |
| Signature.RStrip | srv_signature.py:65 | `rstrip`: a prefix of the input that does not end in the character, with only that character removed |
| Signature.TransactionRaw | srv_signature.py:59 | `OtomaX|` then the fields joined by `|`: length is 12 plus the fields', the password last and verbatim |
| Signature.BalanceRaw | srv_signature.py:85 | `OtomaX|CheckBalance|` then member id, pin and password, the password last and verbatim |
| Signature.DepositRaw | srv_signature.py:109 | `OtomaX|ticket|` then member id, pin, password and amount, the amount last and verbatim |
| Signature.Replace | srv_signature.py:66 | same length; exactly the occurrences of one character replaced |
| Signature.StripPadding | srv_signature.py:65 | stripping `=` from an encoding removes exactly its padding |
| Signature.StrippedDigestLayout | srv_signature.py:62-65 | a 20-byte digest encodes to 28 characters ending in one `=`, the first 27 from the alphabet |
| Signature.EncodeDigest | srv_signature.py:62-66 | 27 base64url characters; mapping them back and adding one `=` is the standard encoding of the digest |
| Signature.MappedDigest | srv_signature.py:64-65 | after stripping the one `=` of a SHA-1 digest's encoding and swapping `+`/`/` for `-`/`_`, 27 url-safe characters remain and swapping back restores the standard encoding |
| Signature.SignatureDecodes | srv_signature.py:65-66 | mapping the characters back and restoring the `=` gives the standard encoding, which decodes to the digest |
| Signature.SignatureInjective | srv_signature.py:65-66 | two digests give the same signature iff they are equal |
| Signature.TransactionSignature | srv_signature.py:11-68 | 27 base64url characters which, mapped back and re-padded, are exactly the standard base64 of the SHA-1 of the raw transaction string, and so decode to that digest |
| Signature.BalanceCheckSignature | srv_signature.py:71-89 | the same, exactly, for the raw balance-check string |
| Signature.DepositTicketSignature | srv_signature.py:92-113 | the same, exactly, for the raw deposit-ticket string |
| Signature.TransactionIgnoresCase | srv_signature.py:59 | upper- or lower-casing `memberid` and `product` first gives the same transaction signature |
| Signature.BalanceAndDepositIgnoreCase | srv_signature.py:85-109 | lower-casing `memberid` first gives the same balance-check and deposit-ticket signatures |
| Signature.TransactionRawKeepsDest | srv_signature.py:59 | `dest` is taken verbatim: different destinations give different raw strings |
| Signature.TransactionRawKeepsPassword | srv_signature.py:59 | `password` is taken verbatim: different passwords give different raw strings |
| Exceptions.NewError | app/custom/exceptions/cst_exceptions.py:17-28 | the message is the given one unless it is missing or empty, then the class default, so never empty; the context is the given one or `{}`; the name is the application name |
| Exceptions.StatusCode | app/custom/exceptions/cst_exceptions.py:14-77 | one of 400, 401, 404, 409, 500; 500 only for the base class; 404 exactly for `EntityNotFoundError` and `UserNotFoundError` |
| Exceptions.DefaultMessage | app/custom/exceptions/cst_exceptions.py:14-77 | every default message is a non-empty sentence ending in a full stop |
| Exceptions.StatusCodeTable | app/custom/exceptions/cst_exceptions.py:14-77 | the status codes of the class attributes: 500, 404, 409 and 401 for the four 401 classes |
| Exceptions.AuthFamily | app/custom/exceptions/cst_exceptions.py:45-77 | exactly five classes are `AuthError`s |
| Exceptions.UserNotFoundIsTheOddAuthError | app/custom/exceptions/cst_exceptions.py:66-70 | among the `AuthError`s only `UserNotFoundError` answers 404; the others answer 401 |
| Exceptions.GenerateResponses | app/custom/exceptions/utils.py:4-20 | the loop builds exactly the entry-by-entry responses map |
| Exceptions.Responses | app/custom/exceptions/utils.py:4-20 | the last class given writes its status code's entry |
| Exceptions.ResponsesKeys | app/custom/exceptions/utils.py:6-8 | the keys are exactly the status codes of the given classes |
| Exceptions.ResponsesLastWins | app/custom/exceptions/utils.py:7-19 | a status code's entry documents the last class in argument order that has it |
| Audit.SoftDeleted | app/models/audit_mixin.py:42-45 | the record is deleted, stamped with the clock reading and the actor; the creation and update columns are unchanged |
| Audit.Restored | app/models/audit_mixin.py:47-50 | the record is not deleted and names no deleter; the creation and update columns are unchanged |
| Audit.SoftDeleteRestoreRoundTrip | app/models/refactored/audit_mixin.py:46-54 | soft delete then restore gives back a record that was active and named no deleter |
| Audit.SoftDeleteOverwrites | app/models/audit_mixin.py:42-45 | with no guard, a second soft delete overwrites the first one's timestamp and actor |
| Audit.RestoreActiveUnchanged | app/models/audit_mixin.py:47-50 | restoring an active record that names no deleter changes nothing |
| Audit.RestoreIdempotent | app/models/refactored/audit_mixin.py:51-54 | restoring twice is restoring once |
| Audit.AuditMixin.constructor | app/models/refactored/audit_mixin.py:33-44 | a new record has every audit column None and is active |
| Audit.AuditMixin.IsDeleted | app/models/audit_mixin.py:52-56 | `is_deleted` holds exactly when the columns satisfy `Audit.Deleted`, the one deleted-state predicate both mixins share: a deletion timestamp is set |
| Audit.AuditMixin.SoftDelete | app/models/audit_mixin.py:42-45 | the new columns are the soft-deleted ones of the old, and the record is deleted |
| Audit.AuditMixin.Restore | app/models/audit_mixin.py:47-50 | the new columns are the restored ones of the old, and the record is active |
| Audit.AuditMixin.IsActive | app/models/audit_mixin.py:52-60 | `is_active` is always the negation of `is_deleted` |
| Audit.DeleteThenRestore | app/models/refactored/audit_mixin.py:46-63 | a fresh record soft-deleted then restored is active with every column back to its default |
| AuditDecorators.AuditableRecord.constructor | app/models/utils/decorators.py:18-53 | a record holding the given audit columns |
| AuditDecorators.AuditableRecord.IsDeleted | app/models/utils/decorators.py:91-94 | `is_deleted` holds exactly when the columns satisfy the shared predicate `Audit.Deleted`: a deletion timestamp is set |
| AuditDecorators.AuditableRecord.IsActive | app/models/utils/decorators.py:91-97 | `is_active` is the complement of `is_deleted` |
| AuditDecorators.AuditableRecord.SoftDelete | app/models/utils/decorators.py:59-72 | the columns are soft-deleted even when the hook raises; the result is True unless the hook returned False or raised |
| AuditDecorators.AuditableRecord.Restore | app/models/utils/decorators.py:74-89 | an active record is left alone and False returned; a deleted one is restored and the hook decides the result |
| AuditDecorators.AuditableRecord.Info | app/models/utils/decorators.py:99-109 | the six columns as stored, and `is_active`/`is_deleted` that are complements and agree with `deleted_at` |
| AuditDecorators.RestoreReportsTrueOnlyWhenDeleted | app/models/utils/decorators.py:74-85 | a restore that reports True found a deleted record and left it active |
| AuditDecorators.SoftDeleteWithFailingHook | app/models/utils/decorators.py:59-72 | a raising hook makes `soft_delete` report False although the record is now deleted |
| AuditDecorators.QueryActive | app/models/utils/decorators.py:122-125 | a subset of the keys: exactly the rows whose `deleted_at` is NULL |
| AuditDecorators.QueryDeleted | app/models/utils/decorators.py:126-129 | the keys not in the active query |
| AuditDecorators.QueryByUser | app/models/utils/decorators.py:130-135 | only rows created by the user; without `include_deleted` only active ones; with it every row the user created |
| AuditDecorators.QueriesPartition | app/models/utils/decorators.py:122-128 | the active and the deleted queries split the keys: together all of them, never one in both |
| AuditDecorators.QueryByUserExcludesDeleted | app/models/utils/decorators.py:130-135 | by default the user's query is the full user query restricted to active rows |
| AuditDecorators.CountActive | app/models/utils/decorators.py:185-188 | zero exactly when every row is deleted |
| AuditDecorators.CountDeleted | app/models/utils/decorators.py:189-192 | zero exactly when no row is deleted |
| AuditDecorators.CountsPartition | app/models/utils/decorators.py:185-191 | active plus deleted counts is the table's size |
| AuditDecorators.BulkSoftDeleted | app/models/utils/decorators.py:137-159 | the same keys; the deleted rows become the old ones plus every listed key; unlisted and already-deleted rows are unchanged |
| AuditDecorators.BulkRestored | app/models/utils/decorators.py:164-180 | the same keys; the deleted rows become the old ones minus every listed key; unlisted and active rows are unchanged |
| AuditDecorators.BulkSoftDeleteChangesMatched | app/models/utils/decorators.py:137-159 | the rows the bulk soft delete changes are exactly the listed active ones |
| AuditDecorators.BulkRestoreChangesMatched | app/models/utils/decorators.py:164-180 | the rows the bulk restore changes are exactly the listed deleted ones |
| AuditDecorators.BulkRoundTrip | app/models/utils/decorators.py:137-180 | bulk restore after bulk soft delete of active rows naming no deleter gives the table back |
| AuditDecorators.EmptyBulkUnchanged | app/models/utils/decorators.py:137-180 | an empty id list leaves the table as it is under both bulk operations |
| AuditDecorators.AuditTable.constructor | app/models/utils/decorators.py:119-200 | a table holding the given rows |
| AuditDecorators.AuditTable.BulkSoftDelete | app/models/utils/decorators.py:137-162 | an empty id list returns 0 and changes nothing; a database error rolls back, changes nothing and raises; otherwise the table is bulk soft-deleted and the count is the number of rows changed |
| AuditDecorators.AuditTable.BulkRestore | app/models/utils/decorators.py:164-183 | an empty id list returns 0 and changes nothing; a database error rolls back, changes nothing and raises; otherwise the table is bulk restored and the count is the number of rows changed |
| AuditDecorators.SoftDeletableRecord.constructor | app/models/utils/decorators.py:244-250 | a new record is not deleted |
| AuditDecorators.SoftDeletableRecord.SoftDelete | app/models/utils/decorators.py:252-255 | the record is deleted at the clock reading; a raising hook propagates |
| AuditDecorators.SoftDeletableRecord.Restore | app/models/utils/decorators.py:257-260 | with no guard the record is active afterwards and the hook runs even on an active one |
| RecordStatus.StatusesPartition | app/database/repositories/filter_helpers.py:66-105 | when the instance has `is_active`, exactly one of valid, soft-deleted and inactive holds |
| RecordStatus.MissingIsActiveHasNoStatus | app/database/repositories/filter_helpers.py:76-103 | the one gap: without `is_active` an unflagged record has none of the three statuses, since the two defaults differ |
| RecordStatus.FiltersMatchHelpers | app/database/repositories/filter_helpers.py:15-105 | on rows whose status columns are non-NULL booleans each filter selects exactly what its instance helper accepts; the all-records filter selects everything |
| RecordStatus.NullColumnsDisagree | app/database/repositories/filter_helpers.py:24-105 | on NULL the filters and helpers part ways: `is_active` NULL is inactive to the helper but not to the filter; a NULL flag is valid to the helper but not to the filter |
| RecordStatus.FiltersPartition | app/database/repositories/filter_helpers.py:15-48 | with non-NULL boolean status columns every row satisfies exactly one of the three filters |
| RecordStatus.DeletionTimestampInvalidates | app/database/repositories/helpers.py:18-26 | under the three-condition variant any deletion timestamp keeps a record from being valid (the helper returns False or raises), whatever its flags |
| RecordStatus.StrictImpliesValid | app/database/repositories/helpers.py:18-26 | on every instance, the three-condition helper returning True and the three-condition filter imply the two-condition ones |
| RecordStatus.StrictFilterMatchesHelper | app/database/repositories/helpers.py:6-26 | with non-NULL flags and `deleted_at` NULL or a timestamp, the variant's filter selects a row exactly when its helper returns True |
| RecordStatus.StrictDiffersOnlyByTimestamp | app/database/repositories/helpers.py:25-26 | on an instance with all three attributes, the variant returns False for a record the two-condition helper accepts exactly when it carries a deletion timestamp |
| RecordStatus.ValidRecordFilter | app/database/repositories/filter_helpers.py:15-24 | selects exactly `is_active` True and the flag False |
| RecordStatus.SoftDeletedFilter | app/database/repositories/filter_helpers.py:27-36 | selects exactly the flag True |
| RecordStatus.InactiveFilter | app/database/repositories/filter_helpers.py:39-48 | selects exactly `is_active` False and the flag False |
| RecordStatus.AllRecordsFilter | app/database/repositories/filter_helpers.py:51-60 | selects every row |
| RecordStatus.IsValidRecord | app/database/repositories/filter_helpers.py:66-78 | a valid record has a truthy `is_active` and is not soft-deleted |
| RecordStatus.IsSoftDeleted | app/database/repositories/filter_helpers.py:81-90 | holds exactly when the flag is present and truthy |
| RecordStatus.IsInactive | app/database/repositories/filter_helpers.py:93-105 | an inactive record has a falsy `is_active` and is not soft-deleted |
| RecordStatus.ValidRecordFilterStrict | app/database/repositories/helpers.py:6-22 | selects exactly the two-condition filter's rows whose `deleted_at` is NULL |
| RecordStatus.IsValidRecordStrict | app/database/repositories/helpers.py:25-26 | follows the short-circuit of `and`/`not`: a missing `is_active` raises AttributeError; a falsy `is_active` gives False; otherwise a missing `is_deleted_flag` raises, a truthy flag gives False; otherwise a missing `deleted_at` raises. With all three attributes present it never raises, and any returned value is True exactly when the two-condition helper holds and `deleted_at` is falsy |
| RepoAudit.SoftDeletedRow | app/database/repositories/repo_audit.py:65-67 | the flag is True, the deleter is the actor and the deletion time is the clock reading; every other column is unchanged; the record is now soft-deleted, neither valid nor inactive |
| RepoAudit.RestoredRow | app/database/repositories/repo_audit.py:85-87 | the flag is False and the deleter and deletion time are NULL; every other column is unchanged; the record is not soft-deleted, and valid exactly when it is active |
| RepoAudit.RestoreUndoesSoftDelete | app/database/repositories/repo_audit.py:65-87 | restoring after a soft delete gives the same entity as restoring alone |
| RepoAudit.SoftDeleteRestoreRoundTrip | app/database/repositories/repo_audit.py:48-89 | on an entity in the restored state, soft delete then restore gives it back unchanged |
| RepoAudit.AuditLog | app/database/repositories/repo_audit.py:106-113 | exactly the six audit columns, each as stored (a missing one NULL) |
| RepoAudit.AuditLogAfterSoftDelete | app/database/repositories/repo_audit.py:65-113 | after a soft delete the log shows the actor and the time, and its other four columns as before |
| RepoAudit.AuditLogAfterRestore | app/database/repositories/repo_audit.py:86-113 | after a restore the log shows no deleter and no deletion time |
| RepoAudit.AuditMixinRepository.constructor | app/database/repositories/repo_audit.py:38-46 | the repository works on the given session |
| RepoAudit.AuditMixinRepository.SoftDelete | app/database/repositories/repo_audit.py:48-69 | an unknown id raises `AuditMixinError("Entity not found for soft_delete: …")` before any write; otherwise only that entity is soft-deleted and one commit is issued, whose failure is the error |
| RepoAudit.AuditMixinRepository.Restore | app/database/repositories/repo_audit.py:71-89 | an unknown id raises `AuditMixinError("Entity not found for restore: …")` before any write; otherwise only that entity is restored and one commit is issued |
| RepoAudit.AuditMixinRepository.GetAuditLog | app/database/repositories/repo_audit.py:91-113 | the empty dict exactly for an unknown id, otherwise the entity's audit log |
| RepoAudit.SoftDeleteThenRestore | app/database/repositories/repo_audit.py:48-89 | soft delete then restore through the repository leaves every entity as it was, for an entity in the restored state |
| LiteRepo.Updated | app/crud/repositories/lite_repo_user.py:116-117 | every pair whose key is a mapped attribute is written into the user; every other attribute keeps its presence and value |
| LiteRepo.UserSoftDeleted | app/crud/repositories/lite_repo_user.py:142 | `deleted_at` is set and no other attribute of the user changes |
| LiteRepo.SoftDeleteIdempotent | app/crud/repositories/lite_repo_user.py:142 | soft-deleting a user twice gives the same user as soft-deleting once |
| LiteRepo.SoftDeleteKeepsFirstDeletion | app/crud/repositories/lite_repo_user.py:142 | a truthy `deleted_at` is kept; a falsy one is replaced by `updated_at` (NULL when missing); `deleted_by` is untouched |
| LiteRepo.SetAttributes | app/crud/repositories/lite_repo_user.py:116-117 | the `setattr` loop yields exactly the updated user |
| LiteRepo.UnknownKeysIgnored | app/crud/repositories/lite_repo_user.py:158-161 | a filter none of whose keys is a mapped attribute applies no condition: every user matches |
| LiteRepo.Select | app/crud/repositories/lite_repo_user.py:91-93 | the result lists every row that satisfies the query, once each, and nothing else |
| LiteRepo.LiteUserRepo.constructor | app/crud/repositories/lite_repo_user.py:40-46 | the repository works on the session it is given |
| LiteRepo.LiteUserRepo.Create | app/crud/repositories/lite_repo_user.py:48-70 | a key that is not a mapped attribute is a `TypeError` with nothing changed; otherwise one flush; success iff the flush succeeds and the id is new, and then the user (with its id) is added; failure is `DataIntegrityError` with the table unchanged; nothing is committed |
| LiteRepo.LiteUserRepo.GetById | app/crud/repositories/lite_repo_user.py:72-83 | None exactly when no user has the id; otherwise that user |
| LiteRepo.LiteUserRepo.GetAll | app/crud/repositories/lite_repo_user.py:85-93 | every user, deleted or not, once each; as many as the table holds |
| LiteRepo.LiteUserRepo.Update | app/crud/repositories/lite_repo_user.py:95-123 | unknown id: `DataIntegrityError("User not found.")` with nothing changed; otherwise the user becomes the updated user, one flush, and a failed flush raises `DataIntegrityError`; nothing is committed |
| LiteRepo.LiteUserRepo.SoftDelete | app/crud/repositories/lite_repo_user.py:125-146 | unknown id: `DataIntegrityError` with nothing changed; a mapped class without `deleted_at` (as `User` is declared), or without `updated_at` when `deleted_at` is falsy: `AttributeError` for that attribute, before any flush, with nothing changed; otherwise only that user changes, to its soft-deleted form, one flush, and success iff the flush succeeds; nothing is committed |
| LiteRepo.LiteUserRepo.Filter | app/crud/repositories/lite_repo_user.py:148-163 | exactly the users matching every pair whose key is a mapped attribute, once each; other pairs are ignored |
| LiteRepo.EmptyFilterSelectsAll | app/crud/repositories/lite_repo_user.py:157-163 | an empty filter lists every user |
| LiteRepo.SoftDeleteTwice | app/crud/repositories/lite_repo_user.py:137-146 | soft-deleting the same user twice leaves the table as one soft delete does; when the class lacks an attribute read, both calls raise the same `AttributeError` and the table is unchanged |
| Sessions.Session.Insert | app/crud/repositories/lite_repo_user.py:63-68 | `add` then `flush`: the flush is recorded; it succeeds iff the database accepts it and the key is new, and then the row is pending; nothing is committed |
| Sessions.Session.Flush | app/crud/repositories/lite_repo_user.py:118-121 | one flush recorded; pending and committed tables unchanged |
| Sessions.Session.Commit | app/database/core/uow.py:15-16 | one commit recorded; on success the committed table becomes what the session sees |
| Sessions.Session.Rollback | app/database/core/uow.py:19-20 | one rollback recorded; on success the pending changes are discarded |
| Sessions.Session.Close | app/crud/uow/async_uow.py:67-68 | one close recorded; uncommitted changes are discarded |
| Sessions.CommitsSnoc | app/crud/uow/async_uow.py:28-31 | one more call adds a commit exactly when it is a successful commit |
| Sessions.CommitsAppend | app/crud/uow/async_uow.py:28-31 | commits of consecutive stretches of a trace add up |
| Sessions.CommitsWithout | app/crud/uow/async_uow.py:57-61 | a trace with no successful commit counts none |
| Uow.UnitOfWork.constructor | app/database/core/uow.py:11-13 | over the given session, not yet committed |
| Uow.UnitOfWork.Commit | app/database/core/uow.py:15-17 | every call reaches the session (no guard); the flag is set once a commit succeeds; on success the committed table is the session's |
| Uow.UnitOfWork.Rollback | app/database/core/uow.py:19-20 | one rollback reaches the session; the flag is untouched |
| Uow.UnitOfWork.Exit | app/database/core/uow.py:25-34 | with an exception: one rollback, the exception propagates (or the rollback's error replaces it), nothing committed; without, and not committed: one commit whose failure propagates; without, and committed: no call; the session is never closed |
| Uow.CommitTwiceThenExit | app/database/core/uow.py:15-34 | two explicit commits reach the session twice, and leaving the block adds no third |
| AsyncUow.AsyncUnitOfWork.constructor | app/crud/uow/async_uow.py:11-13 | over the given session, not committed, no repository yet; the flag agrees with the commits made since |
| AsyncUow.AsyncUnitOfWork.Enter | app/crud/uow/async_uow.py:17-26 | a fresh user repository over the unit of work's own session |
| AsyncUow.AsyncUnitOfWork.TraceGrows | app/crud/uow/async_uow.py:28-31 | appending a call to the session's trace adds a commit to this unit of work's count exactly when it is a successful commit |
| AsyncUow.AsyncUnitOfWork.Commit | app/crud/uow/async_uow.py:28-33 | once committed, no call reaches the session; otherwise one commit, and the flag records its success; the flag always equals whether exactly one successful commit has been made |
| AsyncUow.AsyncUnitOfWork.Rollback | app/crud/uow/async_uow.py:35-38 | one rollback reaches the session; the flag is untouched |
| AsyncUow.AsyncUnitOfWork.Exit | app/crud/uow/async_uow.py:46-70 | with an exception: rollback, and the block's own exception propagates even if the rollback fails; without: commit unless committed, a failed commit propagates; the session is closed last on every path, leaving nothing pending; at most one successful commit in the unit's lifetime |
| AsyncUow.CommitTwiceThenExit | app/crud/uow/async_uow.py:28-61 | explicit commits after the first, and the exit, do not reach the session: one commit in all |
| AsyncUow.FailedCommitRetriedOnExit | app/crud/uow/async_uow.py:28-66 | a failed commit leaves the flag unset, so exit tries again; the second failure propagates and the session is still closed |
| AsyncUow.RaisingBlock | app/crud/uow/async_uow.py:57-68 | a raising block is rolled back and closed, commits nothing, and its exception propagates |
| Auth.Authenticate | app/service/auth/credential_service.py:17-32 | success iff the username is stored and the password verifies against its hash, and then the stored user; unknown username: `UserNotFoundError`; wrong password: `UserPasswordError` |
| Auth.AuthenticateErrors | app/service/auth/credential_service.py:23-28 | both failures are `AuthError`s, answering 404 for the unknown user and 401 for the wrong password |
| Auth.Login | app/service/auth/auth_service.py:23-27 | errors of the credential check propagate unchanged; otherwise the token made from the user's username |
| Auth.LoginNeverNone | app/service/auth/auth_service.py:25-26 | the `None` answer is unreachable: every outcome is a token or an error |
| Auth.GetUserFromToken | app/service/auth/auth_service.py:30-38 | decode errors propagate; a falsy `sub` is `AuthError` (missing subject); success iff `sub` is a non-empty string naming a stored user, and then that user |
| Auth.LoginThenResolve | app/service/auth/auth_service.py:23-38 | a token issued by login and decoded back to its subject resolves to the same user the credential check returned |
| AdminSeed.ChosenAdmin | app/service/user/srv_admin_seed.py:59-64 | the given admin data, or the default admin `admin` / `admin@123` |
| AdminSeed.SuperuserCandidates | app/service/user/srv_admin_seed.py:38-41 | exactly the rows with `is_superuser IS TRUE` and `deleted_at IS NULL` |
| AdminSeed.HasActiveSuperuser | app/service/user/srv_admin_seed.py:33-44 | `MultipleResultsFound` iff more than one candidate; False when there is none; True only when some candidate is active (a missing `is_active` counts as active) |
| AdminSeed.AsWrittenAgreesOnAtMostOne | app/service/user/srv_admin_seed.py:33-44 | with at most one candidate the check as written answers as the intended one does |
| AdminSeed.AdminRow | app/service/user/srv_admin_seed.py:66-86 | the seeded row is a live, active superuser with the admin's username and the system actor id, holding the hash of the password and not the password |
| AdminSeed.SeedIntoEmptyFindsOne | app/service/user/srv_admin_seed.py:33-87 | after seeding a table with no live superuser, the admin is the only candidate and the check answers True |
| AdminSeed.SeedSatisfiesCorrectedCheck | app/service/user/srv_admin_seed.py:33-87 | after seeding, the intended check answers True whatever the table held |
| AdminSeed.InactiveSuperuserBreaksIdempotence | app/service/user/srv_admin_seed.py:38-44 | one inactive superuser: the check answers False, seeding adds the admin, and the next check raises `MultipleResultsFound` |
| AdminSeed.AdminSeedService.constructor | app/service/user/srv_admin_seed.py:27-31 | over the given session, hasher and system actor id |
| AdminSeed.AdminSeedService.CreateAdmin | app/service/user/srv_admin_seed.py:78-106 | True iff the insert's flush and the commit both succeed, and then the admin row is committed; any failure is `InternalSeedingError("Failed to seed default admin.")` with the username and actor id, and nothing is committed |
| AdminSeed.AdminSeedService.SeedDefaultAdmin | app/service/user/srv_admin_seed.py:46-106 | an error of the check propagates; True from the check gives False with no database call; False gives the outcome of creating the chosen admin |
| AdminSeed.AdminSeedService.SeedDefaultAdminCorrected | app/service/user/srv_admin_seed.py:46-106 | as `seed_default_admin`, with the intended check: any active, live superuser means False |
| AdminSeed.SeedTwiceCorrected | app/service/user/srv_admin_seed.py:46-57 | with the intended check, seeding twice answers True then False, and only the one admin row is added |
| AdminSeed.SeedTwiceFromEmpty | app/service/user/srv_admin_seed.py:46-57 | from a table with no live superuser, the check as written also answers True then False |

## Left out

- Logging (loguru calls throughout) is I/O and has no effect on results.
- The `asyncio.Lock` around `_next_id` is concurrency; id generation is modelled sequentially.
- Clocks (`datetime.now()`, `func.now()`, server defaults) are an input; ORM `onupdate` defaults are not applied.
- Hashing (argon2 hash and verify) and SHA-1 are uninterpreted parameters; JWT creation and decoding are a parameter whose decode yields a payload or an error.
- Auth.Login: `create_token` is declared for a user record but is called with the username; the model takes the token encoder as a function of the username.
- IP addresses, URLs and e-mail addresses are opaque values; only length, pattern and optionality constraints are modelled.
- Python's Unicode `str.upper`/`str.lower` are modelled on ASCII only.
- Entity ids are opaque canonical strings: the `to_uuid_str` / `pk_for_query` canonicalisation is not modelled.
- LiteRepo.LiteUserRepo.Create: the database's own error text appended to `DataIntegrityError` messages is not modelled (only the fixed prefix); a rejected insert leaves no pending row, and uniqueness constraints other than the primary key are not modelled.
- LiteRepo.LiteUserRepo.Update: `setattr` of a name that is not a mapped column (a plain Python attribute) has no effect on the stored row in the model.
- The `session.refresh` calls after a flush re-read what was just written and are not modelled.
- Schemas.Quote: `{value!r}` is modelled as the value between single quotes; Python's `repr` escaping of quotes, backslashes and control characters is not modelled.
- AuditDecorators.AuditTable.BulkSoftDelete: the `session.rollback()` on `SQLAlchemyError` is modelled as leaving the table unchanged; that it also discards the session's other pending changes is not modelled, since the table is the only state.
- AuditDecorators.AuditTable.BulkRestore: as for the bulk soft delete, the rollback's effect on other pending changes is not modelled.
- `AsyncUnitOfWork.flush` is a one-line forward to the session's flush and is not modelled separately.
- The `age_in_days` and `timestamps_only` options of the `auditable` decorator are not modelled.
- `ADM_ID` is read from settings that do not declare it; it is a parameter of the seeding service.
- AdminSeed.AdminSeedService.CreateAdmin: `SQLiteUserRepository.create` (app/database/repositories/repo_user.py) takes only the user data, while seeding also passes the hash, actor id and superuser flag. The model inserts the admin row with those values and flushes; the `created_by` / `updated_by` actor columns are not written. Also, `SQLiteUserRepository(uow.session, autocommit=False)` (app/service/user/srv_admin_seed.py:80) passes an argument that the constructor (app/database/repositories/repo_user.py:14) does not accept. As written, this `TypeError` is raised inside the `try` and always becomes `InternalSeedingError`; the model lets the insertion go ahead.
- AdminSeed.SuperuserCandidates: the `User` model (app/models/db_user.py) declares no `deleted_at` column, so `User.deleted_at` (app/service/user/srv_admin_seed.py:40) raises `AttributeError` when the query is built. The model reads a missing column as NULL: it describes the query for a `User` table that has the column.
- AdminSeed.HasActiveSuperuser: for the same reason the check as written raises `AttributeError` before reaching the database; the model answers from the rows instead.
- AdminSeed.AdminSeedService.SeedDefaultAdmin: besides the check's `AttributeError`, the source calls `self.hasher.hash_value` (app/service/user/srv_admin_seed.py:76), which `HasherService` does not define (it has `hash_password`, app/service/security/srv_hasher.py:10). The call is outside the `try`, so as written seeding raises `AttributeError` uncaught. The model takes the hash function as a parameter and describes seeding as evidently intended.
- Exceptions.NewError: app/custom/exceptions/cst_exceptions.py:5 reads `get_settings().APP_NAME`, but the settings class declares only the lower-case field `app_name` (app/config/__init__.py:42), so as written importing the module raises `AttributeError`. The model reads `app_name` instead: every error is named `"MKIT_WRAPPER"`.
- Schemas.ValidateMemberInDB: `pin` and `password` are `SecretStr` fields of `MemberInDB`; the model keeps them as plain `str` values with the same length check, and does not accept a `SecretStr` instance as their input.
- MemoryRepo.InMemoryRepository: app/repositories/rep_member.py:3 and app/repositories/rep_module.py:3 import `AbstractRepository` from app/repositories/base_repo.py, which defines only `SyncRepository` (line 6) and `AsyncRepository` (line 25), so importing either module raises ImportError; the model describes the repository classes as evidently intended, not the failing import.
- MemberRegistry.MemberRegistry: app/service/srv_member.py:4 imports the same missing `AbstractRepository`, so the module raises ImportError on import; the model describes `MemberService` as evidently intended.
- CrudService.NewMemberService: app/service/crud/member_service.py:4 imports `AsyncInMemoryMemberRepo` from app/repositories/rep_member.py, which defines only `InMemoryMemberRepository` (line 9), so the import raises ImportError; the model describes the service as evidently intended, over a plain in-memory store.
- CrudService.NewModuleService: app/service/srv_module.py:10 imports `AsyncInMemoryModuleRepo` from `app.repositories.rep_module`, but that class lives in app/repositories/memory/rep_module.py (line 5), so the import raises ImportError; the model describes the service as evidently intended.
- Auth.Authenticate: app/service/auth/credential_service.py:24 calls `self.hasher.verify_value`, but the hasher of app/service/security/srv_hasher.py has only `verify_password` (line 13), so with that hasher every lookup that finds the user raises AttributeError; the model takes the verifier as a parameter `verify` and describes the check as evidently intended.
- The ORM declarations, database engine, migrations, routers and dependency wiring have no logic of their own and are not part of this model.
- `srv_user_crud.py` and `repo_user.py` disagree with each other, and admin-delete protection is implemented in no file; they are not part of this model.

## Findings

| source | as written | input that shows it | evidently intended | confidence | as-written member | corrected member |
|---|---|---|---|---|---|---|
| app/service/crud/base_service.py:58-68 | `remove` reads the id from the field `prefix.lower() + "id"`, i.e. `memid` / `modid`, in the member and module services the factories build (`CrudService.NewMemberService`, `CrudService.NewModuleCrudService`) | any `MemberDelete(memberid="MEM001")`: the field `memid` does not exist, so `KeyError` is raised and nothing is removed | read `memberid` / `moduleid`, as the delete DTOs and the module service do; the corrected factories `CrudService.NewMemberServiceCorrected` and `CrudService.NewModuleCrudServiceCorrected` do | high, not executed | CrudService.RemoveMemberAsWritten | CrudService.RemoveMember |
| app/service/srv_member.py:52-60 | the update is `model_dump(exclude_unset=True)` after `empty_to_none`, so a blank field that was sent is carried as None | updating `MKIT001` with `name=""`: the stored member gets `name=None`, and building `MemberPublic` then fails after the store has changed | a blank field leaves the stored value alone | medium, not executed | MemberRegistry.BlankNameUpdateAsWritten | MemberRegistry.BlankNameUpdate |
| app/schemas/sch_module.py:11-22 | `provider` is typed as the enum and validated in `after` mode, so the exact-value enum check runs before the case-insensitive lookup; `Schemas.ValidateModuleCreate` and `Schemas.ValidateModuleInDB` use this declared field | `provider="digipos"` (the schema's own example) is rejected | any letter case of a provider name is accepted, as `Schemas.ValidateModuleInDBCorrected` does | medium, not executed | Schemas.ProviderFieldRejectsLowerCase | Schemas.ProviderFieldAccepts |
| app/schemas/cmn_validator.py:16-19 | `re.match` with a pattern ending in `$` | `"ab\n"` passes `is_alphanumeric_underscore` (the newline also counts toward the minimum length) | only the character class, over the whole string | high, not executed | Validators.CharsetValidatorsAcceptTrailingNewline | Validators.StrictCharsetAccepts |
| app/service/user/srv_admin_seed.py:38-44 | `scalar_one_or_none()` over every live superuser, active or not | one stored superuser `u1` with `is_active` False: the check answers False, seeding adds the admin, and the next check raises `MultipleResultsFound` | any active, live superuser means True; seeding twice answers True then False | medium (applies once the `User` table has the `deleted_at` column the query names), not executed | AdminSeed.InactiveSuperuserBreaksIdempotence | AdminSeed.SeedTwiceCorrected |

=== FILE: admin_seed.dfy ===
/**
 * `AdminSeedService`: seeds a default superuser when the users table has no active one.
 * The table is the session's rows, keyed by user id; the password hasher and the system
 * actor id `ADM_ID` are fixed when the service is made.
 */
module AdminSeed {
  import opened Wrappers
  import opened Values
  import opened Exceptions
  import opened Sessions
  import opened Uow
  import RecordStatus

  const ID := "id"
  const USERNAME := "username"
  const EMAIL := "email"
  const FULL_NAME := "full_name"
  const HASHED_PASSWORD := "hashed_password"
  const IS_SUPERUSER := "is_superuser"
  const SEED_FAILED := "Failed to seed default admin."

  /** The `AdminSeeder` schema: the credentials of the admin to seed. */
  datatype AdminSeeder = AdminSeeder(username: string, email: string, fullName: string, password: string)

  /** The admin seeded when none is given. */
  const DefaultAdmin := AdminSeeder("admin", "admin@example.com", "Default Admin", "admin@123")

  /** `admin_data or AdminSeeder(...)`: a given schema instance is always truthy. */
  function ChosenAdmin(adminData: Option<AdminSeeder>): (a: AdminSeeder)
    ensures adminData.Some? ==> a == adminData.value
    ensures adminData.None? ==> a.username == "admin" && a.password == "admin@123"
  {
    match adminData
    case Some(a) => a
    case None => DefaultAdmin
  }

  /** A row the superuser query selects: `is_superuser IS TRUE` and `deleted_at IS NULL`. */
  predicate IsLiveSuperuser(row: Row)
  {
    RecordStatus.IsTrue(RecordStatus.Column(row, IS_SUPERUSER)) && RecordStatus.Column(row, RecordStatus.DELETED_AT) == Null
  }

  /** `getattr(superuser, "is_active", True)`, read as a truth value. */
  predicate IsActiveUser(row: Row)
  {
    Truthy(GetAttr(row, RecordStatus.IS_ACTIVE, Bool(true)))
  }

  /** The ids the superuser query returns. */
  function SuperuserCandidates(rows: map<string, Row>): (ids: set<string>)
    ensures forall id :: id in ids <==> id in rows && IsLiveSuperuser(rows[id])
  {
    set id | id in rows && IsLiveSuperuser(rows[id])
  }

  /**
   * `has_active_superuser()` as written: `scalar_one_or_none` raises `MultipleResultsFound`
   * when more than one row matches, gives `None` (so False) when none does, and otherwise the
   * one superuser's `is_active` decides.
   */
  function HasActiveSuperuser(rows: map<string, Row>): (r: Result<bool, PyError>)
    ensures r.Err? <==> |SuperuserCandidates(rows)| > 1
    ensures r.Err? ==> r.error == MultipleResultsFound
    ensures SuperuserCandidates(rows) == {} ==> r == Ok(false)
    ensures r == Ok(true) ==> exists id :: id in rows && IsLiveSuperuser(rows[id]) && IsActiveUser(rows[id])
  {
    var ids := SuperuserCandidates(rows);
    if |ids| > 1 then Err(MultipleResultsFound)
    else Ok(exists id :: id in ids && IsActiveUser(rows[id]))
  }

  /** The intended check: some superuser that is not deleted is active. */
  predicate HasActiveSuperuserCorrected(rows: map<string, Row>)
  {
    exists id :: id in rows && IsLiveSuperuser(rows[id]) && IsActiveUser(rows[id])
  }

  /** Where the query finds at most one row, the check as written and the intended one agree. */
  lemma AsWrittenAgreesOnAtMostOne(rows: map<string, Row>)
    requires |SuperuserCandidates(rows)| <= 1
    ensures HasActiveSuperuser(rows) == Ok(HasActiveSuperuserCorrected(rows))
  {
    var ids := SuperuserCandidates(rows);
    if HasActiveSuperuserCorrected(rows) {
      var id :| id in rows && IsLiveSuperuser(rows[id]) && IsActiveUser(rows[id]);
      assert id in ids;
    }
  }

  /**
   * The user row created for the admin: its hashed password, never the plaintext one, marked
   * superuser, with the column default `is_active = True` and no deletion time.
   */
  function AdminRow(admin: AdminSeeder, admId: string, hash: string -> string): (r: Row)
    ensures IsLiveSuperuser(r) && IsActiveUser(r)
    ensures HASHED_PASSWORD in r && r[HASHED_PASSWORD] == Str(hash(admin.password))
    ensures "password" !in r
    ensures USERNAME in r && r[USERNAME] == Str(admin.username)
    ensures ID in r && r[ID] == Str(admId)
  {
    map[ID := Str(admId), USERNAME := Str(admin.username), EMAIL := Str(admin.email),
        FULL_NAME := Str(admin.fullName), HASHED_PASSWORD := Str(hash(admin.password)),
        IS_SUPERUSER := Bool(true), RecordStatus.IS_ACTIVE := Bool(true), RecordStatus.DELETED_AT := Null]
  }

  /** Seeding into a table with no live superuser leaves exactly the new admin for the query to find. */
  lemma {:induction false} SeedIntoEmptyFindsOne(rows: map<string, Row>, admId: string, row: Row)
    requires SuperuserCandidates(rows) == {}
    requires IsLiveSuperuser(row) && IsActiveUser(row)
    ensures SuperuserCandidates(rows[admId := row]) == {admId}
    ensures HasActiveSuperuser(rows[admId := row]) == Ok(true)
  {
    var after := rows[admId := row];
    assert admId in SuperuserCandidates(after);
    assert SuperuserCandidates(after) == {admId};
    AsWrittenAgreesOnAtMostOne(after);
  }

  /** After the intended seeding, the intended check finds an active superuser whatever the table held. */
  lemma SeedSatisfiesCorrectedCheck(rows: map<string, Row>, admId: string, row: Row)
    requires IsLiveSuperuser(row) && IsActiveUser(row)
    ensures HasActiveSuperuserCorrected(rows[admId := row])
  {
    assert admId in rows[admId := row] && rows[admId := row][admId] == row;
  }

  /** A stored superuser that is inactive, as the user `u1` of the counterexample. */
  const InactiveSuperuser: Row := map[IS_SUPERUSER := Bool(true), RecordStatus.IS_ACTIVE := Bool(false)]

  /**
   * The check as written is not idempotent: with one inactive superuser stored, it answers
   * False, so the admin is seeded; the next check then finds two superusers and raises
   * `MultipleResultsFound` instead of answering True.
   */
  lemma {:induction false} InactiveSuperuserBreaksIdempotence(hash: string -> string)
    ensures HasActiveSuperuser(map["u1" := InactiveSuperuser]) == Ok(false)
    ensures HasActiveSuperuser(map["u1" := InactiveSuperuser, "adm" := AdminRow(DefaultAdmin, "adm", hash)]) == Err(MultipleResultsFound)
    ensures HasActiveSuperuserCorrected(map["u1" := InactiveSuperuser, "adm" := AdminRow(DefaultAdmin, "adm", hash)])
  {
    var before := map["u1" := InactiveSuperuser];
    assert SuperuserCandidates(before) == {"u1"};
    assert !IsActiveUser(InactiveSuperuser);
    var after := before["adm" := AdminRow(DefaultAdmin, "adm", hash)];
    assert after.Keys == {"u1", "adm"};
    assert SuperuserCandidates(after) == {"u1", "adm"};
    assert |{"u1", "adm"}| == 2;
    SeedSatisfiesCorrectedCheck(before, "adm", AdminRow(DefaultAdmin, "adm", hash));
  }

  /** The error every failure of the creation step turns into. */
  function SeedError(admin: AdminSeeder, admId: string): PyError
  {
    InternalSeedingError(SEED_FAILED, map[USERNAME := admin.username, "actor_id" := admId])
  }

  class AdminSeedService {
    const session: Session
    const hash: string -> string
    const admId: string

    constructor (session: Session, hash: string -> string, admId: string)
      ensures this.session == session && this.hash == hash && this.admId == admId
    {
      this.session := session;
      this.hash := hash;
      this.admId := admId;
    }

    /**
     * The `try` block: inside a unit of work, add the admin's row and flush, then commit.
     * Any failure leaves the block with the exception in flight, so the unit of work rolls
     * back, and the `except` turns it into `InternalSeedingError`.
     */
    method CreateAdmin(admin: AdminSeeder) returns (r: Result<bool, PyError>)
      modifies session
      ensures r.Ok? <==> !session.flushFails && admId !in old(session.rows) && !session.commitFails
      ensures r.Ok? ==> r.value && session.rows == old(session.rows)[admId := AdminRow(admin, admId, hash)] && session.stored == session.rows
      ensures r.Err? ==> r.error == SeedError(admin, admId) && session.stored == old(session.stored)
      ensures r.Err? && !session.rollbackFails ==> session.rows == old(session.stored)
    {
      var row := AdminRow(admin, admId, hash);
      var uow := new UnitOfWork(session);
      var added := session.Insert(admId, row);
      if !added {
        // the failed flush is in flight when the block is left
        var _ := uow.Exit(true);
        return Err(SeedError(admin, admId));
      }
      assert session.rows == old(session.rows)[admId := row];
      var committed := uow.Commit();
      if !committed {
        var _ := uow.Exit(true);
        return Err(SeedError(admin, admId));
      }
      assert session.stored == session.rows && uow.committed;
      var _ := uow.Exit(false);
      r := Ok(true);
    }

    /**
     * `seed_default_admin(admin_data)`: an error of the check propagates and a True answer
     * means False with nothing written; otherwise the chosen admin is created and the answer
     * is True.
     */
    method SeedDefaultAdmin(adminData: Option<AdminSeeder>) returns (r: Result<bool, PyError>)
      modifies session
      ensures HasActiveSuperuser(old(session.rows)).Err? ==>
        && r == Err(MultipleResultsFound)
        && session.rows == old(session.rows) && session.stored == old(session.stored) && session.trace == old(session.trace)
      ensures HasActiveSuperuser(old(session.rows)) == Ok(true) ==>
        && r == Ok(false)
        && session.rows == old(session.rows) && session.stored == old(session.stored) && session.trace == old(session.trace)
      ensures HasActiveSuperuser(old(session.rows)) == Ok(false) ==>
        && (r.Ok? <==> !session.flushFails && admId !in old(session.rows) && !session.commitFails)
        && (r.Ok? ==> r.value && session.rows == old(session.rows)[admId := AdminRow(ChosenAdmin(adminData), admId, hash)])
        && (r.Ok? ==> session.stored == session.rows)
        && (r.Err? ==> r.error == SeedError(ChosenAdmin(adminData), admId) && session.stored == old(session.stored))
    {
      var check := HasActiveSuperuser(session.rows);
      if check.Err? {
        return Err(check.error);
      }
      if check.value {
        return Ok(false);
      }
      r := CreateAdmin(ChosenAdmin(adminData));
    }

    /** `seed_default_admin` with the intended check: any active, undeleted superuser suffices. */
    method SeedDefaultAdminCorrected(adminData: Option<AdminSeeder>) returns (r: Result<bool, PyError>)
      modifies session
      ensures HasActiveSuperuserCorrected(old(session.rows)) ==>
        && r == Ok(false)
        && session.rows == old(session.rows) && session.stored == old(session.stored) && session.trace == old(session.trace)
      ensures !HasActiveSuperuserCorrected(old(session.rows)) ==>
        && (r.Ok? <==> !session.flushFails && admId !in old(session.rows) && !session.commitFails)
        && (r.Ok? ==> r.value && session.rows == old(session.rows)[admId := AdminRow(ChosenAdmin(adminData), admId, hash)])
        && (r.Ok? ==> session.stored == session.rows)
        && (r.Err? ==> r.error == SeedError(ChosenAdmin(adminData), admId) && session.stored == old(session.stored))
    {
      if HasActiveSuperuserCorrected(session.rows) {
        return Ok(false);
      }
      r := CreateAdmin(ChosenAdmin(adminData));
    }
  }

  /**
   * With the intended check, seeding twice answers True and then False, and the second call
   * writes nothing, from any table the first call can seed.
   */
  method SeedTwiceCorrected(service: AdminSeedService, adminData: Option<AdminSeeder>) returns (first: Result<bool, PyError>, second: Result<bool, PyError>)
    requires !HasActiveSuperuserCorrected(service.session.rows)
    requires !service.session.flushFails && !service.session.commitFails && service.admId !in service.session.rows
    modifies service.session
    ensures first == Ok(true) && second == Ok(false)
    ensures service.session.rows == old(service.session.rows)[service.admId := AdminRow(ChosenAdmin(adminData), service.admId, service.hash)]
  {
    first := service.SeedDefaultAdminCorrected(adminData);
    SeedSatisfiesCorrectedCheck(old(service.session.rows), service.admId, AdminRow(ChosenAdmin(adminData), service.admId, service.hash));
    second := service.SeedDefaultAdminCorrected(adminData);
  }

  /**
   * The check as written is idempotent in the case the service was written for: a table with
   * no live superuser at all is seeded once, and the second call answers False.
   */
  method SeedTwiceFromEmpty(service: AdminSeedService, adminData: Option<AdminSeeder>) returns (first: Result<bool, PyError>, second: Result<bool, PyError>)
    requires SuperuserCandidates(service.session.rows) == {}
    requires !service.session.flushFails && !service.session.commitFails && service.admId !in service.session.rows
    modifies service.session
    ensures first == Ok(true) && second == Ok(false)
  {
    first := service.SeedDefaultAdmin(adminData);
    SeedIntoEmptyFindsOne(old(service.session.rows), service.admId, AdminRow(ChosenAdmin(adminData), service.admId, service.hash));
    second := service.SeedDefaultAdmin(adminData);
  }
}

=== FILE: ascii.dfy ===
/** ASCII character classes and case mapping, as Python's `re` and `str` use them on ASCII text. */
module Ascii {

  predicate IsLetter(c: char) { 'a' <= c <= 'z' || 'A' <= c <= 'Z' }

  predicate IsDigit(c: char) { '0' <= c <= '9' }

  /** The class `[a-zA-Z0-9]`. */
  predicate IsAlnum(c: char) { IsLetter(c) || IsDigit(c) }

  /** The characters Python's `\s` matches in a `str` pattern (those for which `str.isspace()` holds). */
  predicate IsPyWhitespace(c: char)
  {
    || c == ' ' || '\t' <= c <= '\r' || '\U{1c}' <= c <= '\U{1f}'
    || c == '\U{85}' || c == '\U{a0}' || c == '\U{1680}' || '\U{2000}' <= c <= '\U{200a}'
    || c == '\U{2028}' || c == '\U{2029}' || c == '\U{202f}' || c == '\U{205f}' || c == '\U{3000}'
  }

  /**
   * Unicode White_Space, the set Rust's `str::trim` removes: Python's whitespace without the
   * separators U+001C to U+001F.
   */
  predicate IsTrimWhitespace(c: char)
  {
    || c == ' ' || '\t' <= c <= '\r'
    || c == '\U{85}' || c == '\U{a0}' || c == '\U{1680}' || '\U{2000}' <= c <= '\U{200a}'
    || c == '\U{2028}' || c == '\U{2029}' || c == '\U{202f}' || c == '\U{205f}' || c == '\U{3000}'
  }

  predicate AllAlnum(s: string) { forall i :: 0 <= i < |s| ==> IsAlnum(s[i]) }

  function UpperChar(c: char): char
  {
    if 'a' <= c <= 'z' then (c as int - 32) as char else c
  }

  function LowerChar(c: char): char
  {
    if 'A' <= c <= 'Z' then (c as int + 32) as char else c
  }

  /** `str.upper()` restricted to ASCII case mapping. */
  function Upper(s: string): (r: string)
    ensures |r| == |s|
    ensures forall i :: 0 <= i < |s| ==> r[i] == UpperChar(s[i])
  {
    if s == [] then [] else [UpperChar(s[0])] + Upper(s[1..])
  }

  /** `str.lower()` restricted to ASCII case mapping. */
  function Lower(s: string): (r: string)
    ensures |r| == |s|
    ensures forall i :: 0 <= i < |s| ==> r[i] == LowerChar(s[i])
  {
    if s == [] then [] else [LowerChar(s[0])] + Lower(s[1..])
  }

  /** Upper-casing forgets the case of letters: it is insensitive to a prior upper- or lower-casing. */
  lemma UpperAbsorbsCase(s: string)
    ensures Upper(Upper(s)) == Upper(s)
    ensures Upper(Lower(s)) == Upper(s)
  {
  }

  /** A string without capital letters is its own lower-case form. */
  lemma LowerOfLowerCase(s: string)
    requires forall i :: 0 <= i < |s| ==> !('A' <= s[i] <= 'Z')
    ensures Lower(s) == s
  {
  }

  /** Lower-casing is insensitive to a prior upper- or lower-casing. */
  lemma LowerAbsorbsCase(s: string)
    ensures Lower(Lower(s)) == Lower(s)
    ensures Lower(Upper(s)) == Lower(s)
  {
  }
}

=== FILE: async_uow.dfy ===
/**
 * `AsyncUnitOfWork`: a unit of work whose `commit` is guarded by its `_committed` flag, whose
 * entry binds a user repository to the same session, and whose exit always closes the
 * session. Leaving the block is `Exit`, told whether an exception is in flight.
 */
module AsyncUow {
  import opened Sessions
  import opened LiteRepo
  import opened Uow

  class AsyncUnitOfWork {
    const session: Session
    /** The names the `User` class maps, handed to the user repository. */
    const userAttributes: set<string>
    var committed: bool
    var userRepo: LiteUserRepo?
    /** The length of the session's trace when this unit of work was made. */
    ghost const start: nat

    /** The flag says whether this unit of work has committed: exactly one successful commit since it was made, or none. */
    ghost predicate Valid()
      reads this, session
    {
      start <= |session.trace| && Commits(session.trace[start..]) == (if committed then 1 else 0)
    }

    constructor (session: Session, userAttributes: set<string>)
      ensures this.session == session && this.userAttributes == userAttributes
      ensures !committed && userRepo == null && start == |session.trace|
      ensures Valid()
    {
      this.session := session;
      this.userAttributes := userAttributes;
      committed := false;
      userRepo := null;
      start := |session.trace|;
      new;
      assert session.trace[start..] == [];
    }

    /** `__aenter__`: the user repository is created over this unit of work's own session. */
    method Enter()
      requires Valid()
      modifies this
      ensures Valid()
      ensures userRepo != null && fresh(userRepo)
      ensures userRepo.session == session && userRepo.attributes == userAttributes
      ensures committed == old(committed)
    {
      userRepo := new LiteUserRepo(session, userAttributes);
    }

    /** Appending one call to the trace keeps the count of this unit of work's commits in step. */
    lemma TraceGrows(before: seq<Call>, c: Call)
      requires start <= |before| && session.trace == before + [c]
      ensures session.trace[start..] == before[start..] + [c]
      ensures Commits(session.trace[start..]) == Commits(before[start..]) + (if c == CommitCall(true) then 1 else 0)
    {
      assert session.trace[start..] == before[start..] + [c];
      CommitsSnoc(before[start..], c);
    }

    /** `commit()`: once committed, further calls do nothing; otherwise the session commits and the flag records success. */
    method Commit() returns (ok: bool)
      requires Valid()
      modifies this, session
      ensures Valid()
      ensures old(committed) ==>
        && ok && committed && session.trace == old(session.trace)
        && session.rows == old(session.rows) && session.stored == old(session.stored)
      ensures !old(committed) ==>
        && session.trace == old(session.trace) + [CommitCall(ok)]
        && ok == !session.commitFails && committed == ok
        && session.rows == old(session.rows)
        && session.stored == (if ok then old(session.rows) else old(session.stored))
      ensures userRepo == old(userRepo)
    {
      if committed {
        return true;
      }
      ghost var before := session.trace;
      ok := session.Commit();
      TraceGrows(before, CommitCall(ok));
      if ok {
        committed := true;
      }
    }

    /** `rollback()`: the flag is left as it was. */
    method Rollback() returns (ok: bool)
      requires Valid()
      modifies session
      ensures Valid()
      ensures session.trace == old(session.trace) + [RollbackCall(ok)]
      ensures ok == !session.rollbackFails
      ensures session.stored == old(session.stored)
      ensures session.rows == if ok then old(session.stored) else old(session.rows)
    {
      ghost var before := session.trace;
      ok := session.Rollback();
      TraceGrows(before, RollbackCall(ok));
    }

    /**
     * `__aexit__`: with an exception in flight, roll back; the block's exception propagates
     * whether or not the rollback fails. Otherwise commit unless already committed, and a
     * failing commit propagates. The session is closed on every path.
     */
    method Exit(exception: bool) returns (out: Outcome)
      requires Valid()
      modifies this, session
      ensures Valid()
      ensures exception ==>
        && session.trace == old(session.trace) + [RollbackCall(!session.rollbackFails), CloseCall]
        && out == Reraised && committed == old(committed)
      ensures !exception && !old(committed) ==>
        && session.trace == old(session.trace) + [CommitCall(!session.commitFails), CloseCall]
        && out == (if session.commitFails then SessionError(CommitCall(false)) else Clean)
        && committed == !session.commitFails
      ensures !exception && old(committed) ==>
        && session.trace == old(session.trace) + [CloseCall] && out == Clean && committed
      ensures session.trace[|session.trace| - 1] == CloseCall
      ensures session.rows == session.stored
      ensures Commits(session.trace[start..]) <= 1
    {
      if exception {
        var _ := Rollback();
        out := Reraised;
      } else if !committed {
        var ok := Commit();
        out := if ok then Clean else SessionError(CommitCall(false));
      } else {
        out := Clean;
      }
      ghost var before := session.trace;
      session.Close();
      TraceGrows(before, CloseCall);
    }
  }

  /** Explicit commits after the first do not reach the session, and neither does leaving the block. */
  method CommitTwiceThenExit(session: Session, attributes: set<string>) returns (uow: AsyncUnitOfWork, out: Outcome)
    requires !session.commitFails
    modifies session
    ensures fresh(uow) && uow.committed && out == Clean
    ensures session.trace == old(session.trace) + [CommitCall(true), CloseCall]
    ensures Commits(session.trace[|old(session.trace)|..]) == 1
  {
    uow := new AsyncUnitOfWork(session, attributes);
    var _ := uow.Commit();
    var _ := uow.Commit();
    out := uow.Exit(false);
  }

  /**
   * A failed commit leaves the flag unset, so leaving the block normally tries the commit
   * again; the second failure propagates and the session is still closed.
   */
  method FailedCommitRetriedOnExit(session: Session, attributes: set<string>) returns (uow: AsyncUnitOfWork, out: Outcome)
    requires session.commitFails
    modifies session
    ensures fresh(uow) && !uow.committed
    ensures out == SessionError(CommitCall(false))
    ensures session.trace == old(session.trace) + [CommitCall(false), CommitCall(false), CloseCall]
  {
    uow := new AsyncUnitOfWork(session, attributes);
    var _ := uow.Commit();
    out := uow.Exit(false);
  }

  /** A block that raises is rolled back and closed, commits nothing, and its exception propagates. */
  method RaisingBlock(session: Session, attributes: set<string>) returns (uow: AsyncUnitOfWork, out: Outcome)
    modifies session
    ensures fresh(uow) && out == Reraised
    ensures session.trace == old(session.trace) + [RollbackCall(!session.rollbackFails), CloseCall]
    ensures Commits(session.trace[|old(session.trace)|..]) == 0
  {
    uow := new AsyncUnitOfWork(session, attributes);
    uow.Enter();
    out := uow.Exit(true);
  }
}

=== FILE: audit_decorators.dfy ===
/**
 * The `auditable` and `soft_deletable` class decorators. `auditable` adds the six audit
 * columns (integer actor ids), instance methods that soft-delete and restore one record and
 * report its audit state, and class methods that select, bulk-update and count records of
 * a table. `soft_deletable` adds only `deleted_at` with unguarded transitions.
 *
 * A table is a map from primary key to the record's audit columns, the clock reading is an
 * input, and the optional `on_soft_delete` / `on_restore` hooks of a model are an input
 * saying whether the hook exists and what it did.
 */
module AuditDecorators {
  import opened Wrappers
  import opened Audit

  /** What the model's optional hook did when it was called. */
  datatype HookOutcome =
    | NoHook                      // the model defines no such hook
    | Returned(isFalse: bool)     // the hook returned; `isFalse` when its result is the value False
    | Raised                      // the hook raised

  /** The `SQLAlchemyError` a bulk update re-raises after rolling the session back. */
  datatype DbError = SQLAlchemyError

  /** The instance methods' return value once the columns are written: True unless the hook returned False or raised. */
  predicate HookVerdict(hook: HookOutcome)
  {
    match hook
    case NoHook => true
    case Returned(isFalse) => !isFalse
    case Raised => false
  }

  /** The dict `audit_info()` returns. */
  datatype AuditInfo = AuditInfo(
    createdAt: Option<int>,
    updatedAt: Option<int>,
    deletedAt: Option<int>,
    createdBy: Option<int>,
    updatedBy: Option<int>,
    deletedBy: Option<int>,
    isActive: bool,
    isDeleted: bool)

  /** A model instance of a class decorated with `auditable`. */
  class AuditableRecord {
    var createdAt: Option<int>
    var updatedAt: Option<int>
    var deletedAt: Option<int>
    var createdBy: Option<int>
    var updatedBy: Option<int>
    var deletedBy: Option<int>

    function Fields(): AuditFields<int>
      reads this
    {
      AuditFields(createdAt, updatedAt, deletedAt, createdBy, updatedBy, deletedBy)
    }

    constructor (f: AuditFields<int>)
      ensures Fields() == f
    {
      createdAt := f.createdAt;
      updatedAt := f.updatedAt;
      deletedAt := f.deletedAt;
      createdBy := f.createdBy;
      updatedBy := f.updatedBy;
      deletedBy := f.deletedBy;
    }

    /** `is_deleted`: the record's columns are in the deleted state. */
    predicate IsDeleted()
      reads this
      ensures IsDeleted() <==> Deleted(Fields())
    {
      Deleted(Fields())
    }

    /** `is_active`: the complement of `is_deleted`. */
    predicate IsActive()
      reads this
      ensures IsActive() == !IsDeleted()
    {
      deletedAt.None?
    }

    /**
     * `soft_delete(user_id)`: the two columns are written before the hook runs, so they stay
     * written even when the hook raises and the method reports False.
     */
    method SoftDelete(now: int, userId: Option<int>, hook: HookOutcome) returns (ok: bool)
      modifies this
      ensures Fields() == SoftDeleted(old(Fields()), now, userId)
      ensures ok == HookVerdict(hook)
    {
      deletedAt := Some(now);
      deletedBy := userId;
      match hook
      case NoHook => ok := true;
      case Returned(isFalse) => ok := !isFalse;
      case Raised => ok := false;
    }

    /**
     * `restore()`: a record that is not deleted is left alone and False is returned without
     * calling the hook; otherwise both deletion columns are cleared before the hook runs.
     */
    method Restore(hook: HookOutcome) returns (ok: bool)
      modifies this
      ensures old(IsDeleted()) ==> Fields() == Restored(old(Fields())) && ok == HookVerdict(hook)
      ensures !old(IsDeleted()) ==> Fields() == old(Fields()) && !ok
    {
      if !IsDeleted() {
        return false;
      }
      deletedAt := None;
      deletedBy := None;
      match hook
      case NoHook => ok := true;
      case Returned(isFalse) => ok := !isFalse;
      case Raised => ok := false;
    }

    /** `audit_info()`: the six columns and the two status flags, which agree with `deleted_at`. */
    function Info(): (r: AuditInfo)
      reads this
      ensures r.isActive == !r.isDeleted
      ensures r.isDeleted <==> r.deletedAt.Some?
      ensures r.deletedAt == deletedAt && r.deletedBy == deletedBy
      ensures r.createdAt == createdAt && r.updatedAt == updatedAt
      ensures r.createdBy == createdBy && r.updatedBy == updatedBy
    {
      AuditInfo(createdAt, updatedAt, deletedAt, createdBy, updatedBy, deletedBy, IsActive(), IsDeleted())
    }
  }

  /** A `restore` that reports True happened on a record that was deleted, and left it active. */
  method RestoreReportsTrueOnlyWhenDeleted(rec: AuditableRecord, hook: HookOutcome) returns (ok: bool)
    modifies rec
    ensures ok ==> old(rec.IsDeleted()) && rec.IsActive()
  {
    ok := rec.Restore(hook);
  }

  /** A hook that raises makes `soft_delete` report False although the record is now deleted. */
  method SoftDeleteWithFailingHook(rec: AuditableRecord, now: int) returns (ok: bool)
    modifies rec
    ensures !ok && rec.IsDeleted() && rec.deletedAt == Some(now)
  {
    ok := rec.SoftDelete(now, None, Raised);
  }

  // ---------------------------------------------------------------------------------------
  // Class methods over a table
  // ---------------------------------------------------------------------------------------

  type Table = map<int, AuditFields<int>>

  /** `query_active()`: the keys of rows whose `deleted_at` IS NULL. */
  function QueryActive(rows: Table): (r: set<int>)
    ensures r <= rows.Keys
    ensures forall k :: k in rows ==> (k in r <==> rows[k].deletedAt.None?)
  {
    set k | k in rows && !Deleted(rows[k])
  }

  /** `query_deleted()`: the keys of rows whose `deleted_at` IS NOT NULL. */
  function QueryDeleted(rows: Table): (r: set<int>)
    ensures r == rows.Keys - QueryActive(rows)
  {
    set k | k in rows && Deleted(rows[k])
  }

  /** `query_by_user(user_id, include_deleted)`: rows created by the user, by default only the active ones. */
  function QueryByUser(rows: Table, userId: int, includeDeleted: bool): (r: set<int>)
    ensures r <= rows.Keys && forall k :: k in r ==> rows[k].createdBy == Some(userId)
    ensures !includeDeleted ==> r <= QueryActive(rows)
    ensures includeDeleted ==> forall k :: k in rows && rows[k].createdBy == Some(userId) ==> k in r
  {
    set k | k in rows && rows[k].createdBy == Some(userId) && (includeDeleted || !Deleted(rows[k]))
  }

  /** The active and the deleted queries split the table's keys between them. */
  lemma QueriesPartition(rows: Table)
    ensures QueryActive(rows) + QueryDeleted(rows) == rows.Keys
    ensures QueryActive(rows) * QueryDeleted(rows) == {}
  {
  }

  /** Without `include_deleted` the user's query is the user's full query restricted to active rows. */
  lemma QueryByUserExcludesDeleted(rows: Table, userId: int)
    ensures QueryByUser(rows, userId, false) == QueryByUser(rows, userId, true) * QueryActive(rows)
    ensures QueryByUser(rows, userId, true) <= rows.Keys
  {
  }

  /** `count_active()`. */
  function CountActive(rows: Table): (r: nat)
    ensures r == 0 <==> forall k :: k in rows ==> Deleted(rows[k])
  {
    assert (forall k :: k !in QueryActive(rows)) ==> QueryActive(rows) == {};
    |QueryActive(rows)|
  }

  /** `count_deleted()`. */
  function CountDeleted(rows: Table): (r: nat)
    ensures r == 0 <==> forall k :: k in rows ==> !Deleted(rows[k])
  {
    assert (forall k :: k !in QueryDeleted(rows)) ==> QueryDeleted(rows) == {};
    |QueryDeleted(rows)|
  }

  /** Every row is counted exactly once: active plus deleted is the table's size. */
  lemma {:induction false} CountsPartition(rows: Table)
    ensures CountActive(rows) + CountDeleted(rows) == |rows|
  {
    var a, d := QueryActive(rows), QueryDeleted(rows);
    assert a + d == rows.Keys;
    assert a * d == {};
    assert |a + d| + |a * d| == |a| + |d|;
  }

  /** The rows a bulk update's WHERE clause matches: listed, and in the given deletion state. */
  function Matched(rows: Table, ids: seq<int>, deleted: bool): set<int>
  {
    set k | k in rows && k in ids && Deleted(rows[k]) == deleted
  }

  /** The keys of rows whose columns differ between two versions of a table. */
  function Changed(before: Table, after: Table): set<int>
  {
    set k | k in before && k in after && before[k] != after[k]
  }

  /** The table after the UPDATE that `bulk_soft_delete` issues. */
  function BulkSoftDeleted(rows: Table, ids: seq<int>, now: int, userId: Option<int>): (r: Table)
    ensures r.Keys == rows.Keys
    ensures QueryDeleted(r) == QueryDeleted(rows) + (set k | k in rows && k in ids)
    ensures forall k :: k in rows && (k !in ids || Deleted(rows[k])) ==> r[k] == rows[k]
  {
    map k | k in rows :: if k in Matched(rows, ids, false) then SoftDeleted(rows[k], now, userId) else rows[k]
  }

  /** The table after the UPDATE that `bulk_restore` issues. */
  function BulkRestored(rows: Table, ids: seq<int>): (r: Table)
    ensures r.Keys == rows.Keys
    ensures QueryDeleted(r) == QueryDeleted(rows) - (set k | k in rows && k in ids)
    ensures forall k :: k in rows && (k !in ids || !Deleted(rows[k])) ==> r[k] == rows[k]
  {
    map k | k in rows :: if k in Matched(rows, ids, true) then Restored(rows[k]) else rows[k]
  }

  /** The rows `bulk_soft_delete` changes are exactly the listed active ones. */
  lemma {:induction false} BulkSoftDeleteChangesMatched(rows: Table, ids: seq<int>, now: int, userId: Option<int>)
    ensures Changed(rows, BulkSoftDeleted(rows, ids, now, userId)) == Matched(rows, ids, false)
  {
    var after := BulkSoftDeleted(rows, ids, now, userId);
    forall k | k in Matched(rows, ids, false)
      ensures k in Changed(rows, after)
    {
      assert after[k].deletedAt.Some? && rows[k].deletedAt.None?;
    }
  }

  /** The rows `bulk_restore` changes are exactly the listed deleted ones. */
  lemma {:induction false} BulkRestoreChangesMatched(rows: Table, ids: seq<int>)
    ensures Changed(rows, BulkRestored(rows, ids)) == Matched(rows, ids, true)
  {
    var after := BulkRestored(rows, ids);
    forall k | k in Matched(rows, ids, true)
      ensures k in Changed(rows, after)
    {
      assert after[k].deletedAt.None? && rows[k].deletedAt.Some?;
    }
  }

  /**
   * Restoring the same ids right after soft-deleting them gives the table back, provided no
   * listed row was already deleted and no active listed row names a deleter.
   */
  lemma BulkRoundTrip(rows: Table, ids: seq<int>, now: int, userId: Option<int>)
    requires forall k :: k in rows && k in ids ==> !Deleted(rows[k]) && rows[k].deletedBy.None?
    ensures BulkRestored(BulkSoftDeleted(rows, ids, now, userId), ids) == rows
  {
    var mid := BulkSoftDeleted(rows, ids, now, userId);
    var after := BulkRestored(mid, ids);
    assert after.Keys == rows.Keys;
    forall k | k in rows
      ensures after[k] == rows[k]
    {
      if k in ids {
        assert k in Matched(rows, ids, false);
        assert k in Matched(mid, ids, true);
      }
    }
  }

  /** A table of a class decorated with `auditable`. */
  class AuditTable {
    var rows: Table

    constructor (rows: Table)
      ensures this.rows == rows
    {
      this.rows := rows;
    }

    /**
     * `bulk_soft_delete(ids, user_id)`: one UPDATE of the listed rows that are still active,
     * returning the number of rows it changed; an empty list returns 0 at once. When the database
     * raises (`dbFails`) the session is rolled back and the error re-raised, leaving the table as it was.
     */
    method BulkSoftDelete(ids: seq<int>, now: int, userId: Option<int>, dbFails: bool) returns (r: Result<nat, DbError>)
      modifies this
      ensures |ids| == 0 ==> r == Ok(0) && rows == old(rows)
      ensures |ids| > 0 && dbFails ==> r == Err(SQLAlchemyError) && rows == old(rows)
      ensures |ids| > 0 && !dbFails ==>
        rows == BulkSoftDeleted(old(rows), ids, now, userId) && r == Ok(|Changed(old(rows), rows)|)
    {
      if |ids| == 0 {
        return Ok(0);
      }
      if dbFails {
        return Err(SQLAlchemyError);
      }
      BulkSoftDeleteChangesMatched(rows, ids, now, userId);
      r := Ok(|Matched(rows, ids, false)|);
      rows := BulkSoftDeleted(rows, ids, now, userId);
    }

    /**
     * `bulk_restore(ids)`: one UPDATE clearing both deletion columns of the listed rows that
     * are deleted, returning the number of rows it changed; an empty list returns 0 at once, and a
     * database error is re-raised after the rollback with the table as it was.
     */
    method BulkRestore(ids: seq<int>, dbFails: bool) returns (r: Result<nat, DbError>)
      modifies this
      ensures |ids| == 0 ==> r == Ok(0) && rows == old(rows)
      ensures |ids| > 0 && dbFails ==> r == Err(SQLAlchemyError) && rows == old(rows)
      ensures |ids| > 0 && !dbFails ==> rows == BulkRestored(old(rows), ids) && r == Ok(|Changed(old(rows), rows)|)
    {
      if |ids| == 0 {
        return Ok(0);
      }
      if dbFails {
        return Err(SQLAlchemyError);
      }
      BulkRestoreChangesMatched(rows, ids);
      r := Ok(|Matched(rows, ids, true)|);
      rows := BulkRestored(rows, ids);
    }
  }

  /** An empty id list changes no row under either bulk update. */
  lemma EmptyBulkUnchanged(rows: Table, now: int, userId: Option<int>)
    ensures BulkSoftDeleted(rows, [], now, userId) == rows
    ensures BulkRestored(rows, []) == rows
  {
    assert Matched(rows, [], false) == {};
    assert Matched(rows, [], true) == {};
  }

  // ---------------------------------------------------------------------------------------
  // soft_deletable
  // ---------------------------------------------------------------------------------------

  /**
   * A model instance of a class decorated with `soft_deletable`: only `deleted_at`, and
   * transitions without a guard whose hook result is ignored. A hook that raises propagates
   * its exception after the column was written; `raised` reports that.
   */
  class SoftDeletableRecord {
    var deletedAt: Option<int>

    constructor ()
      ensures !IsDeleted()
    {
      deletedAt := None;
    }

    predicate IsDeleted()
      reads this
    {
      deletedAt.Some?
    }

    method SoftDelete(now: int, hook: HookOutcome) returns (raised: bool)
      modifies this
      ensures deletedAt == Some(now) && IsDeleted()
      ensures raised <==> hook == Raised
    {
      deletedAt := Some(now);
      raised := hook == Raised;
    }

    /** Unlike the `auditable` restore this one has no guard: the hook runs even on an active record. */
    method Restore(hook: HookOutcome) returns (raised: bool)
      modifies this
      ensures deletedAt.None? && !IsDeleted()
      ensures raised <==> hook == Raised
    {
      deletedAt := None;
      raised := hook == Raised;
    }
  }
}

=== FILE: audit_mixin.dfy ===
/**
 * The `AuditMixin` base classes of the ORM models: six audit columns per record and the
 * soft-delete / restore transitions on them. The older mixin identifies actors by integer
 * user ids, the refactored one by 36-character string ids; their columns, `soft_delete`,
 * `restore` and `is_deleted` agree, so the model is one class generic in the actor type.
 * Only the older mixin has the `is_active` property (`IsActive` below). Timestamps are
 * integers read from a clock that the caller passes in.
 */
module Audit {
  import opened Wrappers

  /** The audit columns of one record, as a value. */
  datatype AuditFields<Actor> = AuditFields(
    createdAt: Option<int>,
    updatedAt: Option<int>,
    deletedAt: Option<int>,
    createdBy: Option<Actor>,
    updatedBy: Option<Actor>,
    deletedBy: Option<Actor>)

  /** A record is deleted exactly when it carries a deletion timestamp. */
  predicate Deleted<Actor>(f: AuditFields<Actor>)
  {
    f.deletedAt.Some?
  }

  /** The columns after `soft_delete(user_id)` at time `now`. */
  function SoftDeleted<Actor>(f: AuditFields<Actor>, now: int, userId: Option<Actor>): (r: AuditFields<Actor>)
    ensures Deleted(r) && r.deletedAt == Some(now) && r.deletedBy == userId
    ensures r.createdAt == f.createdAt && r.updatedAt == f.updatedAt
    ensures r.createdBy == f.createdBy && r.updatedBy == f.updatedBy
  {
    f.(deletedAt := Some(now), deletedBy := userId)
  }

  /** The columns after `restore()`. */
  function Restored<Actor>(f: AuditFields<Actor>): (r: AuditFields<Actor>)
    ensures !Deleted(r) && r.deletedBy.None?
    ensures r.createdAt == f.createdAt && r.updatedAt == f.updatedAt
    ensures r.createdBy == f.createdBy && r.updatedBy == f.updatedBy
  {
    f.(deletedAt := None, deletedBy := None)
  }

  /** Soft-deleting and then restoring a record that was active returns it to where it was. */
  lemma SoftDeleteRestoreRoundTrip<Actor>(f: AuditFields<Actor>, now: int, userId: Option<Actor>)
    requires !Deleted(f) && f.deletedBy.None?
    ensures Restored(SoftDeleted(f, now, userId)) == f
  {
  }

  /** `soft_delete` has no guard: a second call overwrites the first call's timestamp and actor. */
  lemma SoftDeleteOverwrites<Actor>(f: AuditFields<Actor>, t1: int, u1: Option<Actor>, t2: int, u2: Option<Actor>)
    ensures SoftDeleted(SoftDeleted(f, t1, u1), t2, u2) == SoftDeleted(f, t2, u2)
  {
  }

  /** `restore` on a record that is active and names no deleter changes nothing. */
  lemma RestoreActiveUnchanged<Actor>(f: AuditFields<Actor>)
    requires !Deleted(f) && f.deletedBy.None?
    ensures Restored(f) == f
  {
  }

  /** Restoring is idempotent, whatever state the record was in. */
  lemma RestoreIdempotent<Actor>(f: AuditFields<Actor>)
    ensures Restored(Restored(f)) == Restored(f)
  {
  }

  class AuditMixin<Actor> {
    var createdAt: Option<int>
    var updatedAt: Option<int>
    var deletedAt: Option<int>
    var createdBy: Option<Actor>
    var updatedBy: Option<Actor>
    var deletedBy: Option<Actor>

    /** The record's audit columns as a value. */
    function Fields(): AuditFields<Actor>
      reads this
    {
      AuditFields(createdAt, updatedAt, deletedAt, createdBy, updatedBy, deletedBy)
    }

    /**
     * A new, not yet flushed record: the deletion and actor columns default to None, and the
     * two timestamps are filled in by the database's server default only at insert time.
     */
    constructor ()
      ensures Fields() == AuditFields(None, None, None, None, None, None)
      ensures !IsDeleted() && IsActive()
    {
      createdAt := None;
      updatedAt := None;
      deletedAt := None;
      createdBy := None;
      updatedBy := None;
      deletedBy := None;
    }

    /** `soft_delete(user_id)`, with the clock reading `now`. */
    method SoftDelete(now: int, userId: Option<Actor>)
      modifies this
      ensures Fields() == SoftDeleted(old(Fields()), now, userId)
      ensures IsDeleted()
    {
      deletedAt := Some(now);
      deletedBy := userId;
    }

    /** `restore()`. */
    method Restore()
      modifies this
      ensures Fields() == Restored(old(Fields()))
      ensures IsActive()
    {
      deletedAt := None;
      deletedBy := None;
    }

    /** The `is_deleted` property: the columns are in the deleted state. */
    predicate IsDeleted()
      reads this
      ensures IsDeleted() <==> Deleted(Fields())
    {
      Deleted(Fields())
    }

    /** The `is_active` property: always the negation of `is_deleted`. */
    predicate IsActive()
      reads this
      ensures IsActive() == !IsDeleted()
      ensures IsActive() == !Deleted(Fields())
    {
      deletedAt.None?
    }
  }

  /** A fresh record soft-deleted and then restored is active again, with every column back to its default. */
  method DeleteThenRestore<Actor>(now: int, userId: Option<Actor>) returns (rec: AuditMixin<Actor>)
    ensures fresh(rec)
    ensures rec.IsActive()
    ensures rec.Fields() == AuditFields(None, None, None, None, None, None)
  {
    rec := new AuditMixin<Actor>();
    rec.SoftDelete(now, userId);
    assert rec.IsDeleted();
    rec.Restore();
  }
}

=== FILE: auth.dfy ===
/**
 * Authentication control flow: `CredentialService.authenticate` (lookup, then password
 * check) and the `AuthService` facade (`login` turns credentials into a token,
 * `get_user_from_token` turns a token back into a user). The password hasher's check, the
 * token encoder and the token decoder are parameters; only the branching and the kinds of
 * error are modelled. The user repository is a map from username to user.
 */
module Auth {
  import opened Wrappers
  import opened Values
  import opened Exceptions

  /** A stored user as the credential check sees it; the remaining fields are carried along untouched. */
  datatype UserInDB = UserInDB(username: string, hashedPassword: string, details: Row)

  type Users = map<string, UserInDB>

  /** The key of the subject claim in a token payload. */
  const SUB := "sub"
  const MISSING_SUB := "Token payload missing 'sub' (username)."
  const NO_USER_FOR_TOKEN := "User not found for token."

  /** An error of the catalogue raised without arguments. */
  function Raise(cls: ErrorClass): PyError
  {
    App(NewError(cls, None, None))
  }

  /** `AuthError(message)`. */
  function RaiseAuth(message: string): PyError
  {
    App(NewError(AuthError, Some(message), None))
  }

  /**
   * `authenticate(username, password)`: an unknown username raises `UserNotFoundError`, a
   * password the stored hash does not verify raises `UserPasswordError`, and otherwise the
   * stored user is returned as it is.
   */
  function Authenticate(users: Users, verify: (string, string) -> bool, username: string, password: string): (r: Result<UserInDB, PyError>)
    ensures r.Ok? <==> username in users && verify(password, users[username].hashedPassword)
    ensures r.Ok? ==> r.value == users[username]
    ensures username !in users ==> r == Err(Raise(UserNotFoundError))
    ensures username in users && !verify(password, users[username].hashedPassword) ==> r == Err(Raise(UserPasswordError))
  {
    if username !in users then Err(Raise(UserNotFoundError))
    else if !verify(password, users[username].hashedPassword) then Err(Raise(UserPasswordError))
    else Ok(users[username])
  }

  /** Both failures of the credential check are `AuthError`s; they answer 404 and 401 respectively. */
  lemma AuthenticateErrors(users: Users, verify: (string, string) -> bool, username: string, password: string)
    ensures var r := Authenticate(users, verify, username, password);
      r.Err? ==> r.error.App? && IsSubclass(r.error.err.cls, AuthError)
    ensures var r := Authenticate(users, verify, username, password);
      r.Err? ==> StatusCode(r.error.err.cls) == (if username in users then 401 else 404)
  {
  }

  /**
   * `login(username, password)`: the credential check's errors propagate; otherwise the
   * token made from the user's username. The `None` branch of the source is unreachable,
   * since the check either raises or returns a user.
   */
  function Login(users: Users, verify: (string, string) -> bool, createToken: string -> string,
                 username: string, password: string): (r: Result<Option<string>, PyError>)
    ensures r.Err? <==> Authenticate(users, verify, username, password).Err?
    ensures r.Err? ==> r.error == Authenticate(users, verify, username, password).error
    ensures r.Ok? ==> r.value == Some(createToken(users[username].username))
  {
    match Authenticate(users, verify, username, password)
    case Err(e) => Err(e)
    case Ok(user) => Ok(Some(createToken(user.username)))
  }

  /**
   * `get_user_from_token(token)`: decoding errors propagate unchanged; a missing or falsy
   * `sub` raises `AuthError`, as does a `sub` that names no stored user; otherwise that user.
   */
  function GetUserFromToken(users: Users, decode: string -> Result<Row, PyError>, token: string): (r: Result<UserInDB, PyError>)
    ensures decode(token).Err? ==> r == Err(decode(token).error)
    ensures decode(token).Ok? && !Truthy(GetAttr(decode(token).value, SUB, Null)) ==> r == Err(RaiseAuth(MISSING_SUB))
    ensures r.Ok? <==>
      && decode(token).Ok? && GetAttr(decode(token).value, SUB, Null).Str?
      && GetAttr(decode(token).value, SUB, Null).s != ""
      && GetAttr(decode(token).value, SUB, Null).s in users
    ensures r.Ok? ==> r.value == users[GetAttr(decode(token).value, SUB, Null).s]
  {
    match decode(token)
    case Err(e) => Err(e)
    case Ok(payload) =>
      var sub := GetAttr(payload, SUB, Null);
      if !Truthy(sub) then Err(RaiseAuth(MISSING_SUB))
      else if sub.Str? && sub.s in users then Ok(users[sub.s])
      else Err(RaiseAuth(NO_USER_FOR_TOKEN))
  }

  /**
   * A token issued by `login` leads back to the same user, as long as decoding it yields a
   * payload whose subject is the username the token was made from. The username must not be
   * empty: an empty subject is falsy and is refused as missing.
   */
  lemma LoginThenResolve(users: Users, verify: (string, string) -> bool, createToken: string -> string,
                         decode: string -> Result<Row, PyError>, username: string, password: string)
    requires username != "" && username in users && users[username].username == username
    requires Login(users, verify, createToken, username, password).Ok?
    requires var t := createToken(username); decode(t).Ok? && SUB in decode(t).value && decode(t).value[SUB] == Str(username)
    ensures Login(users, verify, createToken, username, password).value.Some?
    ensures GetUserFromToken(users, decode, Login(users, verify, createToken, username, password).value.value)
      == Authenticate(users, verify, username, password)
  {
  }

  /** `login` never returns None: every outcome is a token or an error. */
  lemma LoginNeverNone(users: Users, verify: (string, string) -> bool, createToken: string -> string, username: string, password: string)
    ensures Login(users, verify, createToken, username, password) != Ok(None)
  {
  }
}

=== FILE: base64.dfy ===
/**
 * Base64 over bytes, as specified in section 4 of RFC 4648: each group of three bytes
 * becomes four characters of the 64-character alphabet, and a final group of one or two
 * bytes is completed with `=` padding to four characters.
 */
module Base64 {
  import opened Wrappers

  type Byte = b: int | 0 <= b < 256
  type Sextet = s: int | 0 <= s < 64

  /** The alphabet of section 4 of RFC 4648: `A`-`Z`, `a`-`z`, `0`-`9`, `+`, `/`. */
  function SextetChar(i: Sextet): char
  {
    if i < 26 then ('A' as int + i) as char
    else if i < 52 then ('a' as int + (i - 26)) as char
    else if i < 62 then ('0' as int + (i - 52)) as char
    else if i == 62 then '+'
    else '/'
  }

  predicate IsAlphabetChar(c: char)
  {
    'A' <= c <= 'Z' || 'a' <= c <= 'z' || '0' <= c <= '9' || c == '+' || c == '/'
  }

  /** The value of an alphabet character; None for anything else, padding included. */
  function CharSextet(c: char): (r: Option<Sextet>)
    ensures r.Some? <==> IsAlphabetChar(c)
  {
    if 'A' <= c <= 'Z' then Some(c as int - 'A' as int)
    else if 'a' <= c <= 'z' then Some(c as int - 'a' as int + 26)
    else if '0' <= c <= '9' then Some(c as int - '0' as int + 52)
    else if c == '+' then Some(62)
    else if c == '/' then Some(63)
    else None
  }

  lemma SextetCharRoundTrip(i: Sextet)
    ensures IsAlphabetChar(SextetChar(i))
    ensures CharSextet(SextetChar(i)) == Some(i)
  {
  }

  /** One group of one to three bytes as four characters, padded with `=`. */
  function EncodeGroup(g: seq<Byte>): (q: string)
    requires 1 <= |g| <= 3
    ensures |q| == 4
  {
    var b0 := g[0];
    if |g| == 1 then
      [SextetChar(b0 / 4), SextetChar((b0 % 4) * 16), '=', '=']
    else
      var b1 := g[1];
      if |g| == 2 then
        [SextetChar(b0 / 4), SextetChar((b0 % 4) * 16 + b1 / 16), SextetChar((b1 % 16) * 4), '=']
      else
        var b2 := g[2];
        [SextetChar(b0 / 4), SextetChar((b0 % 4) * 16 + b1 / 16), SextetChar((b1 % 16) * 4 + b2 / 64), SextetChar(b2 % 64)]
  }

  /** `base64.b64encode`. */
  function Encode(bs: seq<Byte>): (s: string)
    ensures |s| == 4 * ((|bs| + 2) / 3)
    decreases |bs|
  {
    if bs == [] then ""
    else if |bs| <= 3 then EncodeGroup(bs)
    else EncodeGroup(bs[..3]) + Encode(bs[3..])
  }

  /** Four characters back to bytes; padding is accepted only in the last group. */
  function DecodeQuad(q: string, last: bool): (r: Option<seq<Byte>>)
    requires |q| == 4
    ensures r.Some? ==> 1 <= |r.value| <= 3 && (!last ==> |r.value| == 3)
    ensures r.Some? ==> IsAlphabetChar(q[0]) && IsAlphabetChar(q[1])
  {
    var a := CharSextet(q[0]);
    var b := CharSextet(q[1]);
    var c := CharSextet(q[2]);
    var d := CharSextet(q[3]);
    if a.None? || b.None? then None
    else if last && q[2] == '=' && q[3] == '=' then
      Some([a.value * 4 + b.value / 16])
    else if c.None? then None
    else if last && q[3] == '=' then
      Some([a.value * 4 + b.value / 16, (b.value % 16) * 16 + c.value / 4])
    else if d.None? then None
    else Some([a.value * 4 + b.value / 16, (b.value % 16) * 16 + c.value / 4, (c.value % 4) * 64 + d.value])
  }

  /** `base64.b64decode` on well-formed input: whole groups of four characters, padding only at the end. */
  function Decode(s: string): (r: Option<seq<Byte>>)
    ensures r.Some? ==> |s| % 4 == 0
    ensures r.Some? ==> |r.value| <= 3 * (|s| / 4) <= |r.value| + 2
    decreases |s|
  {
    if s == [] then Some([])
    else if |s| < 4 then None
    else
      match DecodeQuad(s[..4], |s| == 4)
      case None => None
      case Some(h) =>
        match Decode(s[4..])
        case None => None
        case Some(t) => Some(h + t)
  }

  /** The arithmetic of regrouping three bytes into four sextets and back. */
  lemma RegroupArithmetic(b0: Byte, b1: Byte, b2: Byte)
    ensures (b0 / 4) * 4 + ((b0 % 4) * 16 + b1 / 16) / 16 == b0
    ensures (((b0 % 4) * 16 + b1 / 16) % 16) * 16 + ((b1 % 16) * 4 + b2 / 64) / 4 == b1
    ensures (((b1 % 16) * 4 + b2 / 64) % 4) * 64 + b2 % 64 == b2
  {
    assert ((b0 % 4) * 16 + b1 / 16) / 16 == b0 % 4;
    assert ((b0 % 4) * 16 + b1 / 16) % 16 == b1 / 16;
    assert ((b1 % 16) * 4 + b2 / 64) / 4 == b1 % 16;
    assert ((b1 % 16) * 4 + b2 / 64) % 4 == b2 / 64;
  }

  /** Four alphabet characters decode to three bytes, whether or not the group is the last one. */
  lemma DecodeFullQuad(q: string, last: bool, s0: Sextet, s1: Sextet, s2: Sextet, s3: Sextet)
    requires |q| == 4
    requires CharSextet(q[0]) == Some(s0) && CharSextet(q[1]) == Some(s1)
    requires CharSextet(q[2]) == Some(s2) && CharSextet(q[3]) == Some(s3)
    ensures DecodeQuad(q, last) == Some([s0 * 4 + s1 / 16, (s1 % 16) * 16 + s2 / 4, (s2 % 4) * 64 + s3])
  {
    assert q[2] != '=' && q[3] != '=';
  }

  lemma DecodeEncodeOne(b0: Byte)
    ensures DecodeQuad(EncodeGroup([b0]), true) == Some([b0])
  {
    var s0: Sextet, s1: Sextet := b0 / 4, (b0 % 4) * 16;
    SextetCharRoundTrip(s0);
    SextetCharRoundTrip(s1);
    assert EncodeGroup([b0]) == [SextetChar(s0), SextetChar(s1), '=', '='];
    RegroupArithmetic(b0, 0, 0);
    assert s0 * 4 + s1 / 16 == b0;
  }

  lemma DecodeEncodeTwo(b0: Byte, b1: Byte)
    ensures DecodeQuad(EncodeGroup([b0, b1]), true) == Some([b0, b1])
  {
    var s0: Sextet, s1: Sextet, s2: Sextet := b0 / 4, (b0 % 4) * 16 + b1 / 16, (b1 % 16) * 4;
    SextetCharRoundTrip(s0);
    SextetCharRoundTrip(s1);
    SextetCharRoundTrip(s2);
    assert EncodeGroup([b0, b1]) == [SextetChar(s0), SextetChar(s1), SextetChar(s2), '='];
    RegroupArithmetic(b0, b1, 0);
    assert s0 * 4 + s1 / 16 == b0 && (s1 % 16) * 16 + s2 / 4 == b1;
  }

  lemma DecodeEncodeThree(b0: Byte, b1: Byte, b2: Byte, last: bool)
    ensures DecodeQuad(EncodeGroup([b0, b1, b2]), last) == Some([b0, b1, b2])
  {
    var s0: Sextet, s1: Sextet, s2: Sextet, s3: Sextet := b0 / 4, (b0 % 4) * 16 + b1 / 16, (b1 % 16) * 4 + b2 / 64, b2 % 64;
    SextetCharRoundTrip(s0);
    SextetCharRoundTrip(s1);
    SextetCharRoundTrip(s2);
    SextetCharRoundTrip(s3);
    var q := EncodeGroup([b0, b1, b2]);
    assert q == [SextetChar(s0), SextetChar(s1), SextetChar(s2), SextetChar(s3)];
    DecodeFullQuad(q, last, s0, s1, s2, s3);
    RegroupArithmetic(b0, b1, b2);
    assert s0 * 4 + s1 / 16 == b0 && (s1 % 16) * 16 + s2 / 4 == b1 && (s2 % 4) * 64 + s3 == b2;
  }

  lemma DecodeEncodeGroup(g: seq<Byte>, last: bool)
    requires 1 <= |g| <= 3
    requires |g| < 3 ==> last
    ensures DecodeQuad(EncodeGroup(g), last) == Some(g)
  {
    if |g| == 1 {
      assert g == [g[0]];
      DecodeEncodeOne(g[0]);
    } else if |g| == 2 {
      assert g == [g[0], g[1]];
      DecodeEncodeTwo(g[0], g[1]);
    } else {
      assert g == [g[0], g[1], g[2]];
      DecodeEncodeThree(g[0], g[1], g[2], last);
    }
  }

  /** Decoding undoes encoding: the round trip of section 4 of RFC 4648. */
  lemma {:induction false} DecodeEncode(bs: seq<Byte>)
    ensures Decode(Encode(bs)) == Some(bs)
    decreases |bs|
  {
    if bs == [] {
    } else if |bs| <= 3 {
      var s := Encode(bs);
      DecodeEncodeGroup(bs, true);
      assert s == EncodeGroup(bs) && |s| == 4;
      assert s[..4] == s;
      assert s[4..] == [];
      assert Decode(s[4..]) == Some([]);
      assert bs + [] == bs;
    } else {
      var s := Encode(bs);
      DecodeEncodeGroup(bs[..3], false);
      DecodeEncode(bs[3..]);
      assert s[..4] == EncodeGroup(bs[..3]);
      assert s[4..] == Encode(bs[3..]);
      assert bs[..3] + bs[3..] == bs;
    }
  }

  /** The number of `=` characters that complete the last group. */
  function PadCount(n: nat): nat
  {
    if n % 3 == 0 then 0 else 3 - n % 3
  }

  /** `s` is alphabet characters followed by exactly `p` padding characters. */
  predicate Layout(s: string, p: nat)
  {
    p <= |s|
    && (forall i :: 0 <= i < |s| - p ==> IsAlphabetChar(s[i]))
    && (forall i :: |s| - p <= i < |s| ==> s[i] == '=')
  }

  lemma GroupLayout(g: seq<Byte>)
    requires 1 <= |g| <= 3
    ensures Layout(EncodeGroup(g), PadCount(|g|))
  {
    var b0 := g[0];
    SextetCharRoundTrip(b0 / 4);
    if |g| == 1 {
      SextetCharRoundTrip((b0 % 4) * 16);
    } else {
      SextetCharRoundTrip((b0 % 4) * 16 + g[1] / 16);
      if |g| == 2 {
        SextetCharRoundTrip((g[1] % 16) * 4);
      } else {
        SextetCharRoundTrip((g[1] % 16) * 4 + g[2] / 64);
        SextetCharRoundTrip(g[2] % 64);
      }
    }
  }

  lemma ConcatLayout(a: string, b: string, p: nat)
    requires Layout(a, 0) && Layout(b, p)
    ensures Layout(a + b, p)
  {
    var s := a + b;
    forall i | 0 <= i < |s| - p
      ensures IsAlphabetChar(s[i])
    {
      if i < |a| {
        assert s[i] == a[i];
      } else {
        assert s[i] == b[i - |a|];
      }
    }
    forall i | |s| - p <= i < |s|
      ensures s[i] == '='
    {
      assert s[i] == b[i - |a|];
    }
  }

  /** The output is alphabet characters followed by exactly `PadCount` padding characters. */
  lemma {:induction false} EncodeLayout(bs: seq<Byte>)
    ensures Layout(Encode(bs), PadCount(|bs|))
    decreases |bs|
  {
    if bs == [] {
    } else if |bs| <= 3 {
      GroupLayout(bs);
    } else {
      GroupLayout(bs[..3]);
      EncodeLayout(bs[3..]);
      assert PadCount(|bs|) == PadCount(|bs[3..]|);
      ConcatLayout(EncodeGroup(bs[..3]), Encode(bs[3..]), PadCount(|bs|));
    }
  }
}

=== FILE: collections.dfy ===
/** Duplicate-free sequences: the listings of dict keys. */
module Collections {

  /** The keys of `order` other than `k`, in the same order. */
  function Delete<T(==,!new)>(order: seq<T>, k: T): (r: seq<T>)
    ensures forall x :: x in r <==> x in order && x != k
    ensures Distinct(order) ==> Distinct(r)
    ensures k !in order ==> r == order
  {
    if order == [] then []
    else if order[0] == k then Delete(order[1..], k)
    else
      var t := Delete(order[1..], k);
      assert Distinct(order) ==> order[0] !in order[1..] by {
        forall j | 0 <= j < |order[1..]|
          ensures Distinct(order) ==> order[1..][j] != order[0]
        {
          assert order[1..][j] == order[j + 1];
        }
      }
      [order[0]] + t
  }

  predicate Distinct<T(==)>(s: seq<T>)
  {
    forall i, j :: 0 <= i < j < |s| ==> s[i] != s[j]
  }

  /** A duplicate-free listing of a set has the set's size. */
  lemma {:induction false} DistinctKeysCount<T(!new)>(s: seq<T>, keys: set<T>)
    requires Distinct(s)
    requires forall k :: k in s <==> k in keys
    ensures |s| == |keys|
    decreases |s|
  {
    if s != [] {
      var rest := s[1..];
      assert forall k :: k in rest <==> k in keys - {s[0]} by {
        forall k ensures k in rest <==> k in keys - {s[0]} {
          if k in rest {
            var j :| 0 <= j < |rest| && rest[j] == k;
            assert s[j + 1] == k;
          }
          if k in keys - {s[0]} {
            var j :| 0 <= j < |s| && s[j] == k;
            assert j != 0;
            assert rest[j - 1] == k;
          }
        }
      }
      DistinctKeysCount(rest, keys - {s[0]});
    } else {
      assert keys == {};
    }
  }

}

=== FILE: crud_service.dfy ===
/**
 * The generic CRUD service over an entity store: sequential ids from the service's own
 * counter, a collision check before storing, not-found errors for get, update and remove,
 * and list. The store itself (`AsyncInMemoryRepo`) is a dict; the conversion from a create
 * DTO (`from_create`) and the in-place update (`update_from`) are parameters.
 */
module CrudService {
  import opened Wrappers
  import opened Values
  import opened Ascii
  import opened Ids
  import opened Exceptions
  import opened Schemas
  import opened Collections

  /** The key `base_service` builds from the prefix to read the id off a delete DTO and to label error contexts. */
  function PrefixIdKey(prefix: string): string
  {
    Lower(prefix) + "id"
  }

  /** The error raised for an id that is missing or already taken, with its context. */
  function IdError(cls: ErrorClass, key: string, id: string): (e: PyError)
    ensures e.App? && e.err.cls == cls && e.err.context == map[key := id]
    ensures e.err.message == DefaultMessage(cls)
  {
    App(NewError(cls, None, Some(map[key := id])))
  }

  class CrudService<C, U, E, P> {
    /** The repository's dict. */
    var entities: map<string, E>
    var counter: nat
    const prefix: string
    /** The key of the error context. */
    const contextKey: string
    /** The field of the delete DTO that carries the id. */
    const deleteKey: string
    /** `_to_in_db`. */
    const toInDb: (string, C) -> E
    /** `_to_public`, which may fail validation. */
    const toPublic: E -> Result<P, PyError>
    /** `obj.update_from(data)`. */
    const updateFrom: (E, U) -> E

    /** Every stored key is an id this service generated from a counter value it already used. */
    ghost predicate OnlyOwnIds()
      reads this
    {
      forall k :: k in entities ==> ParseId(prefix, k).Some? && 1 <= ParseId(prefix, k).value <= counter
    }

    constructor (entities: map<string, E>, prefix: string, contextKey: string, deleteKey: string,
                 toInDb: (string, C) -> E, toPublic: E -> Result<P, PyError>, updateFrom: (E, U) -> E)
      ensures this.entities == entities && counter == 0
      ensures this.prefix == prefix && this.contextKey == contextKey && this.deleteKey == deleteKey
      ensures this.toInDb == toInDb && this.toPublic == toPublic && this.updateFrom == updateFrom
    {
      this.entities := entities;
      this.prefix := prefix;
      this.contextKey := contextKey;
      this.deleteKey := deleteKey;
      this.toInDb := toInDb;
      this.toPublic := toPublic;
      this.updateFrom := updateFrom;
      counter := 0;
    }

    /** `_next_id`. */
    method NextId() returns (id: string)
      modifies this
      ensures counter == old(counter) + 1
      ensures id == MakeId(prefix, counter)
      ensures entities == old(entities)
      ensures old(OnlyOwnIds()) ==> OnlyOwnIds() && id !in entities
    {
      counter := counter + 1;
      id := MakeId(prefix, counter);
      ParseMakeId(prefix, counter);
    }

    /**
     * `create`: the id is taken first, so a create rejected because the id is already stored
     * still advances the counter; otherwise the converted entity is stored under the id.
     */
    method Create(data: C) returns (r: Result<P, PyError>)
      modifies this
      ensures counter == old(counter) + 1
      ensures MakeId(prefix, counter) in old(entities) ==>
        r == Err(IdError(EntityAlreadyExistsError, contextKey, MakeId(prefix, counter))) && entities == old(entities)
      ensures MakeId(prefix, counter) !in old(entities) ==>
        && entities == old(entities)[MakeId(prefix, counter) := toInDb(MakeId(prefix, counter), data)]
        && r == toPublic(toInDb(MakeId(prefix, counter), data))
      ensures old(OnlyOwnIds()) ==> OnlyOwnIds() && MakeId(prefix, counter) !in old(entities)
    {
      var id := NextId();
      if id in entities {
        return Err(IdError(EntityAlreadyExistsError, contextKey, id));
      }
      var obj := toInDb(id, data);
      entities := entities[id := obj];
      ParseMakeId(prefix, counter);
      r := toPublic(obj);
    }

    /** `get`. */
    function Get(id: string): (r: Result<P, PyError>)
      reads this
      ensures id !in entities ==> r == Err(IdError(EntityNotFoundError, contextKey, id))
      ensures id in entities ==> r == toPublic(entities[id])
    {
      if id in entities then toPublic(entities[id]) else Err(IdError(EntityNotFoundError, contextKey, id))
    }

    /** `update`: apply the update to the stored entity and store it back under the same id. */
    method Update(id: string, data: U) returns (r: Result<P, PyError>)
      modifies this
      ensures counter == old(counter)
      ensures id !in old(entities) ==>
        r == Err(IdError(EntityNotFoundError, contextKey, id)) && entities == old(entities)
      ensures id in old(entities) ==>
        && entities == old(entities)[id := updateFrom(old(entities)[id], data)]
        && r == toPublic(entities[id])
      ensures entities.Keys == old(entities).Keys
      ensures old(OnlyOwnIds()) ==> OnlyOwnIds()
    {
      if id !in entities {
        return Err(IdError(EntityNotFoundError, contextKey, id));
      }
      var obj := updateFrom(entities[id], data);
      entities := entities[id := obj];
      r := toPublic(obj);
    }

    /** `remove`: read the id from the DTO's `deleteKey` field (a `KeyError` if it has none), then delete it. */
    method Remove(dto: Row) returns (r: Result<(), PyError>)
      modifies this
      ensures counter == old(counter)
      ensures deleteKey !in dto ==> r == Err(KeyError(deleteKey)) && entities == old(entities)
      ensures deleteKey in dto && !(dto[deleteKey].Str? && dto[deleteKey].s in old(entities)) ==>
        r.Err? && r.error.App? && r.error.err.cls == EntityNotFoundError && entities == old(entities)
      ensures deleteKey in dto && dto[deleteKey].Str? && dto[deleteKey].s in old(entities) ==>
        r == Ok(()) && entities == old(entities) - {dto[deleteKey].s}
      ensures old(OnlyOwnIds()) ==> OnlyOwnIds()
    {
      if deleteKey !in dto {
        return Err(KeyError(deleteKey));
      }
      var v := dto[deleteKey];
      if !(v.Str? && v.s in entities) {
        var shown := if v.Str? then v.s else "";
        return Err(IdError(EntityNotFoundError, contextKey, shown));
      }
      entities := entities - {v.s};
      r := Ok(());
    }

    /** `list`: the public view of every stored entity, one per key, failing with the first view that fails. */
    method List() returns (r: Result<seq<P>, PyError>, ghost keys: seq<string>)
      ensures r.Ok? ==> Distinct(keys) && (forall k :: k in keys <==> k in entities)
      ensures r.Ok? ==> |r.value| == |keys| == |entities|
      ensures r.Ok? ==> forall i :: 0 <= i < |keys| ==> keys[i] in entities && toPublic(entities[keys[i]]) == Ok(r.value[i])
      ensures r.Err? ==> exists k :: k in entities && toPublic(entities[k]) == Err(r.error)
    {
      var remaining := entities.Keys;
      var out: seq<P> := [];
      keys := [];
      while remaining != {}
        invariant remaining <= entities.Keys
        invariant forall k :: k in keys <==> k in entities && k !in remaining
        invariant Distinct(keys)
        invariant |out| == |keys|
        invariant forall i :: 0 <= i < |keys| ==> keys[i] in entities && toPublic(entities[keys[i]]) == Ok(out[i])
        decreases |remaining|
      {
        var k :| k in remaining;
        var p := toPublic(entities[k]);
        if p.Err? {
          return Err(p.error), keys;
        }
        out := out + [p.value];
        keys := keys + [k];
        remaining := remaining - {k};
      }
      DistinctKeysCount(keys, entities.Keys);
      r := Ok(out);
    }
  }

  /** Whether some stored member has exactly this name. */
  predicate NameTaken(entities: map<string, Row>, name: Value)
  {
    exists k :: k in entities && GetAttr(entities[k], NAME, Null) == name
  }

  /** Names are pairwise distinct across stored members. */
  predicate NamesDistinct(entities: map<string, Row>)
  {
    forall k1, k2 :: k1 in entities && k2 in entities && k1 != k2 ==>
      GetAttr(entities[k1], NAME, Null) != GetAttr(entities[k2], NAME, Null)
  }

  /** `member_service.MemberService`: the base service plus a name-uniqueness check before creating. */
  class MemberService {
    const base: CrudService<Row, Row, Row, Row>

    constructor (base: CrudService<Row, Row, Row, Row>)
      ensures this.base == base
    {
      this.base := base;
    }

    /** The loop over `repo.all()` looking for a member with exactly the given name. */
    method FindName(name: Value) returns (taken: bool)
      ensures taken <==> NameTaken(base.entities, name)
    {
      var remaining := base.entities.Keys;
      while remaining != {}
        invariant remaining <= base.entities.Keys
        invariant forall k :: k in base.entities && k !in remaining ==> GetAttr(base.entities[k], NAME, Null) != name
        decreases |remaining|
      {
        var k :| k in remaining;
        if GetAttr(base.entities[k], NAME, Null) == name {
          return true;
        }
        remaining := remaining - {k};
      }
      return false;
    }

    /**
     * `create`: a name already stored is rejected before an id is taken, so the counter and the
     * store stay as they were; otherwise the base service creates.
     */
    method Create(data: Row) returns (r: Result<Row, PyError>)
      modifies base
      ensures NameTaken(old(base.entities), GetAttr(data, NAME, Null)) ==>
        && r.Err? && r.error.App? && r.error.err.cls == EntityAlreadyExistsError
        && r.error.err.message == "Member with name " + Quote(NameText(GetAttr(data, NAME, Null))) + " already exists"
        && base.entities == old(base.entities) && base.counter == old(base.counter)
      ensures !NameTaken(old(base.entities), GetAttr(data, NAME, Null)) ==> base.counter == old(base.counter) + 1
      ensures !NameTaken(old(base.entities), GetAttr(data, NAME, Null)) && MakeId(base.prefix, base.counter) in old(base.entities) ==>
        && r == Err(IdError(EntityAlreadyExistsError, base.contextKey, MakeId(base.prefix, base.counter)))
        && base.entities == old(base.entities)
      ensures !NameTaken(old(base.entities), GetAttr(data, NAME, Null)) && MakeId(base.prefix, base.counter) !in old(base.entities) ==>
        && base.entities == old(base.entities)[MakeId(base.prefix, base.counter) := base.toInDb(MakeId(base.prefix, base.counter), data)]
        && r == base.toPublic(base.toInDb(MakeId(base.prefix, base.counter), data))
      ensures (forall id, d :: GetAttr(base.toInDb(id, d), NAME, Null) == GetAttr(d, NAME, Null)) ==>
        old(NamesDistinct(base.entities)) ==> NamesDistinct(base.entities)
    {
      var name := GetAttr(data, NAME, Null);
      var taken := FindName(name);
      if taken {
        var message := "Member with name " + Quote(NameText(name)) + " already exists";
        return Err(App(NewError(EntityAlreadyExistsError, Some(message), None)));
      }
      r := base.Create(data);
    }
  }

  /** The text of a string value, as an f-string shows a `str` name. */
  function NameText(v: Value): string
  {
    if v.Str? then v.s else ""
  }

  /**
   * `member_service.MemberService(repo)`: prefix `MEM`. The inherited `remove` reads the id from the
   * delete DTO's field `memid` (the lower-cased prefix plus `id`), which `MemberDelete` does not have.
   */
  method NewMemberService(repo: map<string, Row>, fromCreate: (string, Row) -> Row, updateFrom: (Row, Row) -> Row)
    returns (svc: MemberService)
    ensures fresh(svc) && fresh(svc.base)
    ensures svc.base.entities == repo && svc.base.counter == 0 && svc.base.prefix == "MEM"
    ensures svc.base.contextKey == "memid" && svc.base.deleteKey == "memid"
    ensures svc.base.toInDb == fromCreate && svc.base.toPublic == ValidateMemberPublic && svc.base.updateFrom == updateFrom
  {
    PrefixIdKeyMissesDeleteField();
    var base := new CrudService(repo, "MEM", PrefixIdKey("MEM"), PrefixIdKey("MEM"), fromCreate, ValidateMemberPublic, updateFrom);
    svc := new MemberService(base);
  }

  /** The member service with `remove` reading `MemberDelete.memberid`, the DTO's only field. */
  method NewMemberServiceCorrected(repo: map<string, Row>, fromCreate: (string, Row) -> Row, updateFrom: (Row, Row) -> Row)
    returns (svc: MemberService)
    ensures fresh(svc) && fresh(svc.base)
    ensures svc.base.entities == repo && svc.base.counter == 0 && svc.base.prefix == "MEM"
    ensures svc.base.contextKey == "memid" && svc.base.deleteKey == MEMBERID
    ensures svc.base.toInDb == fromCreate && svc.base.toPublic == ValidateMemberPublic && svc.base.updateFrom == updateFrom
  {
    PrefixIdKeyMissesDeleteField();
    var base := new CrudService(repo, "MEM", PrefixIdKey("MEM"), MEMBERID, fromCreate, ValidateMemberPublic, updateFrom);
    svc := new MemberService(base);
  }

  /**
   * `module_service.ModuleService(repo)`: prefix `MOD`, no uniqueness check, public view `ModulePublic`;
   * the inherited `remove` reads the field `modid`, which `ModuleDelete` does not have.
   */
  method NewModuleCrudService(repo: map<string, Row>, fromCreate: (string, Row) -> Row, updateFrom: (Row, Row) -> Row)
    returns (svc: CrudService<Row, Row, Row, Row>)
    ensures fresh(svc)
    ensures svc.entities == repo && svc.counter == 0 && svc.prefix == "MOD"
    ensures svc.contextKey == "modid" && svc.deleteKey == "modid"
    ensures svc.toInDb == fromCreate && svc.toPublic == ModulePublicView && svc.updateFrom == updateFrom
  {
    PrefixIdKeyMissesDeleteField();
    svc := new CrudService(repo, "MOD", PrefixIdKey("MOD"), PrefixIdKey("MOD"), fromCreate, ModulePublicView, updateFrom);
  }

  /** The generic module service with `remove` reading `ModuleDelete.moduleid`. */
  method NewModuleCrudServiceCorrected(repo: map<string, Row>, fromCreate: (string, Row) -> Row, updateFrom: (Row, Row) -> Row)
    returns (svc: CrudService<Row, Row, Row, Row>)
    ensures fresh(svc)
    ensures svc.entities == repo && svc.counter == 0 && svc.prefix == "MOD"
    ensures svc.contextKey == "modid" && svc.deleteKey == MODULEID
    ensures svc.toInDb == fromCreate && svc.toPublic == ModulePublicView && svc.updateFrom == updateFrom
  {
    PrefixIdKeyMissesDeleteField();
    svc := new CrudService(repo, "MOD", PrefixIdKey("MOD"), MODULEID, fromCreate, ModulePublicView, updateFrom);
  }

  /** `srv_module.ModuleService(repo)`: the same operations with the context key and delete field `moduleid`. */
  method NewModuleService(repo: map<string, Row>, fromCreate: (string, Row) -> Row, updateFrom: (Row, Row) -> Row)
    returns (svc: CrudService<Row, Row, Row, Row>)
    ensures fresh(svc)
    ensures svc.entities == repo && svc.counter == 0 && svc.prefix == "MOD"
    ensures svc.contextKey == MODULEID && svc.deleteKey == MODULEID
    ensures svc.toInDb == fromCreate && svc.toPublic == ModulePublicView && svc.updateFrom == updateFrom
  {
    svc := new CrudService(repo, "MOD", MODULEID, MODULEID, fromCreate, ModulePublicView, updateFrom);
  }

  /** The key `base_service.remove` reads is not a field of either delete DTO. */
  lemma PrefixIdKeyMissesDeleteField()
    ensures PrefixIdKey("MEM") == "memid" && PrefixIdKey("MEM") != MEMBERID
    ensures PrefixIdKey("MOD") == "modid" && PrefixIdKey("MOD") != MODULEID
  {
    assert Lower("M") == "m";
    assert Lower("EM") == "em";
    assert Lower("MEM") == "mem";
    assert Lower("OD") == "od";
    assert Lower("MOD") == "mod";
  }

  /**
   * `remove` as written: the id is read from `PrefixIdKey(prefix)`, which a `MemberDelete`
   * (whose only field is `memberid`) never has, so every removal raises `KeyError` and deletes nothing.
   */
  method RemoveMemberAsWritten(svc: CrudService<Row, Row, Row, Row>, memberid: string) returns (r: Result<(), PyError>)
    requires svc.prefix == "MEM" && svc.deleteKey == PrefixIdKey(svc.prefix)
    modifies svc
    ensures r == Err(KeyError("memid"))
    ensures svc.entities == old(svc.entities)
  {
    PrefixIdKeyMissesDeleteField();
    r := svc.Remove(map[MEMBERID := Str(memberid)]);
  }

  /** Likewise for modules: a `ModuleDelete` has no field `modid`, so no module can be removed. */
  method RemoveModuleAsWritten(svc: CrudService<Row, Row, Row, Row>, moduleid: string) returns (r: Result<(), PyError>)
    requires svc.prefix == "MOD" && svc.deleteKey == PrefixIdKey(svc.prefix)
    modifies svc
    ensures r == Err(KeyError("modid"))
    ensures svc.entities == old(svc.entities)
  {
    PrefixIdKeyMissesDeleteField();
    r := svc.Remove(map[MODULEID := Str(moduleid)]);
  }

  /** `remove` reading `memberid`: a stored member is deleted and nothing else. */
  method RemoveMember(svc: CrudService<Row, Row, Row, Row>, memberid: string) returns (r: Result<(), PyError>)
    requires svc.deleteKey == MEMBERID
    modifies svc
    ensures memberid in old(svc.entities) ==> r == Ok(()) && svc.entities == old(svc.entities) - {memberid}
    ensures memberid !in old(svc.entities) ==> r.Err? && r.error.App? && r.error.err.cls == EntityNotFoundError
    ensures memberid !in old(svc.entities) ==> svc.entities == old(svc.entities)
  {
    r := svc.Remove(map[MEMBERID := Str(memberid)]);
  }

  /** The member service as built removes nothing; the corrected one removes exactly the stored member. */
  method RemoveThroughFactories(repo: map<string, Row>, fromCreate: (string, Row) -> Row, updateFrom: (Row, Row) -> Row,
                                memberid: string)
    returns (asWritten: Result<(), PyError>, corrected: Result<(), PyError>, left: map<string, Row>)
    requires memberid in repo
    ensures asWritten == Err(KeyError("memid"))
    ensures corrected == Ok(()) && left == repo - {memberid}
  {
    var svc := NewMemberService(repo, fromCreate, updateFrom);
    PrefixIdKeyMissesDeleteField();
    asWritten := RemoveMemberAsWritten(svc.base, memberid);
    var fixed := NewMemberServiceCorrected(repo, fromCreate, updateFrom);
    corrected := RemoveMember(fixed.base, memberid);
    left := fixed.base.entities;
  }

  /** Without a uniqueness check, two creates with the same data both store, under `MOD` ids that differ. */
  method CreateTwice(svc: CrudService<Row, Row, Row, Row>, data: Row) returns (first: string, second: string)
    requires svc.OnlyOwnIds()
    modifies svc
    ensures first != second
    ensures first in svc.entities && second in svc.entities
    ensures svc.entities[first] == svc.toInDb(first, data) && svc.entities[second] == svc.toInDb(second, data)
    ensures svc.OnlyOwnIds()
  {
    var r1 := svc.Create(data);
    first := MakeId(svc.prefix, svc.counter);
    var r2 := svc.Create(data);
    second := MakeId(svc.prefix, svc.counter);
    MakeIdInjective(svc.prefix, svc.counter - 1, svc.counter);
  }
}

=== FILE: exceptions.dfy ===
/**
 * The application's exception catalogue: the `AppExceptionError` class hierarchy with
 * its per-class default message and HTTP status code, the constructor's defaulting
 * rules, and the fold that turns a list of exception classes into OpenAPI responses.
 * `PyError` is every exception the modelled operations raise.
 */
module Exceptions {
  import opened Wrappers

  /** The exception classes of the catalogue. `EntityExcError` is the older catalogue's entity error. */
  datatype ErrorClass =
    | AppExceptionError
    | EntityNotFoundError
    | EntityAlreadyExistsError
    | AuthError
    | TokenExpiredError
    | TokenInvalidError
    | UserNotFoundError
    | UserPasswordError
    | EntityExcError

  /** The direct base class. */
  function Parent(c: ErrorClass): Option<ErrorClass>
  {
    match c
    case AppExceptionError => None
    case EntityNotFoundError => Some(AppExceptionError)
    case EntityAlreadyExistsError => Some(AppExceptionError)
    case AuthError => Some(AppExceptionError)
    case TokenExpiredError => Some(AuthError)
    case TokenInvalidError => Some(AuthError)
    case UserNotFoundError => Some(AuthError)
    case UserPasswordError => Some(AuthError)
    case EntityExcError => Some(AppExceptionError)
  }

  function Depth(c: ErrorClass): nat
  {
    match c
    case AppExceptionError => 0
    case TokenExpiredError | TokenInvalidError | UserNotFoundError | UserPasswordError => 2
    case _ => 1
  }

  /** `issubclass(c, d)`: `d` is `c` or one of its ancestors. */
  predicate IsSubclass(c: ErrorClass, d: ErrorClass)
    decreases Depth(c)
  {
    c == d || (Parent(c).Some? && IsSubclass(Parent(c).value, d))
  }

  /** The class attribute `status_code`. */
  function StatusCode(c: ErrorClass): (r: int)
    ensures r in {400, 401, 404, 409, 500}
    ensures r == 500 <==> c == AppExceptionError
    ensures r == 404 <==> c == EntityNotFoundError || c == UserNotFoundError
  {
    match c
    case AppExceptionError => 500
    case EntityNotFoundError => 404
    case EntityAlreadyExistsError => 409
    case AuthError => 401
    case TokenExpiredError => 401
    case TokenInvalidError => 401
    case UserNotFoundError => 404
    case UserPasswordError => 401
    case EntityExcError => 400
  }

  /** The class attribute `default_message`. */
  function DefaultMessage(c: ErrorClass): (r: string)
    ensures r != "" && r[|r| - 1] == '.'
  {
    match c
    case AppExceptionError => "An application error occurred."
    case EntityNotFoundError => "Entity not found."
    case EntityAlreadyExistsError => "Entity already exists."
    case AuthError => "Authentication error occurred."
    case TokenExpiredError => "Token has expired."
    case TokenInvalidError => "Token is invalid."
    case UserNotFoundError => "User not found."
    case UserPasswordError => "Incorrect password."
    case EntityExcError => "Entity error occurred."
  }

  /** The class's `__name__`. */
  function ClassName(c: ErrorClass): string
  {
    match c
    case AppExceptionError => "AppExceptionError"
    case EntityNotFoundError => "EntityNotFoundError"
    case EntityAlreadyExistsError => "EntityAlreadyExistsError"
    case AuthError => "AuthError"
    case TokenExpiredError => "TokenExpiredError"
    case TokenInvalidError => "TokenInvalidError"
    case UserNotFoundError => "UserNotFoundError"
    case UserPasswordError => "UserPasswordError"
    case EntityExcError => "EntityExcError"
  }

  /** The application name every error carries unless told otherwise (the settings' `app_name`). */
  const APP_NAME: string := "MKIT_WRAPPER"

  /** An instance of a catalogue class, with the fields its constructor sets. */
  datatype AppError = AppError(cls: ErrorClass, message: string, name: string, context: map<string, string>)

  /** The constructor `cls(message, context=...)`: `message or default_message`, `context or {}`. */
  function NewError(cls: ErrorClass, message: Option<string>, context: Option<map<string, string>>): (e: AppError)
    ensures e.cls == cls && e.name == APP_NAME
    ensures message.Some? && message.value != "" ==> e.message == message.value
    ensures message.None? || message.value == "" ==> e.message == DefaultMessage(cls)
    ensures e.message != ""
    ensures context.None? ==> e.context == map[]
    ensures context.Some? ==> e.context == context.value
  {
    var msg := match message
      case Some(m) => if m != "" then m else DefaultMessage(cls)
      case None => DefaultMessage(cls);
    var ctx := match context
      case Some(m) => m
      case None => map[];
    AppError(cls, msg, APP_NAME, ctx)
  }

  /** Every exception a modelled operation can raise. */
  datatype PyError =
    | App(err: AppError)
    | KeyError(key: string)
    | TypeError(argument: string)
    | ValueError(message: string)
    | ValidationError(field: string)
    | AttributeError(attribute: string)
    | DataIntegrityError(message: string)
    | AuditMixinError(message: string)
    | InternalSeedingError(message: string, context: map<string, string>)
    | MultipleResultsFound
    | DatabaseError

  /** The status code of the exceptions of the catalogue: the table of the class attributes. */
  lemma StatusCodeTable()
    ensures StatusCode(AppExceptionError) == 500
    ensures StatusCode(EntityNotFoundError) == 404
    ensures StatusCode(EntityAlreadyExistsError) == 409
    ensures forall c :: c in {AuthError, TokenExpiredError, TokenInvalidError, UserPasswordError} ==> StatusCode(c) == 401
  {
  }

  /** The authentication family: exactly these five classes are `AuthError`s. */
  lemma AuthFamily(c: ErrorClass)
    ensures IsSubclass(c, AuthError) <==>
      c in {AuthError, TokenExpiredError, TokenInvalidError, UserNotFoundError, UserPasswordError}
  {
  }

  /** `UserNotFoundError` is an `AuthError` yet answers 404; every other `AuthError` answers 401. */
  lemma UserNotFoundIsTheOddAuthError(c: ErrorClass)
    requires IsSubclass(c, AuthError)
    ensures StatusCode(c) == (if c == UserNotFoundError then 404 else 401)
  {
    AuthFamily(c);
  }

  /** One OpenAPI response entry: description, and the example body's error, message and context. */
  datatype ResponseDoc = ResponseDoc(description: string, error: string, message: string, context: map<string, string>)

  function Doc(c: ErrorClass): ResponseDoc
  {
    ResponseDoc(DefaultMessage(c), ClassName(c), DefaultMessage(c), map[])
  }

  /** The responses map after processing `excs` in order: each class writes its status code's entry. */
  function Responses(excs: seq<ErrorClass>): (r: map<int, ResponseDoc>)
    ensures excs != [] ==> StatusCode(excs[|excs| - 1]) in r && r[StatusCode(excs[|excs| - 1])] == Doc(excs[|excs| - 1])
    decreases |excs|
  {
    if excs == [] then map[]
    else
      var last := excs[|excs| - 1];
      Responses(excs[..|excs| - 1])[StatusCode(last) := Doc(last)]
  }

  /** `generate_responses(*exceptions)`: fills the result entry by entry. */
  method GenerateResponses(excs: seq<ErrorClass>) returns (res: map<int, ResponseDoc>)
    ensures res == Responses(excs)
  {
    res := map[];
    for i := 0 to |excs|
      invariant res == Responses(excs[..i])
    {
      assert excs[..i + 1][..i] == excs[..i];
      res := res[StatusCode(excs[i]) := Doc(excs[i])];
    }
    assert excs[..|excs|] == excs;
  }

  /** The keys are exactly the distinct status codes of the given classes. */
  lemma {:induction false} ResponsesKeys(excs: seq<ErrorClass>)
    ensures Responses(excs).Keys == set c | c in excs :: StatusCode(c)
    decreases |excs|
  {
    if excs != [] {
      var init := excs[..|excs| - 1];
      ResponsesKeys(init);
      assert excs == init + [excs[|excs| - 1]];
    }
  }

  /** The entry of a status code is the document of the last class in argument order that has it. */
  lemma {:induction false} ResponsesLastWins(excs: seq<ErrorClass>, i: nat)
    requires i < |excs|
    requires forall j :: i < j < |excs| ==> StatusCode(excs[j]) != StatusCode(excs[i])
    ensures StatusCode(excs[i]) in Responses(excs)
    ensures Responses(excs)[StatusCode(excs[i])] == Doc(excs[i])
    decreases |excs|
  {
    if i < |excs| - 1 {
      ResponsesLastWins(excs[..|excs| - 1], i);
    }
  }
}

=== FILE: ids.dfy ===
/**
 * Sequential entity ids: a prefix followed by the counter written in decimal and
 * left-padded with zeros to at least three digits (`f"{prefix}{str(n).zfill(3)}"`).
 */
module Ids {
  import opened Wrappers
  import opened Ascii

  function DigitChar(d: nat): (c: char)
    requires d < 10
    ensures IsDigit(c)
  {
    ('0' as int + d) as char
  }

  function DigitValue(c: char): (d: nat)
    requires IsDigit(c)
    ensures d < 10
  {
    c as int - '0' as int
  }

  predicate AllDigits(s: string) { forall i :: 0 <= i < |s| ==> IsDigit(s[i]) }

  /** `str(n)` for a natural number: its decimal digits, most significant first, no leading zero. */
  function Decimal(n: nat): string
    decreases n
  {
    if n < 10 then [DigitChar(n)] else Decimal(n / 10) + [DigitChar(n % 10)]
  }

  function Zeros(k: nat): string
  {
    if k == 0 then "" else "0" + Zeros(k - 1)
  }

  /** `s.zfill(width)` for an unsigned digit string: pad on the left with '0' up to `width`. */
  function ZFill(s: string, width: nat): string
  {
    if |s| < width then Zeros(width - |s|) + s else s
  }

  /** The id generated for counter value `n`. */
  function MakeId(prefix: string, n: nat): string
  {
    prefix + ZFill(Decimal(n), 3)
  }

  /** The number a digit string denotes; leading zeros contribute nothing. */
  function DecimalValue(s: string): nat
    requires AllDigits(s)
    decreases |s|
  {
    if s == [] then 0 else 10 * DecimalValue(s[..|s| - 1]) + DigitValue(s[|s| - 1])
  }

  /** Reads back the counter from an id: the prefix, then at least one digit and nothing else. */
  function ParseId(prefix: string, id: string): Option<nat>
  {
    if |prefix| < |id| && id[..|prefix|] == prefix && AllDigits(id[|prefix|..])
    then Some(DecimalValue(id[|prefix|..]))
    else None
  }

  lemma {:induction false} DecimalIsDigits(n: nat)
    ensures AllDigits(Decimal(n)) && 1 <= |Decimal(n)|
    ensures DecimalValue(Decimal(n)) == n
    decreases n
  {
    if n >= 10 {
      DecimalIsDigits(n / 10);
      var s := Decimal(n);
      assert s[..|s| - 1] == Decimal(n / 10);
    }
  }

  lemma {:induction false} ZerosAreDigits(k: nat)
    ensures |Zeros(k)| == k && AllDigits(Zeros(k)) && DecimalValue(Zeros(k)) == 0
  {
    if k > 0 {
      ZerosAreDigits(k - 1);
      assert Zeros(k)[..k - 1] == Zeros(k - 1) by {
        ZerosSnoc(k - 1);
      }
    }
  }

  lemma {:induction false} ZerosSnoc(k: nat)
    ensures Zeros(k + 1) == Zeros(k) + "0"
  {
    if k > 0 {
      ZerosSnoc(k - 1);
    }
  }

  /** Leading zeros do not change the value of a digit string. */
  lemma {:induction false} LeadingZerosIgnored(k: nat, s: string)
    requires AllDigits(s)
    ensures AllDigits(Zeros(k) + s)
    ensures DecimalValue(Zeros(k) + s) == DecimalValue(s)
    decreases |s|
  {
    ZerosAreDigits(k);
    var t := Zeros(k) + s;
    if s == [] {
      assert t == Zeros(k);
    } else {
      LeadingZerosIgnored(k, s[..|s| - 1]);
      assert t[..|t| - 1] == Zeros(k) + s[..|s| - 1];
      assert t[|t| - 1] == s[|s| - 1];
    }
  }

  /** zfill keeps the value and only ever lengthens the string to the requested width. */
  lemma ZFillKeepsValue(s: string, width: nat)
    requires AllDigits(s)
    ensures AllDigits(ZFill(s, width))
    ensures DecimalValue(ZFill(s, width)) == DecimalValue(s)
    ensures |ZFill(s, width)| == if |s| < width then width else |s|
  {
    if |s| < width {
      LeadingZerosIgnored(width - |s|, s);
      ZerosAreDigits(width - |s|);
    }
  }

  /** Shape of a generated id: the prefix, then at least three digits and nothing else. */
  lemma MakeIdShape(prefix: string, n: nat)
    ensures |MakeId(prefix, n)| >= |prefix| + 3
    ensures MakeId(prefix, n)[..|prefix|] == prefix
    ensures AllDigits(MakeId(prefix, n)[|prefix|..])
    ensures n < 1000 ==> |MakeId(prefix, n)| == |prefix| + 3
  {
    DecimalIsDigits(n);
    ZFillKeepsValue(Decimal(n), 3);
    assert MakeId(prefix, n)[|prefix|..] == ZFill(Decimal(n), 3);
    if n < 1000 {
      DecimalShort(n);
    }
  }

  lemma DecimalShort(n: nat)
    requires n < 1000
    ensures |Decimal(n)| <= 3
  {
    if n >= 10 {
      var m := n / 10;
      assert m < 100;
      if m >= 10 {
        assert m / 10 < 10;
        assert |Decimal(m / 10)| == 1;
        assert |Decimal(m)| == 2;
      }
      assert |Decimal(m)| <= 2;
    }
  }

  /** Parsing a generated id gives back its counter value: the round trip of id generation. */
  lemma ParseMakeId(prefix: string, n: nat)
    ensures ParseId(prefix, MakeId(prefix, n)) == Some(n)
  {
    MakeIdShape(prefix, n);
    DecimalIsDigits(n);
    ZFillKeepsValue(Decimal(n), 3);
    assert MakeId(prefix, n)[|prefix|..] == ZFill(Decimal(n), 3);
  }

  /** Zero-padding is injective: two counters give the same id exactly when they are equal. */
  lemma MakeIdInjective(prefix: string, m: nat, n: nat)
    ensures MakeId(prefix, m) == MakeId(prefix, n) <==> m == n
  {
    if MakeId(prefix, m) == MakeId(prefix, n) {
      ParseMakeId(prefix, m);
      ParseMakeId(prefix, n);
    }
  }

  /** With an alphanumeric prefix every generated id is alphanumeric. */
  lemma MakeIdAlnum(prefix: string, n: nat)
    requires AllAlnum(prefix)
    ensures AllAlnum(MakeId(prefix, n))
  {
    MakeIdShape(prefix, n);
    var id := MakeId(prefix, n);
    forall i | 0 <= i < |id|
      ensures IsAlnum(id[i])
    {
      if i < |prefix| {
        assert id[i] == id[..|prefix|][i];
      } else {
        assert id[i] == id[|prefix|..][i - |prefix|];
      }
    }
  }
}

=== FILE: lite_repo.dfy ===
/**
 * `LiteUserRepo`: the SQLite repository of users. It only flushes; committing is left to the
 * unit of work. Users are rows of the session's table keyed by their id; `attributes` are the
 * names the `User` class maps (the declaration of that class is not part of this model).
 */
module LiteRepo {
  import opened Wrappers
  import opened Values
  import opened Exceptions
  import opened Collections
  import opened Sessions
  import RecordStatus

  const ID := "id"
  const USER_NOT_FOUND := "User not found."
  /** The fixed part of the messages of failed flushes; the database's own error text follows it. */
  const CREATE_FAILED := "Failed to create user: "
  const UPDATE_FAILED := "Failed to update user: "
  const SOFT_DELETE_FAILED := "Failed to soft delete user: "

  /** The primary key of `User(**data)`: the `id` given in the data, or else the value of the column default. */
  function NewUserId(data: Row, defaultId: string): string
  {
    if ID in data && data[ID].Str? then data[ID].s else defaultId
  }

  /** The user after `setattr(user, key, value)` for every pair of `updates` that names a mapped attribute. */
  function Updated(user: Row, updates: Row, attributes: set<string>): (r: Row)
    ensures forall k :: k in updates && k in attributes ==> k in r && r[k] == updates[k]
    ensures forall k :: !(k in updates && k in attributes) ==> (k in r <==> k in user) && (k in user ==> r[k] == user[k])
  {
    user + map k | k in updates && k in attributes :: updates[k]
  }

  /** The user after `deleted_at = deleted_at or updated_at`. */
  function UserSoftDeleted(user: Row): (r: Row)
    ensures RecordStatus.DELETED_AT in r
    ensures forall k :: k != RecordStatus.DELETED_AT ==> (k in r <==> k in user) && (k in user ==> r[k] == user[k])
  {
    var current := RecordStatus.Column(user, RecordStatus.DELETED_AT);
    user[RecordStatus.DELETED_AT := if Truthy(current) then current else RecordStatus.Column(user, RecordStatus.UPDATED_AT)]
  }

  /** The attributes `deleted_at or updated_at` reads exist on the mapped class. */
  predicate SoftDeleteReads(user: Row, attributes: set<string>)
  {
    RecordStatus.DELETED_AT in attributes
      && (Truthy(RecordStatus.Column(user, RecordStatus.DELETED_AT)) || RecordStatus.UPDATED_AT in attributes)
  }

  /** Soft-deleting twice is soft-deleting once. */
  lemma SoftDeleteIdempotent(user: Row)
    ensures UserSoftDeleted(UserSoftDeleted(user)) == UserSoftDeleted(user)
  {
  }

  /** A user that already has a deletion time keeps it; a user without one gets its last update time. */
  lemma SoftDeleteKeepsFirstDeletion(user: Row)
    ensures Truthy(RecordStatus.Column(user, RecordStatus.DELETED_AT)) ==>
      UserSoftDeleted(user)[RecordStatus.DELETED_AT] == user[RecordStatus.DELETED_AT]
    ensures !Truthy(RecordStatus.Column(user, RecordStatus.DELETED_AT)) ==>
      UserSoftDeleted(user)[RecordStatus.DELETED_AT] == RecordStatus.Column(user, RecordStatus.UPDATED_AT)
    ensures RecordStatus.DELETED_BY in user ==> UserSoftDeleted(user)[RecordStatus.DELETED_BY] == user[RecordStatus.DELETED_BY]
  {
  }

  /** The `setattr` loop of `update`: each pair naming a mapped attribute is written into the user. */
  method SetAttributes(user: Row, updates: Row, attributes: set<string>) returns (r: Row)
    ensures r == Updated(user, updates, attributes)
  {
    r := user;
    var remaining := updates.Keys;
    while remaining != {}
      invariant remaining <= updates.Keys
      invariant forall k :: k in r <==> k in user || (k in updates && k !in remaining && k in attributes)
      invariant forall k :: k in r ==> r[k] == if k in updates && k !in remaining && k in attributes then updates[k] else user[k]
      decreases |remaining|
    {
      var key :| key in remaining;
      if key in attributes {
        r := r[key := updates[key]];
      }
      remaining := remaining - {key};
    }
    var expected := Updated(user, updates, attributes);
    assert r.Keys == expected.Keys;
    assert forall k :: k in r ==> r[k] == expected[k];
  }

  /** Whether a user matches every condition: `column == value`, where `== None` is SQL's `IS NULL`. */
  predicate Matches(user: Row, conditions: Row)
  {
    forall k :: k in conditions ==> RecordStatus.Column(user, k) == conditions[k]
  }

  /** The conditions `filter` applies: the pairs whose key names a mapped attribute. */
  function AppliedConditions(filters: Row, attributes: set<string>): Row
  {
    map k | k in filters && k in attributes :: filters[k]
  }

  /** A filter naming no mapped attribute applies no condition, so it selects every user. */
  lemma UnknownKeysIgnored(filters: Row, attributes: set<string>, user: Row)
    requires filters.Keys * attributes == {}
    ensures Matches(user, AppliedConditions(filters, attributes))
  {
    assert AppliedConditions(filters, attributes) == map[] by {
      forall k | k in filters ensures k !in attributes {
        assert k !in filters.Keys * attributes;
      }
    }
  }

  /** A listing of the rows of a table that satisfy `keep`, in some order, once each. */
  ghost predicate Listing(rows: map<string, Row>, keep: Row -> bool, users: seq<Row>, keys: seq<string>)
  {
    && Distinct(keys)
    && |users| == |keys|
    && (forall k :: k in keys <==> k in rows && keep(rows[k]))
    && (forall i :: 0 <= i < |keys| ==> keys[i] in rows && users[i] == rows[keys[i]])
  }

  /** The rows of `rows` that satisfy `keep`, as the list a query's `scalars().all()` returns. */
  method Select(rows: map<string, Row>, keep: Row -> bool) returns (users: seq<Row>, ghost keys: seq<string>)
    ensures Listing(rows, keep, users, keys)
  {
    var remaining := rows.Keys;
    users, keys := [], [];
    while remaining != {}
      invariant remaining <= rows.Keys
      invariant forall k :: k in keys <==> k in rows && keep(rows[k]) && k !in remaining
      invariant Distinct(keys)
      invariant |users| == |keys|
      invariant forall i :: 0 <= i < |keys| ==> keys[i] in rows && users[i] == rows[keys[i]]
      decreases |remaining|
    {
      var k :| k in remaining;
      if keep(rows[k]) {
        users := users + [rows[k]];
        keys := keys + [k];
      }
      remaining := remaining - {k};
    }
  }

  class LiteUserRepo {
    const session: Session
    const attributes: set<string>

    constructor (session: Session, attributes: set<string>)
      ensures this.session == session && this.attributes == attributes
    {
      this.session := session;
      this.attributes := attributes;
    }

    /**
     * `create(data)`: `User(**data)` rejects a key that is not a mapped attribute; the new user
     * is added and flushed, and a rejected flush surfaces as `DataIntegrityError`.
     */
    method Create(data: Row, defaultId: string) returns (r: Result<Row, PyError>)
      modifies session
      ensures !(data.Keys <= attributes) ==>
        && r.Err? && r.error.TypeError? && r.error.argument in data.Keys - attributes
        && session.rows == old(session.rows) && session.trace == old(session.trace)
      ensures data.Keys <= attributes ==>
        (var id := NewUserId(data, defaultId);
         && session.trace == old(session.trace) + [FlushCall(r.Ok?)]
         && (r.Ok? <==> !session.flushFails && id !in old(session.rows))
         && (r.Ok? ==> r.value == data[ID := Str(id)] && session.rows == old(session.rows)[id := r.value])
         && (r.Err? ==> r == Err(DataIntegrityError(CREATE_FAILED)) && session.rows == old(session.rows)))
      ensures session.stored == old(session.stored)
    {
      if !(data.Keys <= attributes) {
        assert exists k :: k in data.Keys && k !in attributes;
        var k :| k in data.Keys && k !in attributes;
        return Err(TypeError(k));
      }
      var id := NewUserId(data, defaultId);
      var user := data[ID := Str(id)];
      var ok := session.Insert(id, user);
      if !ok {
        return Err(DataIntegrityError(CREATE_FAILED));
      }
      r := Ok(user);
    }

    /** `get_by_id(id)`. */
    function GetById(id: string): (r: Option<Row>)
      reads session
      ensures r.None? <==> id !in session.rows
      ensures r.Some? ==> r.value == session.rows[id]
    {
      if id in session.rows then Some(session.rows[id]) else None
    }

    /** `get_all()`: every user, deleted or not. */
    method GetAll() returns (users: seq<Row>, ghost keys: seq<string>)
      ensures Listing(session.rows, _ => true, users, keys)
      ensures |users| == |session.rows|
    {
      users, keys := Select(session.rows, _ => true);
      DistinctKeysCount(keys, session.rows.Keys);
    }

    /**
     * `update(id, updates)`: an unknown id raises `DataIntegrityError` with nothing changed;
     * otherwise each pair naming a mapped attribute is set and the change flushed. A rejected
     * flush raises, and the change stays pending in the session.
     */
    method Update(id: string, updates: Row) returns (r: Result<Row, PyError>)
      modifies session
      ensures id !in old(session.rows) ==>
        r == Err(DataIntegrityError(USER_NOT_FOUND)) && session.rows == old(session.rows) && session.trace == old(session.trace)
      ensures id in old(session.rows) ==>
        && session.rows == old(session.rows)[id := Updated(old(session.rows)[id], updates, attributes)]
        && session.trace == old(session.trace) + [FlushCall(!session.flushFails)]
        && (session.flushFails ==> r == Err(DataIntegrityError(UPDATE_FAILED)))
        && (!session.flushFails ==> r == Ok(session.rows[id]))
      ensures session.stored == old(session.stored)
    {
      if id !in session.rows {
        return Err(DataIntegrityError(USER_NOT_FOUND));
      }
      var user := SetAttributes(session.rows[id], updates, attributes);
      session.rows := session.rows[id := user];
      var ok := session.Flush();
      if !ok {
        return Err(DataIntegrityError(UPDATE_FAILED));
      }
      r := Ok(user);
    }

    /**
     * `soft_delete(id)`: an unknown id raises `DataIntegrityError`; otherwise `deleted_at`
     * becomes `deleted_at or updated_at` and the change is flushed. `deleted_by` is not touched.
     * Reading `user.deleted_at` raises AttributeError when the mapped class has no such
     * attribute (the `User` model of db_user.py declares none), and `user.updated_at` is read
     * only when `deleted_at` is falsy; either raise happens before the flush, with nothing changed.
     */
    method SoftDelete(id: string) returns (r: Result<(), PyError>)
      modifies session
      ensures id !in old(session.rows) ==>
        r == Err(DataIntegrityError(USER_NOT_FOUND)) && session.rows == old(session.rows) && session.trace == old(session.trace)
      ensures id in old(session.rows) && !SoftDeleteReads(old(session.rows)[id], attributes) ==>
        && r == Err(AttributeError(if RecordStatus.DELETED_AT !in attributes then RecordStatus.DELETED_AT else RecordStatus.UPDATED_AT))
        && session.rows == old(session.rows) && session.trace == old(session.trace)
      ensures id in old(session.rows) && SoftDeleteReads(old(session.rows)[id], attributes) ==>
        && session.rows == old(session.rows)[id := UserSoftDeleted(old(session.rows)[id])]
        && session.trace == old(session.trace) + [FlushCall(!session.flushFails)]
        && (r.Ok? <==> !session.flushFails)
        && (r.Err? ==> r.error == DataIntegrityError(SOFT_DELETE_FAILED))
      ensures session.stored == old(session.stored)
    {
      if id !in session.rows {
        return Err(DataIntegrityError(USER_NOT_FOUND));
      }
      var user := session.rows[id];
      if RecordStatus.DELETED_AT !in attributes {
        return Err(AttributeError(RecordStatus.DELETED_AT));
      }
      if !Truthy(RecordStatus.Column(user, RecordStatus.DELETED_AT)) && RecordStatus.UPDATED_AT !in attributes {
        return Err(AttributeError(RecordStatus.UPDATED_AT));
      }
      session.rows := session.rows[id := UserSoftDeleted(user)];
      var ok := session.Flush();
      r := if ok then Ok(()) else Err(DataIntegrityError(SOFT_DELETE_FAILED));
    }

    /**
     * `filter(filters)`: one condition per pair whose key names a mapped attribute, the other
     * pairs ignored; the users matching all conditions.
     */
    method Filter(filters: Row) returns (users: seq<Row>, ghost keys: seq<string>)
      ensures Listing(session.rows, u => Matches(u, AppliedConditions(filters, attributes)), users, keys)
    {
      var remaining := filters.Keys;
      var conditions: Row := map[];
      while remaining != {}
        invariant remaining <= filters.Keys
        invariant conditions == map k | k in filters && k !in remaining && k in attributes :: filters[k]
        decreases |remaining|
      {
        var key :| key in remaining;
        if key in attributes {
          conditions := conditions[key := filters[key]];
        }
        remaining := remaining - {key};
      }
      assert conditions == AppliedConditions(filters, attributes);
      users, keys := Select(session.rows, u => Matches(u, conditions));
    }
  }

  /** An empty filter selects every user. */
  method EmptyFilterSelectsAll(repo: LiteUserRepo) returns (users: seq<Row>, ghost keys: seq<string>)
    ensures Listing(repo.session.rows, _ => true, users, keys)
  {
    users, keys := repo.Filter(map[]);
    assert AppliedConditions(map[], repo.attributes) == map[];
  }

  /**
   * Soft-deleting a user twice leaves the table as one soft delete does; when the mapped class
   * lacks an attribute the expression reads, both calls raise the same AttributeError.
   */
  method SoftDeleteTwice(repo: LiteUserRepo, id: string) returns (r1: Result<(), PyError>, r2: Result<(), PyError>)
    requires id in repo.session.rows
    modifies repo.session
    ensures SoftDeleteReads(old(repo.session.rows)[id], repo.attributes) ==>
      repo.session.rows == old(repo.session.rows)[id := UserSoftDeleted(old(repo.session.rows)[id])]
    ensures !SoftDeleteReads(old(repo.session.rows)[id], repo.attributes) ==>
      repo.session.rows == old(repo.session.rows) && r1 == r2 && r1.Err? && r1.error.AttributeError?
  {
    r1 := repo.SoftDelete(id);
    r2 := repo.SoftDelete(id);
    SoftDeleteIdempotent(old(repo.session.rows)[id]);
  }
}

=== FILE: member_registry.dfy ===
/**
 * The member registration service: members are numbered from the current member count
 * (`MKIT001`, `MKIT002`, …), stored as `MemberInDB` rows in a repository dict, and returned
 * to clients as `MemberPublic` views without pin and password.
 */
module MemberRegistry {
  import opened Wrappers
  import opened Values
  import opened Ids
  import opened Exceptions
  import opened Schemas
  import opened Collections

  const PREFIX := "MKIT"

  /** A 400 with no context, told apart from `AlreadyRegistered` by its message. */
  function NotFound(memberid: string): (r: PyError)
    ensures r.App? && StatusCode(r.err.cls) == 400 && r.err.context == map[]
    ensures r.err.message != AlreadyRegistered(memberid).err.message
  {
    var n := |"Member dengan ID " + memberid|;
    assert ("Member dengan ID " + memberid + " tidak ditemukan.")[n + 1] == 't';
    assert ("Member dengan ID " + memberid + " sudah terdaftar.")[n + 1] == 's';
    App(NewError(EntityExcError, Some("Member dengan ID " + memberid + " tidak ditemukan."), None))
  }

  function AlreadyRegistered(memberid: string): (r: PyError)
    ensures r.App? && StatusCode(r.err.cls) == 400 && r.err.context == map[]
  {
    App(NewError(EntityExcError, Some("Member dengan ID " + memberid + " sudah terdaftar."), None))
  }

  /** Appending a key and its view keeps the keys and the views paired. */
  lemma ViewsExtend(view: Row -> Result<Row, PyError>, ms: map<string, Row>, keys: seq<string>, out: seq<Row>, k: string, v: Row)
    requires |out| == |keys|
    requires forall i :: 0 <= i < |keys| ==> keys[i] in ms && view(ms[keys[i]]) == Ok(out[i])
    requires k in ms && view(ms[k]) == Ok(v)
    ensures forall i :: 0 <= i < |keys| + 1 ==> (keys + [k])[i] in ms && view(ms[(keys + [k])[i]]) == Ok((out + [v])[i])
  {
  }

  /** Views paired with stored rows carry no pin and no password. */
  lemma ViewsHideSecrets(ms: map<string, Row>, keys: seq<string>, out: seq<Row>)
    requires |out| == |keys|
    requires forall i :: 0 <= i < |keys| ==> keys[i] in ms && PublicView(ms[keys[i]]) == Ok(out[i])
    ensures forall i :: 0 <= i < |out| ==> PIN !in out[i] && PASSWORD !in out[i]
  {
    forall i | 0 <= i < |out|
      ensures PIN !in out[i] && PASSWORD !in out[i]
    {
      assert PublicView(ms[keys[i]]) == Ok(out[i]);
    }
  }

  /** The public view of every row of a store, failing on the first row whose view fails. */
  method PublicViews(ms: map<string, Row>) returns (r: Result<seq<Row>, PyError>, ghost keys: seq<string>)
    ensures r.Ok? ==> Distinct(keys) && (forall k :: k in keys <==> k in ms)
    ensures r.Ok? ==> |r.value| == |keys| == |ms|
    ensures r.Ok? ==> forall i :: 0 <= i < |keys| ==> keys[i] in ms && PublicView(ms[keys[i]]) == Ok(r.value[i])
    ensures r.Ok? ==> forall i :: 0 <= i < |r.value| ==> PIN !in r.value[i] && PASSWORD !in r.value[i]
    ensures r.Err? ==> exists k :: k in ms && PublicView(ms[k]) == Err(r.error)
    ensures (forall k :: k in ms ==> IsMemberInDB(ms[k])) ==> r.Ok?
  {
    var remaining := ms.Keys;
    var out: seq<Row> := [];
    keys := [];
    while remaining != {}
      invariant remaining <= ms.Keys
      invariant forall k :: k in keys <==> k in ms && k !in remaining
      invariant Distinct(keys)
      invariant |out| == |keys|
      invariant forall i :: 0 <= i < |keys| ==> keys[i] in ms && PublicView(ms[keys[i]]) == Ok(out[i])
      decreases |remaining|
    {
      var k :| k in remaining;
      var p := PublicView(ms[k]);
      if p.Err? {
        if forall j :: j in ms ==> IsMemberInDB(ms[j]) {
          PublicViewOfValidMember(ms[k]);
        }
        return Err(p.error), keys;
      }
      ViewsExtend(PublicView, ms, keys, out, k, p.value);
      out := out + [p.value];
      keys := keys + [k];
      remaining := remaining - {k};
    }
    DistinctKeysCount(keys, ms.Keys);
    ViewsHideSecrets(ms, keys, out);
    r := Ok(out);
  }

  /** The keyword arguments `register` passes to `MemberInDB`. */
  function RegistrationFields(memberid: string, data: Row): (row: Row)
    ensures row.Keys == MemberInDBFields
    ensures row[MEMBERID] == Str(memberid) && row[IS_ACTIVE] == Bool(true)
    ensures forall k :: k in MemberCreateFields ==> row[k] == GetAttr(data, k, Null)
  {
    map[MEMBERID := Str(memberid), NAME := GetAttr(data, NAME, Null), PIN := GetAttr(data, PIN, Null),
        PASSWORD := GetAttr(data, PASSWORD, Null), IPADDRESS := GetAttr(data, IPADDRESS, Null),
        REPORT_URL := GetAttr(data, REPORT_URL, Null), ALLOW_NOSIGN := GetAttr(data, ALLOW_NOSIGN, Null),
        IS_ACTIVE := Bool(true)]
  }

  class MemberRegistry {
    /** The repository's dict of stored `MemberInDB` rows. */
    var members: map<string, Row>

    /** Every stored row is a valid `MemberInDB`. */
    ghost predicate Valid()
      reads this
    {
      forall k :: k in members ==> IsMemberInDB(members[k])
    }

    constructor (members: map<string, Row>)
      ensures this.members == members
    {
      this.members := members;
    }

    /** The id `register` tries next: one more than the number of members. */
    function NextId(): (id: string)
      reads this
      ensures ParseId(PREFIX, id) == Some(|members| + 1)
      ensures IdFieldValid(id)
    {
      ParseMakeId(PREFIX, |members| + 1);
      ServiceIdsValid(|members| + 1);
      MakeId(PREFIX, |members| + 1)
    }

    /**
     * `register`: an id already in use raises `EntityExcError` and changes nothing; otherwise the
     * new member is stored active under the id and its public view returned.
     */
    method Register(data: Row) returns (r: Result<Row, PyError>)
      modifies this
      ensures old(Valid()) ==> Valid()
      ensures old(NextId()) in old(members) ==> r == Err(AlreadyRegistered(old(NextId()))) && members == old(members)
      ensures old(NextId()) !in old(members) && ValidateMemberInDB(RegistrationFields(old(NextId()), data)).Err? ==>
        r == Err(ValidateMemberInDB(RegistrationFields(old(NextId()), data)).error) && members == old(members)
      ensures r.Ok? ==>
        && old(NextId()) !in old(members)
        && ValidateMemberInDB(RegistrationFields(old(NextId()), data)).Ok?
        && members == old(members)[old(NextId()) := ValidateMemberInDB(RegistrationFields(old(NextId()), data)).value]
        && r.value == Without(members[old(NextId())], {PIN, PASSWORD})
        && MEMBERID in r.value && r.value[MEMBERID] == Str(old(NextId()))
        && IS_ACTIVE in r.value && r.value[IS_ACTIVE] == Bool(true)
        && (forall k :: k in {NAME, IPADDRESS, REPORT_URL} ==> k in r.value && r.value[k] == GetAttr(data, k, Null))
        && PIN !in r.value && PASSWORD !in r.value
    {
      var memberid := NextId();
      if memberid in members {
        return Err(AlreadyRegistered(memberid));
      }
      var built := ValidateMemberInDB(RegistrationFields(memberid, data));
      if built.Err? {
        return Err(built.error);
      }
      var member := built.value;
      RegisteredMember(memberid, data);
      ghost var wasValid := Valid();
      members := members[memberid := member];
      if wasValid {
        forall k | k in members
          ensures IsMemberInDB(members[k])
        {
        }
      }
      PublicViewOfValidMember(member);
      r := PublicView(member);
    }

    /** `get`: the public view of the stored member, which for a valid member is the row without its secrets. */
    function Get(memberid: string): (r: Result<Row, PyError>)
      reads this
      ensures memberid !in members ==> r == Err(NotFound(memberid))
      ensures memberid in members ==> r == PublicView(members[memberid])
      ensures Valid() && memberid in members ==> r == Ok(Without(members[memberid], {PIN, PASSWORD}))
      ensures r.Ok? ==> PIN !in r.value && PASSWORD !in r.value
    {
      if memberid !in members then Err(NotFound(memberid))
      else
        if IsMemberInDB(members[memberid]) then
          PublicViewOfValidMember(members[memberid]);
          PublicView(members[memberid])
        else PublicView(members[memberid])
    }

    /** `list_members`: one public view per stored member, in the repository's order. */
    method ListMembers() returns (r: Result<seq<Row>, PyError>, ghost keys: seq<string>)
      ensures r.Ok? ==> Distinct(keys) && (forall k :: k in keys <==> k in members)
      ensures r.Ok? ==> |r.value| == |keys| == |members|
      ensures r.Ok? ==> forall i :: 0 <= i < |keys| ==> keys[i] in members && PublicView(members[keys[i]]) == Ok(r.value[i])
      ensures r.Ok? ==> forall i :: 0 <= i < |r.value| ==> PIN !in r.value[i] && PASSWORD !in r.value[i]
      ensures r.Err? ==> exists k :: k in members && PublicView(members[k]) == Err(r.error)
      ensures Valid() ==> r.Ok?
    {
      r, keys := PublicViews(members);
    }

    /**
     * `update` as written: every field the update mentions overwrites the stored one, including
     * fields `empty_to_none` turned into None; the merged row is stored without validation and only
     * then turned into a public view, which may fail.
     */
    method Update(memberid: string, changes: Row) returns (r: Result<Row, PyError>)
      modifies this
      ensures memberid !in old(members) ==> r == Err(NotFound(memberid)) && members == old(members)
      ensures memberid in old(members) ==>
        && members == old(members)[memberid := old(members)[memberid] + changes]
        && r == PublicView(members[memberid])
      ensures memberid in old(members) ==> forall k :: k in old(members)[memberid] && k !in changes ==>
        members[memberid][k] == old(members)[memberid][k]
    {
      if memberid !in members {
        return Err(NotFound(memberid));
      }
      var updated := members[memberid] + changes;
      members := members[memberid := updated];
      r := PublicView(updated);
    }

    /** `update` with the fields that normalised to None left as stored. */
    method UpdateSkippingNone(memberid: string, changes: Row) returns (r: Result<Row, PyError>)
      modifies this
      ensures memberid !in old(members) ==> r == Err(NotFound(memberid)) && members == old(members)
      ensures memberid in old(members) ==>
        && members == old(members)[memberid := old(members)[memberid] + SetFields(changes)]
        && r == PublicView(members[memberid])
      ensures memberid in old(members) ==> forall k :: k in old(members)[memberid] && (k !in changes || changes[k] == Null) ==>
        members[memberid][k] == old(members)[memberid][k]
    {
      if memberid !in members {
        return Err(NotFound(memberid));
      }
      var updated := members[memberid] + SetFields(changes);
      members := members[memberid := updated];
      r := PublicView(updated);
    }

    /** `remove`. */
    method Remove(memberid: string) returns (r: Result<(), PyError>)
      modifies this
      ensures old(Valid()) ==> Valid()
      ensures memberid !in old(members) ==> r == Err(NotFound(memberid)) && members == old(members)
      ensures memberid in old(members) ==> r == Ok(()) && members == old(members) - {memberid}
    {
      if memberid !in members {
        return Err(NotFound(memberid));
      }
      members := members - {memberid};
      r := Ok(());
    }
  }

  /** A registration that validates stores a valid member under the given id, active, with the given fields. */
  lemma RegisteredMember(memberid: string, data: Row)
    requires ValidateMemberInDB(RegistrationFields(memberid, data)).Ok?
    ensures IsMemberInDB(ValidateMemberInDB(RegistrationFields(memberid, data)).value)
    ensures ValidateMemberInDB(RegistrationFields(memberid, data)).value[MEMBERID] == Str(memberid)
    ensures ValidateMemberInDB(RegistrationFields(memberid, data)).value[IS_ACTIVE] == Bool(true)
    ensures forall k :: k in {NAME, IPADDRESS, REPORT_URL} ==>
      ValidateMemberInDB(RegistrationFields(memberid, data)).value[k] == GetAttr(data, k, Null)
  {
    var row := RegistrationFields(memberid, data);
    assert MemberDefaults + row == row;
  }

  /** The changes whose value is not None. */
  function SetFields(changes: Row): (r: Row)
    ensures r.Keys <= changes.Keys
    ensures forall k :: k in r <==> k in changes && changes[k] != Null
    ensures forall k :: k in r ==> r[k] == changes[k]
  {
    map k | k in changes && changes[k] != Null :: changes[k]
  }

  /**
   * As written, an update that blanks the name (`name=""`, which `empty_to_none` turns into None) stores
   * a member without a name and then fails to build its public view.
   */
  method BlankNameUpdateAsWritten(registry: MemberRegistry, memberid: string) returns (r: Result<Row, PyError>)
    requires registry.Valid() && memberid in registry.members
    modifies registry
    ensures r == Err(ValidationError(NAME))
    ensures memberid in registry.members && NAME in registry.members[memberid]
    ensures registry.members[memberid][NAME] == Null
    ensures !registry.Valid()
  {
    var changes := NormalizeMemberUpdate(map[NAME := Str("")]);
    BlankNameNormalised();
    r := registry.Update(memberid, changes.value);
  }

  /** Skipping None, the same update leaves the member as stored and returns its public view. */
  method BlankNameUpdate(registry: MemberRegistry, memberid: string) returns (r: Result<Row, PyError>)
    requires registry.Valid() && memberid in registry.members
    modifies registry
    ensures registry.members == old(registry.members)
    ensures registry.Valid()
    ensures r == registry.Get(memberid) && r.Ok?
  {
    var changes := NormalizeMemberUpdate(map[NAME := Str("")]);
    BlankNameNormalised();
    ghost var m0 := registry.members;
    assert SetFields(changes.value) == map[];
    assert m0[memberid] + map[] == m0[memberid];
    assert m0[memberid := m0[memberid]] == m0;
    r := registry.UpdateSkippingNone(memberid, changes.value);
    assert registry.members == m0;
    PublicViewOfValidMember(registry.members[memberid]);
  }

  /**
   * Numbering by count collides after a removal: with `MKIT001` and `MKIT002` stored and `MKIT001`
   * removed, the next id is `MKIT002` again, so registration raises and stores nothing.
   */
  method RegisterAfterRemoval(registry: MemberRegistry, data: Row) returns (r: Result<Row, PyError>)
    requires registry.Valid()
    requires registry.members.Keys == {MakeId(PREFIX, 1), MakeId(PREFIX, 2)}
    modifies registry
    ensures r == Err(AlreadyRegistered(MakeId(PREFIX, 2)))
    ensures registry.members.Keys == {MakeId(PREFIX, 2)}
  {
    MakeIdInjective(PREFIX, 1, 2);
    var removed := registry.Remove(MakeId(PREFIX, 1));
    assert |registry.members.Keys| == 1;
    assert registry.NextId() == MakeId(PREFIX, 2) && MakeId(PREFIX, 2) in registry.members;
    r := registry.Register(data);
  }
}

=== FILE: memory_repo.dfy ===
/**
 * The in-memory entity stores of members and modules: a dict from generated id to entity
 * (kept in insertion order, as Python dicts are) and a counter from which ids are made as
 * the prefix followed by the counter zero-padded to three digits.
 */
module MemoryRepo {
  import opened Wrappers
  import opened Values
  import opened Ids
  import opened Exceptions
  import opened Schemas
  import opened Collections

  class InMemoryRepository {
    var entities: map<string, Row>
    /** The keys in insertion order. */
    var order: seq<string>
    var counter: nat
    const prefix: string
    /** The name of the id field of the stored schema: `memberid` or `moduleid`. */
    const idField: string
    /** The stored schema's constructor: `MemberInDB(**row)` or `ModuleInDB(**row)`. */
    const validate: Row -> Result<Row, PyError>
    /** The entity's name in messages: `Member` or `Module`. */
    const entityName: string

    /** Every key was generated from a counter value already used, and `order` lists the keys once each. */
    ghost predicate Valid()
      reads this
    {
      && Distinct(order)
      && (forall k :: k in order <==> k in entities)
      && (forall k :: k in entities ==> ParseId(prefix, k).Some? && 1 <= ParseId(prefix, k).value <= counter)
    }

    constructor (prefix: string, idField: string, validate: Row -> Result<Row, PyError>, entityName: string)
      ensures Valid()
      ensures this.prefix == prefix && this.idField == idField && this.validate == validate
      ensures this.entityName == entityName
      ensures entities == map[] && order == [] && counter == 0
    {
      this.prefix := prefix;
      this.idField := idField;
      this.validate := validate;
      this.entityName := entityName;
      entities := map[];
      order := [];
      counter := 0;
    }

    /** `_next_id`: advance the counter and make the id from it. */
    method NextId() returns (id: string)
      requires Valid()
      modifies this
      ensures Valid()
      ensures counter == old(counter) + 1
      ensures id == MakeId(prefix, counter)
      ensures id !in entities
      ensures entities == old(entities) && order == old(order)
    {
      counter := counter + 1;
      id := MakeId(prefix, counter);
      ParseMakeId(prefix, counter);
    }

    /**
     * `create`: take a fresh id, build the stored entity from the DTO's fields and the id, and store it.
     * A failed build raises after the counter has advanced and stores nothing.
     */
    method Create(data: Row) returns (r: Result<Row, PyError>)
      requires Valid()
      modifies this
      ensures Valid()
      ensures counter == old(counter) + 1
      ensures MakeId(prefix, counter) !in old(entities)
      ensures r == validate(data[idField := Str(MakeId(prefix, counter))])
      ensures r.Ok? ==> entities == old(entities)[MakeId(prefix, counter) := r.value]
      ensures r.Ok? ==> order == old(order) + [MakeId(prefix, counter)]
      ensures r.Err? ==> entities == old(entities) && order == old(order)
    {
      var id := NextId();
      r := validate(data[idField := Str(id)]);
      if r.Ok? {
        ParseMakeId(prefix, counter);
        assert id !in order;
        entities := entities[id := r.value];
        order := order + [id];
      }
    }

    /** `get`: the stored entity, or None. */
    function Get(key: string): (r: Option<Row>)
      reads this
      ensures r.Some? <==> key in entities
      ensures r.Some? ==> r.value == entities[key]
    {
      if key in entities then Some(entities[key]) else None
    }

    /** `update`: replace a stored entity; for an unknown key a `KeyError` whose message names the entity and the key. */
    method Update(key: string, entity: Row) returns (r: Result<(), PyError>)
      requires Valid()
      modifies this
      ensures Valid()
      ensures counter == old(counter) && order == old(order)
      ensures key !in old(entities) ==> r == Err(KeyError(entityName + " " + key + " tidak ditemukan.")) && entities == old(entities)
      ensures key in old(entities) ==> r == Ok(()) && entities == old(entities)[key := entity]
    {
      if key !in entities {
        return Err(KeyError(entityName + " " + key + " tidak ditemukan."));
      }
      entities := entities[key := entity];
      r := Ok(());
    }

    /** `remove`: `pop(key, None)`, a no-op for an unknown key. */
    method Remove(key: string)
      requires Valid()
      modifies this
      ensures Valid()
      ensures counter == old(counter)
      ensures entities == old(entities) - {key}
      ensures order == Delete(old(order), key)
      ensures key !in old(entities) ==> entities == old(entities) && order == old(order)
    {
      entities := entities - {key};
      order := Delete(order, key);
    }

    /** `all`: the stored entities in insertion order. */
    function All(): (r: seq<Row>)
      reads this
      requires Valid()
      ensures |r| == |order| == |entities|
      ensures forall i :: 0 <= i < |r| ==> order[i] in entities && r[i] == entities[order[i]]
      ensures forall k :: k in entities ==> exists i :: 0 <= i < |r| && order[i] == k
    {
      DistinctKeysCount(order, entities.Keys);
      seq(|order|, i requires 0 <= i < |order| && order[i] in entities reads this => entities[order[i]])
    }
  }

  /** `InMemoryMemberRepository()`: ids `MEM001`, `MEM002`, … and `MemberInDB` entities. */
  method NewMemberRepository() returns (repo: InMemoryRepository)
    ensures fresh(repo) && repo.Valid()
    ensures repo.prefix == "MEM" && repo.idField == MEMBERID && repo.validate == ValidateMemberInDB
    ensures repo.entityName == "Member"
    ensures repo.entities == map[] && repo.counter == 0
  {
    repo := new InMemoryRepository("MEM", MEMBERID, ValidateMemberInDB, "Member");
  }

  /** `InMemoryModuleRepository()`: ids `MOD001`, `MOD002`, … and `ModuleInDB` entities. */
  method NewModuleRepository() returns (repo: InMemoryRepository)
    ensures fresh(repo) && repo.Valid()
    ensures repo.prefix == "MOD" && repo.idField == MODULEID && repo.validate == ValidateModuleInDB
    ensures repo.entityName == "Module"
    ensures repo.entities == map[] && repo.counter == 0
  {
    repo := new InMemoryRepository("MOD", MODULEID, ValidateModuleInDB, "Module");
  }

  /** A member built by the member store carries the generated id, which meets the `memberid` constraint. */
  lemma MemberBuildKeepsId(data: Row, n: nat)
    requires ValidateMemberInDB(data[MEMBERID := Str(MakeId("MEM", n))]).Ok?
    ensures ValidateMemberInDB(data[MEMBERID := Str(MakeId("MEM", n))]).value[MEMBERID] == Str(MakeId("MEM", n))
  {
  }

  /** A module built by the module store carries the generated id unchanged by whitespace stripping. */
  lemma ModuleBuildKeepsId(data: Row, n: nat)
    requires ValidateModuleInDB(data[MODULEID := Str(MakeId("MOD", n))]).Ok?
    ensures ValidateModuleInDB(data[MODULEID := Str(MakeId("MOD", n))]).value[MODULEID] == Str(MakeId("MOD", n))
  {
    GeneratedModuleIdAccepted(n);
  }

  /** The id check never rejects a member built by the store: only the DTO's own fields can. */
  lemma MemberBuildIdNeverFails(data: Row, n: nat)
    requires ValidateMemberInDB(data[MEMBERID := Str(MakeId("MEM", n))]).Err?
    ensures ValidateMemberInDB(data[MEMBERID := Str(MakeId("MEM", n))]).error != ValidationError(MEMBERID)
  {
    ServiceIdsValid(n);
  }

  /** Two successive creates store under different ids, and a remove in between does not make an id reusable. */
  method CreateRemoveCreate(repo: InMemoryRepository, a: Row, b: Row) returns (first: string, second: string)
    requires repo.Valid()
    modifies repo
    ensures repo.Valid()
    ensures first != second
    ensures second !in old(repo.entities)
  {
    var r1 := repo.Create(a);
    first := MakeId(repo.prefix, repo.counter);
    repo.Remove(first);
    var r2 := repo.Create(b);
    second := MakeId(repo.prefix, repo.counter);
    MakeIdInjective(repo.prefix, repo.counter - 1, repo.counter);
  }
}

=== FILE: record_status.dfy ===
/**
 * The record-status helpers of the repositories: instance predicates that read a model
 * instance's `is_active` / `is_deleted_flag` / `deleted_at` attributes (with `getattr`
 * defaults where the helpers use them), and the SQL filter conditions meant to select the
 * same records. An instance is a `Row` whose missing keys are missing attributes; a table
 * row gives NULL to a column it does not mention.
 */
module RecordStatus {
  import opened Wrappers
  import opened Values
  import opened Exceptions
  import Schemas

  const IS_ACTIVE := Schemas.IS_ACTIVE
  const IS_DELETED_FLAG := "is_deleted_flag"
  const DELETED_AT := "deleted_at"
  const DELETED_BY := "deleted_by"
  const CREATED_AT := "created_at"
  const CREATED_BY := "created_by"
  const UPDATED_AT := "updated_at"
  const UPDATED_BY := "updated_by"

  // ---------------------------------------------------------------------------------------
  // Instance helpers (filter_helpers.py)
  // ---------------------------------------------------------------------------------------

  /** `is_valid_record`: active and not flagged; a missing `is_active` reads as False. */
  predicate IsValidRecord(inst: Row)
    ensures IsValidRecord(inst) ==> IS_ACTIVE in inst && Truthy(inst[IS_ACTIVE])
    ensures IsValidRecord(inst) ==> !IsSoftDeleted(inst)
  {
    Truthy(GetAttr(inst, IS_ACTIVE, Bool(false))) && !Truthy(GetAttr(inst, IS_DELETED_FLAG, Bool(false)))
  }

  /** `is_soft_deleted`: the flag is set; a missing flag reads as False. */
  predicate IsSoftDeleted(inst: Row)
    ensures IsSoftDeleted(inst) <==> IS_DELETED_FLAG in inst && Truthy(inst[IS_DELETED_FLAG])
  {
    Truthy(GetAttr(inst, IS_DELETED_FLAG, Bool(false)))
  }

  /** `is_inactive`: not active and not flagged; a missing `is_active` reads as True. */
  predicate IsInactive(inst: Row)
    ensures IsInactive(inst) ==> IS_ACTIVE in inst && !Truthy(inst[IS_ACTIVE])
    ensures IsInactive(inst) ==> !IsSoftDeleted(inst)
  {
    !Truthy(GetAttr(inst, IS_ACTIVE, Bool(true))) && !Truthy(GetAttr(inst, IS_DELETED_FLAG, Bool(false)))
  }

  /** Whenever the instance has an `is_active` attribute, exactly one of the three statuses holds. */
  lemma StatusesPartition(inst: Row)
    requires IS_ACTIVE in inst
    ensures IsValidRecord(inst) || IsSoftDeleted(inst) || IsInactive(inst)
    ensures !(IsValidRecord(inst) && IsSoftDeleted(inst))
    ensures !(IsValidRecord(inst) && IsInactive(inst))
    ensures !(IsSoftDeleted(inst) && IsInactive(inst))
  {
  }

  /** The partition has one gap: without `is_active`, a record that is not flagged has none of the three statuses. */
  lemma MissingIsActiveHasNoStatus(inst: Row)
    requires IS_ACTIVE !in inst && !IsSoftDeleted(inst)
    ensures !IsValidRecord(inst) && !IsSoftDeleted(inst) && !IsInactive(inst)
  {
  }

  // ---------------------------------------------------------------------------------------
  // SQL filters (filter_helpers.py)
  // ---------------------------------------------------------------------------------------

  /** A column of a table row; a column the row does not mention is NULL. */
  function Column(row: Row, col: string): Value
  {
    GetAttr(row, col, Null)
  }

  /** `col IS true`: NULL does not match. */
  predicate IsTrue(v: Value) { v == Bool(true) }

  /** `col IS false`: NULL does not match. */
  predicate IsFalse(v: Value) { v == Bool(false) }

  /** `valid_record_filter`. */
  predicate ValidRecordFilter(row: Row)
    ensures ValidRecordFilter(row) <==>
      IS_ACTIVE in row && row[IS_ACTIVE] == Bool(true) && IS_DELETED_FLAG in row && row[IS_DELETED_FLAG] == Bool(false)
  {
    IsTrue(Column(row, IS_ACTIVE)) && IsFalse(Column(row, IS_DELETED_FLAG))
  }

  /** `soft_deleted_filter`. */
  predicate SoftDeletedFilter(row: Row)
    ensures SoftDeletedFilter(row) <==> IS_DELETED_FLAG in row && row[IS_DELETED_FLAG] == Bool(true)
  {
    IsTrue(Column(row, IS_DELETED_FLAG))
  }

  /** `inactive_filter`. */
  predicate InactiveFilter(row: Row)
    ensures InactiveFilter(row) <==>
      IS_ACTIVE in row && row[IS_ACTIVE] == Bool(false) && IS_DELETED_FLAG in row && row[IS_DELETED_FLAG] == Bool(false)
  {
    IsFalse(Column(row, IS_ACTIVE)) && IsFalse(Column(row, IS_DELETED_FLAG))
  }

  /** `all_records_filter`: the constant condition True. */
  predicate AllRecordsFilter(row: Row)
    ensures AllRecordsFilter(row)
  {
    true
  }

  /** A row whose two status columns hold non-NULL booleans. */
  predicate BoolColumns(row: Row)
  {
    IS_ACTIVE in row && row[IS_ACTIVE].Bool? && IS_DELETED_FLAG in row && row[IS_DELETED_FLAG].Bool?
  }

  /** On rows with non-NULL boolean status columns each filter selects exactly what its instance helper accepts. */
  lemma FiltersMatchHelpers(row: Row)
    requires BoolColumns(row)
    ensures ValidRecordFilter(row) <==> IsValidRecord(row)
    ensures SoftDeletedFilter(row) <==> IsSoftDeleted(row)
    ensures InactiveFilter(row) <==> IsInactive(row)
    ensures AllRecordsFilter(row)
  {
  }

  /** Filters and helpers part ways on NULL: the two status columns NULL and not flagged. */
  lemma NullColumnsDisagree()
    ensures var row: Row := map[IS_ACTIVE := Null, IS_DELETED_FLAG := Bool(false)];
      IsInactive(row) && !InactiveFilter(row)
    ensures var row: Row := map[IS_ACTIVE := Bool(true), IS_DELETED_FLAG := Null];
      IsValidRecord(row) && !ValidRecordFilter(row)
  {
  }

  /** Every table row satisfies exactly one of the three filters when its status columns are non-NULL booleans. */
  lemma FiltersPartition(row: Row)
    requires BoolColumns(row)
    ensures ValidRecordFilter(row) || SoftDeletedFilter(row) || InactiveFilter(row)
    ensures !(ValidRecordFilter(row) && SoftDeletedFilter(row))
    ensures !(ValidRecordFilter(row) && InactiveFilter(row))
    ensures !(SoftDeletedFilter(row) && InactiveFilter(row))
  {
    FiltersMatchHelpers(row);
    StatusesPartition(row);
  }

  // ---------------------------------------------------------------------------------------
  // The three-condition variant (helpers.py)
  // ---------------------------------------------------------------------------------------

  /** A model instance that has all three attributes the variant reads without defaults. */
  predicate HasStatusAttributes(inst: Row)
  {
    IS_ACTIVE in inst && IS_DELETED_FLAG in inst && DELETED_AT in inst
  }

  /**
   * `helpers.is_valid_record`: active, not flagged and no deletion timestamp, read by plain
   * attribute access. Python's `and` and `not` short-circuit, so `is_deleted_flag` is read
   * only when `is_active` is truthy and `deleted_at` only when the flag is falsy; the first
   * missing attribute that is read raises AttributeError. `Ok(b)` is the truth value returned.
   */
  function IsValidRecordStrict(inst: Row): (r: Result<bool, PyError>)
    ensures IS_ACTIVE !in inst ==> r == Err(AttributeError(IS_ACTIVE))
    ensures IS_ACTIVE in inst && !Truthy(inst[IS_ACTIVE]) ==> r == Ok(false)
    ensures IS_ACTIVE in inst && Truthy(inst[IS_ACTIVE]) && IS_DELETED_FLAG !in inst ==>
      r == Err(AttributeError(IS_DELETED_FLAG))
    ensures IS_ACTIVE in inst && Truthy(inst[IS_ACTIVE]) && IS_DELETED_FLAG in inst && !Truthy(inst[IS_DELETED_FLAG]) ==>
      (DELETED_AT !in inst ==> r == Err(AttributeError(DELETED_AT)))
    ensures HasStatusAttributes(inst) ==> r.Ok?
    ensures r.Ok? ==> (r.value <==> IsValidRecord(inst) && !Truthy(GetAttr(inst, DELETED_AT, Null)))
  {
    if IS_ACTIVE !in inst then Err(AttributeError(IS_ACTIVE))
    else if !Truthy(inst[IS_ACTIVE]) then Ok(false)
    else if IS_DELETED_FLAG !in inst then Err(AttributeError(IS_DELETED_FLAG))
    else if Truthy(inst[IS_DELETED_FLAG]) then Ok(false)
    else if DELETED_AT !in inst then Err(AttributeError(DELETED_AT))
    else Ok(!Truthy(inst[DELETED_AT]))
  }

  /** `helpers.valid_record_filter`: the two-condition filter plus `deleted_at IS NULL`. */
  predicate ValidRecordFilterStrict(row: Row)
    ensures ValidRecordFilterStrict(row) <==> ValidRecordFilter(row) && (DELETED_AT !in row || row[DELETED_AT] == Null)
  {
    IsTrue(Column(row, IS_ACTIVE)) && IsFalse(Column(row, IS_DELETED_FLAG)) && Column(row, DELETED_AT) == Null
  }

  /** Any deletion timestamp makes a record invalid under the variant (or raises), whatever its flags say. */
  lemma DeletionTimestampInvalidates(inst: Row)
    requires DELETED_AT in inst && inst[DELETED_AT].Time?
    ensures IsValidRecordStrict(inst) != Ok(true)
    ensures !ValidRecordFilterStrict(inst)
  {
  }

  /** The variant is stricter: it implies the two-condition helper and filter. */
  lemma StrictImpliesValid(inst: Row)
    ensures IsValidRecordStrict(inst) == Ok(true) ==> IsValidRecord(inst)
    ensures ValidRecordFilterStrict(inst) ==> ValidRecordFilter(inst)
  {
  }

  /** With non-NULL boolean flags and `deleted_at` NULL or a timestamp, the variant's filter and helper agree. */
  lemma StrictFilterMatchesHelper(row: Row)
    requires BoolColumns(row) && DELETED_AT in row && (row[DELETED_AT].Null? || row[DELETED_AT].Time?)
    ensures ValidRecordFilterStrict(row) <==> IsValidRecordStrict(row) == Ok(true)
  {
  }

  /** On an instance with all three attributes, the variant rejects a record the two-condition helper accepts exactly when it carries a deletion timestamp. */
  lemma StrictDiffersOnlyByTimestamp(inst: Row)
    requires HasStatusAttributes(inst)
    ensures IsValidRecord(inst) && IsValidRecordStrict(inst) == Ok(false) <==> IsValidRecord(inst) && Truthy(inst[DELETED_AT])
  {
  }
}

=== FILE: repo_audit.dfy ===
/**
 * `AuditMixinRepository`: soft-delete, restore and audit-log lookup for one entity class,
 * through an ORM session. Entity ids and actor ids are opaque canonical strings; the clock
 * reading is an input.
 */
module RepoAudit {
  import opened Wrappers
  import opened Values
  import opened Exceptions
  import opened RecordStatus
  import opened Sessions

  /** The three columns the two transitions write. */
  const DeletionColumns: set<string> := {IS_DELETED_FLAG, DELETED_BY, DELETED_AT}

  /** The six columns of an audit log. */
  const AuditLogColumns: set<string> := {CREATED_BY, CREATED_AT, UPDATED_BY, UPDATED_AT, DELETED_BY, DELETED_AT}

  /** The entity after `soft_delete(entity_id, actor_id)` at time `now`. */
  function SoftDeletedRow(row: Row, actorId: string, now: int): (r: Row)
    ensures DeletionColumns <= r.Keys && r[IS_DELETED_FLAG] == Bool(true) && r[DELETED_BY] == Str(actorId) && r[DELETED_AT] == Time(now)
    ensures forall k :: k !in DeletionColumns ==> (k in r <==> k in row) && (k in row ==> r[k] == row[k])
    ensures IsSoftDeleted(r) && !IsValidRecord(r) && !IsInactive(r)
  {
    row[IS_DELETED_FLAG := Bool(true)][DELETED_BY := Str(actorId)][DELETED_AT := Time(now)]
  }

  /** The entity after `restore(entity_id)`. */
  function RestoredRow(row: Row): (r: Row)
    ensures DeletionColumns <= r.Keys && r[IS_DELETED_FLAG] == Bool(false) && r[DELETED_BY] == Null && r[DELETED_AT] == Null
    ensures forall k :: k !in DeletionColumns ==> (k in r <==> k in row) && (k in row ==> r[k] == row[k])
    ensures !IsSoftDeleted(r)
    ensures IsValidRecord(r) <==> Truthy(GetAttr(row, IS_ACTIVE, Bool(false)))
  {
    row[IS_DELETED_FLAG := Bool(false)][DELETED_BY := Null][DELETED_AT := Null]
  }

  /** Restoring after a soft delete leaves the entity as a restore alone would. */
  lemma RestoreUndoesSoftDelete(row: Row, actorId: string, now: int)
    ensures RestoredRow(SoftDeletedRow(row, actorId, now)) == RestoredRow(row)
  {
  }

  /** On an entity in the restored state, soft delete followed by restore gives back the same entity. */
  lemma {:induction false} SoftDeleteRestoreRoundTrip(row: Row, actorId: string, now: int)
    requires IS_DELETED_FLAG in row && row[IS_DELETED_FLAG] == Bool(false)
    requires DELETED_BY in row && row[DELETED_BY] == Null
    requires DELETED_AT in row && row[DELETED_AT] == Null
    ensures RestoredRow(SoftDeletedRow(row, actorId, now)) == row
  {
    var r := RestoredRow(SoftDeletedRow(row, actorId, now));
    assert r.Keys == row.Keys;
    forall k | k in row
      ensures r[k] == row[k]
    {
      if k !in DeletionColumns {
        assert r[k] == SoftDeletedRow(row, actorId, now)[k];
      }
    }
  }

  /** The dict `get_audit_log` returns for an entity: its six audit columns. */
  function AuditLog(row: Row): (r: Row)
    ensures r.Keys == AuditLogColumns
    ensures forall k :: k in r ==> r[k] == Column(row, k)
  {
    map k | k in AuditLogColumns :: Column(row, k)
  }

  /** The audit log of a soft-deleted entity shows the actor and the time, and its other four columns as before. */
  lemma {:induction false} AuditLogAfterSoftDelete(row: Row, actorId: string, now: int)
    ensures AuditLog(SoftDeletedRow(row, actorId, now)) == AuditLog(row)[DELETED_BY := Str(actorId)][DELETED_AT := Time(now)]
  {
    var a := AuditLog(SoftDeletedRow(row, actorId, now));
    var b := AuditLog(row)[DELETED_BY := Str(actorId)][DELETED_AT := Time(now)];
    assert a.Keys == b.Keys;
    forall k | k in a
      ensures a[k] == b[k]
    {
      if k != DELETED_BY && k != DELETED_AT {
        assert k !in DeletionColumns;
      }
    }
  }

  /** The audit log of a restored entity shows no deleter and no deletion time. */
  lemma AuditLogAfterRestore(row: Row)
    ensures AuditLog(RestoredRow(row))[DELETED_BY] == Null && AuditLog(RestoredRow(row))[DELETED_AT] == Null
  {
  }

  class AuditMixinRepository {
    const session: Session

    constructor (session: Session)
      ensures this.session == session
    {
      this.session := session;
    }

    /**
     * `soft_delete(entity_id, actor_id)`: an unknown id raises `AuditMixinError` before any
     * write; otherwise the flag, the actor and the time are set and the session committed.
     */
    method SoftDelete(entityId: string, actorId: string, now: int) returns (r: Result<(), PyError>)
      modifies session
      ensures entityId !in old(session.rows) ==>
        && r == Err(AuditMixinError("Entity not found for soft_delete: " + entityId))
        && session.rows == old(session.rows) && session.stored == old(session.stored)
        && session.trace == old(session.trace)
      ensures entityId in old(session.rows) ==>
        && session.rows == old(session.rows)[entityId := SoftDeletedRow(old(session.rows)[entityId], actorId, now)]
        && session.trace == old(session.trace) + [CommitCall(!session.commitFails)]
        && (r.Ok? <==> !session.commitFails)
        && (r.Ok? ==> session.stored == session.rows)
        && (r.Err? ==> r.error == DatabaseError && session.stored == old(session.stored))
    {
      if entityId !in session.rows {
        return Err(AuditMixinError("Entity not found for soft_delete: " + entityId));
      }
      session.rows := session.rows[entityId := SoftDeletedRow(session.rows[entityId], actorId, now)];
      var ok := session.Commit();
      r := if ok then Ok(()) else Err(DatabaseError);
    }

    /**
     * `restore(entity_id)`: an unknown id raises `AuditMixinError` before any write;
     * otherwise the flag is cleared, the actor and the time set to NULL, and the session committed.
     */
    method Restore(entityId: string) returns (r: Result<(), PyError>)
      modifies session
      ensures entityId !in old(session.rows) ==>
        && r == Err(AuditMixinError("Entity not found for restore: " + entityId))
        && session.rows == old(session.rows) && session.stored == old(session.stored)
        && session.trace == old(session.trace)
      ensures entityId in old(session.rows) ==>
        && session.rows == old(session.rows)[entityId := RestoredRow(old(session.rows)[entityId])]
        && session.trace == old(session.trace) + [CommitCall(!session.commitFails)]
        && (r.Ok? <==> !session.commitFails)
        && (r.Ok? ==> session.stored == session.rows)
        && (r.Err? ==> r.error == DatabaseError && session.stored == old(session.stored))
    {
      if entityId !in session.rows {
        return Err(AuditMixinError("Entity not found for restore: " + entityId));
      }
      session.rows := session.rows[entityId := RestoredRow(session.rows[entityId])];
      var ok := session.Commit();
      r := if ok then Ok(()) else Err(DatabaseError);
    }

    /** `get_audit_log(entity_id)`: the empty dict for an unknown id, otherwise the entity's audit log. */
    function GetAuditLog(entityId: string): (r: Row)
      reads session
      ensures entityId !in session.rows <==> r == map[]
      ensures entityId in session.rows ==> r == AuditLog(session.rows[entityId])
    {
      if entityId !in session.rows then map[] else AuditLog(session.rows[entityId])
    }
  }

  /**
   * Soft delete followed by restore through the repository returns an entity in the restored
   * state to exactly what it was, and leaves every other entity alone.
   */
  method SoftDeleteThenRestore(repo: AuditMixinRepository, entityId: string, actorId: string, now: int)
      returns (r1: Result<(), PyError>, r2: Result<(), PyError>)
    requires entityId in repo.session.rows
    requires var row := repo.session.rows[entityId];
      && IS_DELETED_FLAG in row && row[IS_DELETED_FLAG] == Bool(false)
      && DELETED_BY in row && row[DELETED_BY] == Null
      && DELETED_AT in row && row[DELETED_AT] == Null
    modifies repo.session
    ensures repo.session.rows == old(repo.session.rows)
  {
    var row := repo.session.rows[entityId];
    r1 := repo.SoftDelete(entityId, actorId, now);
    r2 := repo.Restore(entityId);
    SoftDeleteRestoreRoundTrip(row, actorId, now);
    assert repo.session.rows == old(repo.session.rows)[entityId := row];
  }
}

=== FILE: schemas.dfy ===
/**
 * The member and module schemas: field constraints and defaults of `MemberInDB`,
 * `MemberPublic`, `MemberCreate`, `MemberUpdate`, `ModuleInDB`, `ModuleCreate` and
 * `ModulePublic`, the provider lookup and the `empty_to_none` normaliser.
 * A schema instance is a `Row` (the `model_dump()` dict); a validator maps the input
 * dict to the instance's dict or to a `ValidationError` naming the first failing field
 * in declaration order. IP addresses, URLs and e-mail addresses are opaque values.
 */
module Schemas {
  import opened Wrappers
  import opened Values
  import opened Ascii
  import opened Ids
  import opened Exceptions

  // ----- Providers -----

  datatype Provider = DIGIPOS | ISIMPLE

  function ProviderValue(p: Provider): string
  {
    match p
    case DIGIPOS => "DIGIPOS"
    case ISIMPLE => "ISIMPLE"
  }

  /** The enumeration order of `ProviderEnums`. */
  const ProviderMembers: seq<Provider> := [DIGIPOS, ISIMPLE]

  /** The first member of `ps` whose lower-cased value is `key`. */
  function FindProvider(key: string, ps: seq<Provider>): (r: Option<Provider>)
    ensures r.Some? ==> r.value in ps && Lower(ProviderValue(r.value)) == key
    ensures r.None? ==> forall p :: p in ps ==> Lower(ProviderValue(p)) != key
  {
    if ps == [] then None
    else if Lower(ProviderValue(ps[0])) == key then Some(ps[0])
    else FindProvider(key, ps[1..])
  }

  /** `repr()` of a string, without escape sequences. */
  function Quote(s: string): string { "'" + s + "'" }

  /** `ModuleBase.validate_provider`: the enum member equal to the value ignoring case, else `ValueError`. */
  function ValidateProvider(value: string): (r: Result<Provider, PyError>)
    ensures r.Ok? ==> Lower(value) == Lower(ProviderValue(r.value))
    ensures r.Err? ==> r.error == ValueError("Invalid provider: " + Quote(value))
    ensures r.Err? ==> forall p: Provider :: Lower(value) != Lower(ProviderValue(p))
  {
    match FindProvider(Lower(value), ProviderMembers)
    case Some(p) => Ok(p)
    case None => Err(ValueError("Invalid provider: " + Quote(value)))
  }

  lemma LowerProviderValues()
    ensures Lower(ProviderValue(DIGIPOS)) == "digipos"
    ensures Lower(ProviderValue(ISIMPLE)) == "isimple"
  {
    assert Lower("DIGIPOS") == "digipos";
    assert Lower("ISIMPLE") == "isimple";
  }

  /** Exactly the two provider names, in any letter case, are accepted. */
  lemma ValidateProviderAccepts(value: string)
    ensures ValidateProvider(value).Ok? <==> Lower(value) == "digipos" || Lower(value) == "isimple"
  {
    LowerProviderValues();
    var r := ValidateProvider(value);
    if r.Ok? {
      assert Lower(value) == Lower(ProviderValue(r.value));
      match r.value
      case DIGIPOS =>
      case ISIMPLE =>
    } else {
      assert Lower(value) != Lower(ProviderValue(DIGIPOS));
      assert Lower(value) != Lower(ProviderValue(ISIMPLE));
    }
  }

  /** The validator is idempotent: applied to the value of its own result it returns that member. */
  lemma ValidateProviderIdempotent(value: string)
    requires ValidateProvider(value).Ok?
    ensures ValidateProvider(ProviderValue(ValidateProvider(value).value)) == ValidateProvider(value)
  {
    var p := ValidateProvider(value).value;
    LowerProviderValues();
    match p
    case DIGIPOS =>
      assert Lower(value) == "digipos";
    case ISIMPLE =>
      assert Lower(value) == "isimple";
      assert Lower(ProviderValue(DIGIPOS)) != Lower(value);
  }

  /**
   * The `provider` field as declared: the enum type admits only an exact member value. The after-mode
   * validator then runs on that member and returns it unchanged (`ProviderAfterValidatorKeeps`).
   */
  function ProviderFieldAsWritten(v: Value): (r: Result<Provider, PyError>)
    ensures r.Ok? ==> v == Str(ProviderValue(r.value))
    ensures r.Err? ==> r.error == ValidationError("provider")
  {
    if v == Str(ProviderValue(DIGIPOS)) then Ok(DIGIPOS)
    else if v == Str(ProviderValue(ISIMPLE)) then Ok(ISIMPLE)
    else Err(ValidationError("provider"))
  }

  /** On an exact member value the after-mode validator yields that same member. */
  lemma ProviderAfterValidatorKeeps(v: Value)
    ensures ProviderFieldAsWritten(v).Ok? <==> v == Str("DIGIPOS") || v == Str("ISIMPLE")
    ensures ProviderFieldAsWritten(v).Ok? ==> ValidateProvider(v.s) == ProviderFieldAsWritten(v)
  {
    if ProviderFieldAsWritten(v).Ok? {
      ValidateProviderIdempotent(ProviderValue(ProviderFieldAsWritten(v).value));
      LowerProviderValues();
      match ProviderFieldAsWritten(v).value
      case DIGIPOS =>
        ValidateProviderAccepts("DIGIPOS");
      case ISIMPLE =>
        ValidateProviderAccepts("ISIMPLE");
    }
  }

  /** The `provider` field with the validator run before the enum check, so any letter case is accepted. */
  function ProviderField(v: Value): (r: Result<Provider, PyError>)
    ensures r.Ok? ==> v.Str? && Lower(v.s) == Lower(ProviderValue(r.value))
    ensures r.Err? ==> r.error == ValidationError("provider")
  {
    if v.Str? then
      match ValidateProvider(v.s)
      case Ok(p) => Ok(p)
      case Err(_) => Err(ValidationError("provider"))
    else Err(ValidationError("provider"))
  }

  /**
   * As declared the case-insensitive lookup never takes effect: a lower-case provider name, such as the
   * schema's own example value `digipos`, is rejected, while the corrected field accepts it.
   */
  lemma ProviderFieldRejectsLowerCase(s: string)
    requires s == "digipos" || s == "isimple"
    ensures ProviderFieldAsWritten(Str(s)).Err?
    ensures ProviderField(Str(s)).Ok? && Lower(ProviderValue(ProviderField(Str(s)).value)) == s
  {
    assert ProviderFieldAsWritten(Str(s)).Err? by {
      assert s[0] == 'd' || s[0] == 'i';
    }
    LowerProviderValues();
    LowerAbsorbsCase(ProviderValue(DIGIPOS));
    LowerAbsorbsCase(ProviderValue(ISIMPLE));
    ValidateProviderAccepts(s);
  }

  /** The intended field accepts a string exactly when its lower-case form names a provider. */
  lemma ProviderFieldAccepts(s: string)
    ensures ProviderField(Str(s)).Ok? <==> Lower(s) == "digipos" || Lower(s) == "isimple"
  {
    ValidateProviderAccepts(s);
  }

  // ----- Shared constraints -----

  /** `Field(min_length=5, pattern=r"^[a-zA-Z0-9]*$")` on `memberid` and `moduleid`. */
  predicate IdFieldValid(id: string)
  {
    |id| >= 5 && AllAlnum(id)
  }

  /** Every generated id (an alphanumeric prefix of at least two letters) meets the id constraint. */
  lemma GeneratedIdValid(prefix: string, n: nat)
    requires |prefix| >= 2 && AllAlnum(prefix)
    ensures IdFieldValid(MakeId(prefix, n))
    ensures |MakeId(prefix, n)| >= |prefix| + 3
  {
    MakeIdShape(prefix, n);
    MakeIdAlnum(prefix, n);
  }

  /** The three prefixes in use yield valid `memberid`s and `moduleid`s. */
  lemma ServiceIdsValid(n: nat)
    ensures IdFieldValid(MakeId("MEM", n)) && IdFieldValid(MakeId("MOD", n)) && IdFieldValid(MakeId("MKIT", n))
  {
    GeneratedIdValid("MEM", n);
    GeneratedIdValid("MOD", n);
    GeneratedIdValid("MKIT", n);
  }

  predicate HasStr(row: Row, k: string) { k in row && row[k].Str? }

  /** A required field of an opaque type (address, URL): present and not None. */
  predicate HasValue(row: Row, k: string) { k in row && row[k] != Null }

  /** The strings Pydantic's lax mode reads as False and as True, compared ignoring ASCII case. */
  const FalseWords: set<string> := {"0", "off", "f", "false", "n", "no"}
  const TrueWords: set<string> := {"1", "on", "t", "true", "y", "yes"}

  /**
   * A `bool` field in Pydantic's default (lax) mode: a boolean as it is, the integers 0 and 1,
   * and the words above in any letter case; anything else is refused.
   */
  function LaxBool(v: Value): (r: Option<bool>)
    ensures v.Bool? ==> r == Some(v.b)
    ensures v.Int? ==> (r.Some? <==> v.i == 0 || v.i == 1) && (r.Some? ==> r.value == (v.i == 1))
    ensures v.Str? ==> r == LaxWord(v.s)
    ensures v.Null? || v.Time? ==> r.None?
  {
    match v
    case Bool(b) => Some(b)
    case Int(i) => if i == 0 then Some(false) else if i == 1 then Some(true) else None
    case Str(s) => LaxWord(s)
    case _ => None
  }

  /** A string in a `bool` field: one of the words above, ignoring case. */
  function LaxWord(s: string): (r: Option<bool>)
    ensures r == Some(true) <==> Lower(s) in TrueWords
    ensures r == Some(false) <==> Lower(s) in FalseWords
  {
    if Lower(s) in TrueWords then Some(true) else if Lower(s) in FalseWords then Some(false) else None
  }

  /** The schema's own example value `"true"` and its capitalised form are read as True; `"maybe"` and 2 are refused. */
  lemma LaxBoolExamples()
    ensures LaxBool(Str("true")) == Some(true) && LaxBool(Str("TRUE")) == Some(true)
    ensures LaxBool(Str("off")) == Some(false) && LaxBool(Int(1)) == Some(true)
    ensures LaxBool(Str("maybe")).None? && LaxBool(Int(2)).None?
  {
    assert Lower("true") == "true";
    assert Lower("TRUE") == "true";
    assert Lower("off") == "off";
    assert Lower("maybe") == "maybe";
    assert "maybe" !in TrueWords && "maybe" !in FalseWords by {
      assert "maybe"[0] != "false"[0];
    }
  }

  /** A `bool` field with a default: absent, or a value the lax mode reads as a boolean. */
  predicate BoolOrAbsent(row: Row, k: string) { k !in row || LaxBool(row[k]).Some? }

  /** The row with the boolean field `k`, if present and readable, replaced by the boolean it is read as. */
  function CoerceBool(row: Row, k: string): (r: Row)
    ensures r.Keys == row.Keys
    ensures forall j :: j in row && j != k ==> r[j] == row[j]
    ensures k in row && LaxBool(row[k]).Some? ==> r[k] == Bool(LaxBool(row[k]).value)
    ensures k in row && LaxBool(row[k]).None? ==> r[k] == row[k]
  {
    if k in row && LaxBool(row[k]).Some? then row[k := Bool(LaxBool(row[k]).value)] else row
  }

  /** A `str` (or `SecretStr`) field with `min_length=n`. */
  predicate StrAtLeast(row: Row, k: string, n: nat) { HasStr(row, k) && |row[k].s| >= n }

  /** The `model_dump(exclude=...)` of a row. */
  function Without(row: Row, ks: set<string>): (r: Row)
    ensures r.Keys == row.Keys - ks
    ensures forall k :: k in r ==> r[k] == row[k]
  {
    map k | k in row && k !in ks :: row[k]
  }

  // ----- Members -----

  const NAME := "name"
  const IS_ACTIVE := "is_active"
  const IPADDRESS := "ipaddress"
  const REPORT_URL := "report_url"
  const ALLOW_NOSIGN := "allow_nosign"
  const MEMBERID := "memberid"
  const PIN := "pin"
  const PASSWORD := "password"

  const MemberPublicFields: set<string> := {NAME, IS_ACTIVE, IPADDRESS, REPORT_URL, ALLOW_NOSIGN, MEMBERID}
  const MemberInDBFields: set<string> := MemberPublicFields + {PIN, PASSWORD}
  const MemberCreateFields: set<string> := {NAME, PIN, PASSWORD, IPADDRESS, REPORT_URL, ALLOW_NOSIGN}
  const MemberUpdateFields: set<string> := {NAME, PIN, PASSWORD, IS_ACTIVE, IPADDRESS, REPORT_URL, ALLOW_NOSIGN}
  /** The fields `empty_to_none` is attached to. */
  const EmptyToNoneFields: set<string> := {NAME, PIN, PASSWORD, IPADDRESS, REPORT_URL}

  /** `is_active` defaults to True, `allow_nosign` to False. */
  const MemberDefaults: Row := map[IS_ACTIVE := Bool(true), ALLOW_NOSIGN := Bool(false)]

  /** `MemberBase.name`: `min_length=1, max_length=100`. */
  predicate MemberNameValid(row: Row) { HasStr(row, NAME) && 1 <= |row[NAME].s| <= 100 }

  /** The fields of `MemberBase` as a complete instance holds them. */
  predicate IsMemberBase(m: Row)
  {
    MemberNameValid(m) && IS_ACTIVE in m && m[IS_ACTIVE].Bool? && HasValue(m, IPADDRESS)
    && HasValue(m, REPORT_URL) && ALLOW_NOSIGN in m && m[ALLOW_NOSIGN].Bool?
  }

  /** A complete, valid `MemberInDB`. */
  predicate IsMemberInDB(m: Row)
  {
    m.Keys == MemberInDBFields && IsMemberBase(m) && HasStr(m, MEMBERID) && IdFieldValid(m[MEMBERID].s)
    && StrAtLeast(m, PIN, 6) && StrAtLeast(m, PASSWORD, 6)
  }

  /** A complete, valid `MemberPublic`: the base fields and `memberid`, nothing secret. */
  predicate IsMemberPublic(m: Row)
  {
    m.Keys == MemberPublicFields && IsMemberBase(m) && HasStr(m, MEMBERID)
  }

  /** The two boolean fields of a member read as booleans where the lax mode can read them. */
  function MemberBools(row: Row): (r: Row)
    ensures r.Keys == row.Keys
    ensures forall k :: k in row && k != IS_ACTIVE && k != ALLOW_NOSIGN ==> r[k] == row[k]
  {
    CoerceBool(CoerceBool(row, IS_ACTIVE), ALLOW_NOSIGN)
  }

  /** What a boolean field with a default is read as: the default when absent. */
  function BoolRead(row: Row, k: string, default: bool): Option<bool>
  {
    LaxBool(GetAttr(row, k, Bool(default)))
  }

  /** Filling the defaults and reading the booleans keeps every other field and yields booleans exactly where readable. */
  lemma MemberBoolsOfDefaults(row: Row)
    ensures MemberBools(MemberDefaults + row).Keys == row.Keys + {IS_ACTIVE, ALLOW_NOSIGN}
    ensures forall k :: k in row && k != IS_ACTIVE && k != ALLOW_NOSIGN ==> MemberBools(MemberDefaults + row)[k] == row[k]
    ensures MemberBools(MemberDefaults + row)[IS_ACTIVE].Bool? <==> BoolOrAbsent(row, IS_ACTIVE)
    ensures BoolOrAbsent(row, IS_ACTIVE) ==>
      BoolRead(row, IS_ACTIVE, true).Some? && MemberBools(MemberDefaults + row)[IS_ACTIVE] == Bool(BoolRead(row, IS_ACTIVE, true).value)
    ensures MemberBools(MemberDefaults + row)[ALLOW_NOSIGN].Bool? <==> BoolOrAbsent(row, ALLOW_NOSIGN)
    ensures BoolOrAbsent(row, ALLOW_NOSIGN) ==>
      BoolRead(row, ALLOW_NOSIGN, false).Some? && MemberBools(MemberDefaults + row)[ALLOW_NOSIGN] == Bool(BoolRead(row, ALLOW_NOSIGN, false).value)
  {
    var d := MemberDefaults + row;
    assert d[IS_ACTIVE] == GetAttr(row, IS_ACTIVE, Bool(true));
    assert d[ALLOW_NOSIGN] == GetAttr(row, ALLOW_NOSIGN, Bool(false));
    var c := CoerceBool(d, IS_ACTIVE);
    assert c[ALLOW_NOSIGN] == d[ALLOW_NOSIGN];
  }

  /** The field checks of `MemberInDB`, taken one by one, are exactly what makes the filled row a valid member. */
  lemma MemberInDBConditions(row: Row)
    requires row.Keys <= MemberInDBFields
    ensures IsMemberInDB(MemberBools(MemberDefaults + row)) <==>
      && MemberNameValid(row) && BoolOrAbsent(row, IS_ACTIVE) && HasValue(row, IPADDRESS) && HasValue(row, REPORT_URL)
      && BoolOrAbsent(row, ALLOW_NOSIGN) && HasStr(row, MEMBERID) && IdFieldValid(row[MEMBERID].s)
      && StrAtLeast(row, PIN, 6) && StrAtLeast(row, PASSWORD, 6)
  {
    MemberBoolsOfDefaults(row);
    var m := MemberBools(MemberDefaults + row);
    if IsMemberInDB(m) {
      assert NAME in row && IPADDRESS in row && REPORT_URL in row && MEMBERID in row && PIN in row && PASSWORD in row;
    }
    if NAME in row && IPADDRESS in row && REPORT_URL in row && MEMBERID in row && PIN in row && PASSWORD in row {
      assert m.Keys == MemberInDBFields;
    }
  }

  /**
   * `MemberInDB(**row)`: extra fields are forbidden; defaults fill the missing optional fields and the
   * boolean fields are read in lax mode.
   */
  function ValidateMemberInDB(row: Row): (r: Result<Row, PyError>)
    ensures r.Ok? ==> row.Keys <= MemberInDBFields && IsMemberInDB(r.value)
    ensures r.Ok? ==> forall k :: k in row && k != IS_ACTIVE && k != ALLOW_NOSIGN ==> r.value[k] == row[k]
    ensures r.Ok? ==>
      && BoolRead(row, IS_ACTIVE, true).Some? && r.value[IS_ACTIVE] == Bool(BoolRead(row, IS_ACTIVE, true).value)
      && BoolRead(row, ALLOW_NOSIGN, false).Some? && r.value[ALLOW_NOSIGN] == Bool(BoolRead(row, ALLOW_NOSIGN, false).value)
    ensures r.Err? ==> r.error.ValidationError?
  {
    MemberBoolsOfDefaults(row);
    if !(row.Keys <= MemberInDBFields) then Err(ValidationError("extra_forbidden"))
    else
      MemberInDBConditions(row);
      if !MemberNameValid(row) then Err(ValidationError(NAME))
      else if !BoolOrAbsent(row, IS_ACTIVE) then Err(ValidationError(IS_ACTIVE))
      else if !HasValue(row, IPADDRESS) then Err(ValidationError(IPADDRESS))
      else if !HasValue(row, REPORT_URL) then Err(ValidationError(REPORT_URL))
      else if !BoolOrAbsent(row, ALLOW_NOSIGN) then Err(ValidationError(ALLOW_NOSIGN))
      else if !(HasStr(row, MEMBERID) && IdFieldValid(row[MEMBERID].s)) then Err(ValidationError(MEMBERID))
      else if !StrAtLeast(row, PIN, 6) then Err(ValidationError(PIN))
      else if !StrAtLeast(row, PASSWORD, 6) then Err(ValidationError(PASSWORD))
      else Ok(MemberBools(MemberDefaults + row))
  }

  /** A row is accepted exactly when it has no extra field and passes every field check. */
  lemma ValidateMemberInDBAccepts(row: Row)
    ensures ValidateMemberInDB(row).Ok? <==>
      && row.Keys <= MemberInDBFields
      && MemberNameValid(row) && BoolOrAbsent(row, IS_ACTIVE) && HasValue(row, IPADDRESS) && HasValue(row, REPORT_URL)
      && BoolOrAbsent(row, ALLOW_NOSIGN) && HasStr(row, MEMBERID) && IdFieldValid(row[MEMBERID].s)
      && StrAtLeast(row, PIN, 6) && StrAtLeast(row, PASSWORD, 6)
    ensures ValidateMemberInDB(row).Ok? <==> row.Keys <= MemberInDBFields && IsMemberInDB(MemberBools(MemberDefaults + row))
  {
    if row.Keys <= MemberInDBFields {
      MemberInDBConditions(row);
    }
  }

  /** `MemberPublic(**row)`: unknown fields are ignored; `memberid` is an unconstrained string. */
  function ValidateMemberPublic(row: Row): (r: Result<Row, PyError>)
    ensures r.Ok? ==> IsMemberPublic(r.value)
    ensures r.Ok? ==> forall k :: k in row && k in MemberPublicFields && k != IS_ACTIVE && k != ALLOW_NOSIGN ==> r.value[k] == row[k]
    ensures r.Ok? ==>
      && BoolRead(row, IS_ACTIVE, true).Some? && r.value[IS_ACTIVE] == Bool(BoolRead(row, IS_ACTIVE, true).value)
      && BoolRead(row, ALLOW_NOSIGN, false).Some? && r.value[ALLOW_NOSIGN] == Bool(BoolRead(row, ALLOW_NOSIGN, false).value)
    ensures r.Err? ==> r.error.ValidationError?
  {
    var w := Without(row, row.Keys - MemberPublicFields);
    MemberBoolsOfDefaults(w);
    assert GetAttr(w, IS_ACTIVE, Bool(true)) == GetAttr(row, IS_ACTIVE, Bool(true));
    assert GetAttr(w, ALLOW_NOSIGN, Bool(false)) == GetAttr(row, ALLOW_NOSIGN, Bool(false));
    if !MemberNameValid(row) then Err(ValidationError(NAME))
    else if !BoolOrAbsent(row, IS_ACTIVE) then Err(ValidationError(IS_ACTIVE))
    else if !HasValue(row, IPADDRESS) then Err(ValidationError(IPADDRESS))
    else if !HasValue(row, REPORT_URL) then Err(ValidationError(REPORT_URL))
    else if !BoolOrAbsent(row, ALLOW_NOSIGN) then Err(ValidationError(ALLOW_NOSIGN))
    else if !HasStr(row, MEMBERID) then Err(ValidationError(MEMBERID))
    else Ok(MemberBools(MemberDefaults + w))
  }

  /** `MemberPublic(**m.model_dump(exclude={"pin", "password"}))`. */
  function PublicView(m: Row): (r: Result<Row, PyError>)
    ensures r.Ok? ==> PIN !in r.value && PASSWORD !in r.value
    ensures r.Err? ==> r.error.ValidationError?
  {
    ValidateMemberPublic(Without(m, {PIN, PASSWORD}))
  }

  /** The public view of a valid stored member always validates, keeps every non-secret field and drops the secrets. */
  lemma PublicViewOfValidMember(m: Row)
    requires IsMemberInDB(m)
    ensures PublicView(m).Ok?
    ensures PublicView(m).value == Without(m, {PIN, PASSWORD})
    ensures PIN !in PublicView(m).value && PASSWORD !in PublicView(m).value
  {
    var w := Without(m, {PIN, PASSWORD});
    assert w.Keys == MemberPublicFields;
    assert Without(w, w.Keys - MemberPublicFields) == w;
    assert MemberDefaults + w == w;
  }

  /** `MemberCreate(**row)`: the name is unconstrained; pin and password need six characters. */
  function ValidateMemberCreate(row: Row): (r: Result<Row, PyError>)
    ensures r.Ok? ==> r.value.Keys == MemberCreateFields
    ensures r.Ok? ==> HasStr(r.value, NAME) && StrAtLeast(r.value, PIN, 6) && StrAtLeast(r.value, PASSWORD, 6)
    ensures r.Ok? ==> BoolRead(row, ALLOW_NOSIGN, false).Some? && r.value[ALLOW_NOSIGN] == Bool(BoolRead(row, ALLOW_NOSIGN, false).value)
    ensures r.Ok? ==> forall k :: k in row && k in MemberCreateFields && k != ALLOW_NOSIGN ==> r.value[k] == row[k]
    ensures r.Err? ==> r.error.ValidationError?
  {
    if !HasStr(row, NAME) then Err(ValidationError(NAME))
    else if !StrAtLeast(row, PIN, 6) then Err(ValidationError(PIN))
    else if !StrAtLeast(row, PASSWORD, 6) then Err(ValidationError(PASSWORD))
    else if !HasValue(row, IPADDRESS) then Err(ValidationError(IPADDRESS))
    else if !HasValue(row, REPORT_URL) then Err(ValidationError(REPORT_URL))
    else if !BoolOrAbsent(row, ALLOW_NOSIGN) then Err(ValidationError(ALLOW_NOSIGN))
    else Ok(CoerceBool(map[ALLOW_NOSIGN := Bool(false)] + Without(row, row.Keys - MemberCreateFields), ALLOW_NOSIGN))
  }

  /** A `MemberCreate` name of any length is accepted, though `MemberInDB` later demands 1..100 characters. */
  lemma CreateNameUnconstrained(row: Row)
    requires ValidateMemberCreate(row).Ok?
    requires |row[NAME].s| > 100
    ensures ValidateMemberInDB(ValidateMemberCreate(row).value[MEMBERID := Str("MEM001")]).Err?
  {
  }

  /**
   * `MemberUpdate.empty_to_none`: `value in (None, "", False)`, where `0 == False` also holds; a
   * `SecretStr` instance equals none of them, even an empty one.
   */
  function EmptyToNone(v: Value): (r: Value)
    ensures !v.Secret? ==> r == (if Truthy(v) then v else Null)
    ensures v.Secret? ==> r == v
  {
    if v == Null || v == Str("") || v == Bool(false) || v == Int(0) then Null else v
  }

  /** Normalising twice is normalising once. */
  lemma EmptyToNoneIdempotent(v: Value)
    ensures EmptyToNone(EmptyToNone(v)) == EmptyToNone(v)
  {
  }

  /** The `SecretStr | None` fields of `MemberUpdate`. */
  const MemberUpdateSecretFields: set<string> := {PIN, PASSWORD}

  /**
   * One given field of a `MemberUpdate`: `empty_to_none` on the string-like fields, a remaining
   * `str` wrapped on the `SecretStr` fields, the lax reading on the booleans.
   */
  function NormalizeUpdateField(k: string, v: Value): Value
  {
    if k in MemberUpdateSecretFields then AsSecret(EmptyToNone(v), false)
    else if k in EmptyToNoneFields then EmptyToNone(v)
    else if LaxBool(v).Some? then Bool(LaxBool(v).value)
    else v
  }

  /**
   * `MemberUpdate(**row).model_dump(exclude_unset=True)`: the fields the caller gave, each optional with
   * default None, `empty_to_none` applied to the five string-like fields, a `str` pin or password
   * wrapped as `SecretStr`, and the two booleans read in lax mode; other keys are ignored.
   */
  function NormalizeMemberUpdate(row: Row): (r: Result<Row, PyError>)
    ensures r.Ok? <==> MemberUpdateAccepts(row)
    ensures r.Ok? ==> r.value.Keys == row.Keys * MemberUpdateFields
    ensures r.Ok? ==> forall k :: k in r.value && k in EmptyToNoneFields - MemberUpdateSecretFields ==>
      r.value[k] == EmptyToNone(row[k]) && (r.value[k] == Null || Truthy(r.value[k]) || r.value[k] == Secret(""))
    ensures r.Ok? ==> forall k :: k in r.value && k in MemberUpdateSecretFields ==>
      && (row[k].Secret? ==> r.value[k] == row[k])
      && (row[k].Str? && row[k].s != "" ==> r.value[k] == Secret(row[k].s))
      && (!row[k].Secret? && !(row[k].Str? && row[k].s != "") ==> r.value[k] == Null)
    ensures r.Ok? ==> forall k :: k in r.value && k !in EmptyToNoneFields ==>
      (row[k] == Null && r.value[k] == Null) || (LaxBool(row[k]).Some? && r.value[k] == Bool(LaxBool(row[k]).value))
    ensures r.Err? ==> r.error.ValidationError?
  {
    var u := map k | k in row && k in MemberUpdateFields :: NormalizeUpdateField(k, row[k]);
    if MemberUpdateAccepts(row) then Ok(u) else Err(MemberUpdateError(row))
  }

  /**
   * A given name normalises to None or a string, a given pin or password to None, a string or a
   * `SecretStr` instance, and every given boolean field is None or a lax boolean.
   */
  predicate MemberUpdateAccepts(row: Row)
  {
    && (NAME in row ==> EmptyToNone(row[NAME]).Null? || EmptyToNone(row[NAME]).Str?)
    && (forall k :: k in row && k in MemberUpdateSecretFields ==>
          EmptyToNone(row[k]).Null? || EmptyToNone(row[k]).Str? || EmptyToNone(row[k]).Secret?)
    && (forall k :: k in row && k in {IS_ACTIVE, ALLOW_NOSIGN} ==> row[k] == Null || LaxBool(row[k]).Some?)
  }

  /** The error of a rejected `MemberUpdate(**row)`, naming the first field, in declaration order, that fails. */
  function MemberUpdateError(row: Row): (e: PyError)
    ensures e.ValidationError?
  {
    if NAME in row && !(EmptyToNone(row[NAME]).Null? || EmptyToNone(row[NAME]).Str?) then ValidationError(NAME)
    else if PIN in row && !(EmptyToNone(row[PIN]).Null? || EmptyToNone(row[PIN]).Str? || EmptyToNone(row[PIN]).Secret?)
    then ValidationError(PIN)
    else if PASSWORD in row && !(EmptyToNone(row[PASSWORD]).Null? || EmptyToNone(row[PASSWORD]).Str? || EmptyToNone(row[PASSWORD]).Secret?)
    then ValidationError(PASSWORD)
    else if IS_ACTIVE in row && !(row[IS_ACTIVE] == Null || LaxBool(row[IS_ACTIVE]).Some?) then ValidationError(IS_ACTIVE)
    else ValidationError(ALLOW_NOSIGN)
  }

  /** A blank name is valid in an update and normalises to None. */
  lemma BlankNameNormalised()
    ensures NormalizeMemberUpdate(map[NAME := Str("")]) == Ok(map[NAME := Null])
  {
    var row := map[NAME := Str("")];
    assert NormalizeUpdateField(NAME, Str("")) == Null;
    assert (map k | k in row && k in MemberUpdateFields :: NormalizeUpdateField(k, row[k])) == map[NAME := Null];
  }

  /** A pin given as a string or as a `SecretStr` instance is accepted and stored as `SecretStr`. */
  lemma PinUpdateWrapped()
    ensures NormalizeMemberUpdate(map[PIN := Str("123456")]) == Ok(map[PIN := Secret("123456")])
    ensures NormalizeMemberUpdate(map[PIN := Secret("123456")]) == Ok(map[PIN := Secret("123456")])
  {
    var row := map[PIN := Str("123456")];
    assert (map k | k in row && k in MemberUpdateFields :: NormalizeUpdateField(k, row[k])) == map[PIN := Secret("123456")];
    var row' := map[PIN := Secret("123456")];
    assert (map k | k in row' && k in MemberUpdateFields :: NormalizeUpdateField(k, row'[k])) == map[PIN := Secret("123456")];
  }

  /** An update that sets nothing is valid and empty: every field is optional. */
  lemma EmptyUpdateValid()
    ensures NormalizeMemberUpdate(map[]) == Ok(map[])
  {
  }

  // ----- Modules -----

  const PROVIDER := "provider"
  const BASE_URL := "base_url"
  const MODULEID := "moduleid"
  const USERNAME := "username"
  const MSISDN := "msisdn"
  const EMAIL := "email"

  const ModuleCreateFields: set<string> := {PROVIDER, NAME, BASE_URL, USERNAME, MSISDN, PIN, PASSWORD, EMAIL}
  const ModuleInDBFields: set<string> := ModuleCreateFields + {IS_ACTIVE, MODULEID}

  /**
   * `str_strip_whitespace`: Pydantic strips a `str` input with Rust's `str::trim`, which drops
   * leading and trailing Unicode whitespace.
   */
  function Strip(s: string): (r: string)
    ensures |r| <= |s|
    ensures r == [] || (!IsTrimWhitespace(r[0]) && !IsTrimWhitespace(r[|r| - 1]))
    ensures (forall i :: 0 <= i < |s| ==> !IsTrimWhitespace(s[i])) ==> r == s
    decreases |s|
  {
    if s == [] then []
    else if IsTrimWhitespace(s[0]) then Strip(s[1..])
    else if IsTrimWhitespace(s[|s| - 1]) then Strip(s[..|s| - 1])
    else s
  }

  /** `s[a..b]` is what remains of `s` after dropping a whitespace prefix and a whitespace suffix. */
  predicate TrimsTo(s: string, a: int, b: int)
  {
    && 0 <= a <= b <= |s|
    && (forall i :: 0 <= i < a ==> IsTrimWhitespace(s[i]))
    && (forall i :: b <= i < |s| ==> IsTrimWhitespace(s[i]))
  }

  lemma TrimsToFront(s: string, a: int, b: int)
    requires |s| > 0 && IsTrimWhitespace(s[0]) && TrimsTo(s[1..], a, b)
    ensures TrimsTo(s, a + 1, b + 1) && s[1..][a..b] == s[a + 1..b + 1]
  {
    forall i | 0 < i < |s| ensures s[i] == s[1..][i - 1] { }
  }

  lemma TrimsToBack(s: string, a: int, b: int)
    requires |s| > 0 && IsTrimWhitespace(s[|s| - 1]) && TrimsTo(s[..|s| - 1], a, b)
    ensures TrimsTo(s, a, b) && s[..|s| - 1][a..b] == s[a..b]
  {
    forall i | 0 <= i < |s| - 1 ensures s[i] == s[..|s| - 1][i] { }
  }

  /** Stripping keeps a middle stretch of the input: everything before and after it is whitespace. */
  lemma {:induction false} StripTrims(s: string)
    ensures exists a, b :: TrimsTo(s, a, b) && Strip(s) == s[a..b]
    decreases |s|
  {
    if s == [] {
      assert TrimsTo(s, 0, 0) && Strip(s) == s[0..0];
    } else if IsTrimWhitespace(s[0]) {
      StripTrims(s[1..]);
      var a, b :| TrimsTo(s[1..], a, b) && Strip(s[1..]) == s[1..][a..b];
      TrimsToFront(s, a, b);
      assert TrimsTo(s, a + 1, b + 1) && Strip(s) == s[a + 1..b + 1];
    } else if IsTrimWhitespace(s[|s| - 1]) {
      StripTrims(s[..|s| - 1]);
      var a, b :| TrimsTo(s[..|s| - 1], a, b) && Strip(s[..|s| - 1]) == s[..|s| - 1][a..b];
      TrimsToBack(s, a, b);
      assert TrimsTo(s, a, b) && Strip(s) == s[a..b];
    } else {
      assert TrimsTo(s, 0, |s|) && Strip(s) == s[0..|s|];
    }
  }

  /** `ModuleInDB.moduleid` under `str_strip_whitespace`: stripped, then length and pattern checked. */
  predicate ModuleIdAccepted(id: string)
  {
    IdFieldValid(Strip(id))
  }

  /** Generated module ids survive stripping unchanged and are accepted. */
  lemma GeneratedModuleIdAccepted(n: nat)
    ensures Strip(MakeId("MOD", n)) == MakeId("MOD", n)
    ensures ModuleIdAccepted(MakeId("MOD", n))
  {
    ServiceIdsValid(n);
  }

  /** The four `SecretStr` fields shared by `ModuleCreate` and `ModuleInDB`. */
  const ModuleSecretFields: set<string> := {USERNAME, MSISDN, PIN, PASSWORD}

  /** A value a `SecretStr` field accepts: a `str` or a `SecretStr` instance. */
  predicate HasSecretInput(row: Row, k: string) { k in row && (row[k].Str? || row[k].Secret?) }

  /**
   * The value a `SecretStr` field holds: a `str` is wrapped, stripped first when the model strips
   * strings; a `SecretStr` instance, or any other value, is kept as it is.
   */
  function AsSecret(v: Value, strip: bool): (r: Value)
    ensures !v.Str? ==> r == v
    ensures v.Str? ==> r == Secret(if strip then Strip(v.s) else v.s)
  {
    if !v.Str? then v else if strip then Secret(Strip(v.s)) else Secret(v.s)
  }

  /** A `str` field under `str_strip_whitespace`; `None` and other values are kept. */
  function StripStr(v: Value): (r: Value)
    ensures v.Str? ==> r == Str(Strip(v.s))
    ensures !v.Str? ==> r == v
  {
    if v.Str? then Str(Strip(v.s)) else v
  }

  /** One field of `ModuleCreate` as stored: a secret field wrapped unstripped, the rest as given, None when absent. */
  function ModuleCreateField(row: Row, k: string): Value
  {
    if k in ModuleSecretFields then AsSecret(GetAttr(row, k, Null), false) else GetAttr(row, k, Null)
  }

  /**
   * `ModuleCreate(**row)`: there is no validator on this class, so `provider` must be exactly the
   * value of a `ProviderEnums` member; `base_url` is required here, `email` optional, other keys
   * ignored; the four secret fields hold `SecretStr` values and nothing is stripped.
   */
  function ValidateModuleCreate(row: Row): (r: Result<Row, PyError>)
    ensures r.Ok? ==> r.value.Keys == ModuleCreateFields
    ensures r.Ok? ==> HasValue(r.value, BASE_URL) && HasStr(r.value, NAME)
    ensures r.Ok? ==> PROVIDER in row && ProviderFieldAsWritten(row[PROVIDER]).Ok?
    ensures r.Ok? ==> forall k :: k in ModuleSecretFields ==>
      && HasSecretInput(row, k) && r.value[k].Secret?
      && (row[k].Str? ==> r.value[k].secret == row[k].s) && (row[k].Secret? ==> r.value[k] == row[k])
    ensures r.Ok? ==> forall k :: k in row && k in ModuleCreateFields - ModuleSecretFields ==> r.value[k] == row[k]
    ensures r.Ok? && EMAIL !in row ==> r.value[EMAIL] == Null
    ensures r.Err? ==> r.error.ValidationError?
  {
    if PROVIDER !in row || ProviderFieldAsWritten(row[PROVIDER]).Err? then Err(ValidationError(PROVIDER))
    else if !HasStr(row, NAME) then Err(ValidationError(NAME))
    else if !HasValue(row, BASE_URL) then Err(ValidationError(BASE_URL))
    else if !HasSecretInput(row, USERNAME) then Err(ValidationError(USERNAME))
    else if !HasSecretInput(row, MSISDN) then Err(ValidationError(MSISDN))
    else if !HasSecretInput(row, PIN) then Err(ValidationError(PIN))
    else if !HasSecretInput(row, PASSWORD) then Err(ValidationError(PASSWORD))
    else
      ModuleFieldNamesDistinct();
      Ok(map k | k in ModuleCreateFields :: ModuleCreateField(row, k))
  }

  /**
   * The checks of `ModuleInDB(**row)` with a given reading of the `provider` field: extra fields
   * forbidden, `base_url` optional (None by default), `is_active` True by default and read in lax mode;
   * under `str_strip_whitespace` every `str` input is stripped before it is checked or wrapped, while a
   * `SecretStr` instance given to a secret field is kept as it is.
   */
  function ModuleInDBWith(provider: Value -> Result<Provider, PyError>, row: Row): (r: Result<Row, PyError>)
    ensures r.Ok? ==> row.Keys <= ModuleInDBFields && r.value.Keys == ModuleInDBFields
    ensures r.Ok? ==> PROVIDER in row && provider(row[PROVIDER]).Ok?
    ensures r.Ok? ==> r.value[PROVIDER] == Str(ProviderValue(provider(row[PROVIDER]).value))
    ensures r.Ok? ==> HasStr(r.value, MODULEID) && IdFieldValid(r.value[MODULEID].s)
    ensures r.Ok? ==> HasStr(row, MODULEID) && r.value[MODULEID] == Str(Strip(row[MODULEID].s))
    ensures r.Ok? ==> HasStr(row, NAME) && r.value[NAME] == Str(Strip(row[NAME].s))
    ensures r.Ok? ==> forall k :: k in ModuleSecretFields ==>
      && HasSecretInput(row, k)
      && (row[k].Str? ==> r.value[k] == Secret(Strip(row[k].s))) && (row[k].Secret? ==> r.value[k] == row[k])
    ensures r.Ok? && EMAIL in row ==> r.value[EMAIL] == StripStr(row[EMAIL])
    ensures r.Ok? ==> BoolRead(row, IS_ACTIVE, true).Some? && r.value[IS_ACTIVE] == Bool(BoolRead(row, IS_ACTIVE, true).value)
    ensures r.Ok? && BASE_URL in row ==> r.value[BASE_URL] == row[BASE_URL]
    ensures r.Ok? ==> (BASE_URL !in row ==> r.value[BASE_URL] == Null) && (EMAIL !in row ==> r.value[EMAIL] == Null)
    ensures r.Err? ==> r.error.ValidationError?
  {
    if ModuleInDBAccepts(provider, row) then
      assert HasSecretInput(row, USERNAME) && HasSecretInput(row, MSISDN) && HasSecretInput(row, PIN) && HasSecretInput(row, PASSWORD);
      ModuleInDBKeys(row.Keys);
      Ok(FillModuleInDB(row, provider(row[PROVIDER]).value))
    else Err(ModuleInDBError(provider, row))
  }

  /** Every check of `ModuleInDB(**row)` passes. */
  predicate ModuleInDBAccepts(provider: Value -> Result<Provider, PyError>, row: Row)
  {
    && row.Keys <= ModuleInDBFields
    && PROVIDER in row && provider(row[PROVIDER]).Ok?
    && HasStr(row, NAME)
    && BoolOrAbsent(row, IS_ACTIVE)
    && HasStr(row, MODULEID) && ModuleIdAccepted(row[MODULEID].s)
    && forall k :: k in ModuleSecretFields ==> HasSecretInput(row, k)
  }

  /** The error of a rejected `ModuleInDB(**row)`, naming the first field, in declaration order, that fails. */
  function ModuleInDBError(provider: Value -> Result<Provider, PyError>, row: Row): (e: PyError)
    ensures e.ValidationError?
  {
    if !(row.Keys <= ModuleInDBFields) then ValidationError("extra_forbidden")
    else if PROVIDER !in row || provider(row[PROVIDER]).Err? then ValidationError(PROVIDER)
    else if !HasStr(row, NAME) then ValidationError(NAME)
    else if !BoolOrAbsent(row, IS_ACTIVE) then ValidationError(IS_ACTIVE)
    else if !(HasStr(row, MODULEID) && ModuleIdAccepted(row[MODULEID].s)) then ValidationError(MODULEID)
    else if !HasSecretInput(row, USERNAME) then ValidationError(USERNAME)
    else if !HasSecretInput(row, MSISDN) then ValidationError(MSISDN)
    else if !HasSecretInput(row, PIN) then ValidationError(PIN)
    else ValidationError(PASSWORD)
  }

  /** `ModuleInDB(**row)` as declared: the enum check admits only an exact provider value, kept as given. */
  function ValidateModuleInDB(row: Row): (r: Result<Row, PyError>)
    ensures r.Ok? ==> r.value.Keys == ModuleInDBFields && HasStr(r.value, MODULEID) && IdFieldValid(r.value[MODULEID].s)
    ensures r.Ok? ==> PROVIDER in row && r.value[PROVIDER] == row[PROVIDER]
    ensures r.Ok? ==> r.value[PROVIDER] == Str("DIGIPOS") || r.value[PROVIDER] == Str("ISIMPLE")
    ensures r.Err? ==> r.error.ValidationError?
  {
    ModuleInDBWith(ProviderFieldAsWritten, row)
  }

  /** `ModuleInDB(**row)` with the provider validator run before the enum check: any letter case, normalised. */
  function ValidateModuleInDBCorrected(row: Row): (r: Result<Row, PyError>)
    ensures r.Ok? ==> r.value.Keys == ModuleInDBFields && HasStr(r.value, MODULEID) && IdFieldValid(r.value[MODULEID].s)
    ensures r.Ok? ==> PROVIDER in row && row[PROVIDER].Str? && r.value[PROVIDER].Str?
    ensures r.Ok? ==> Lower(r.value[PROVIDER].s) == Lower(row[PROVIDER].s)
    ensures r.Ok? ==> r.value[PROVIDER] == Str("DIGIPOS") || r.value[PROVIDER] == Str("ISIMPLE")
    ensures r.Err? ==> r.error.ValidationError?
  {
    ModuleInDBWith(ProviderField, row)
  }

  /** Two readings of `provider` that agree on the given value give the same `ModuleInDB` outcome. */
  lemma SameProviderSameModule(f: Value -> Result<Provider, PyError>, g: Value -> Result<Provider, PyError>, row: Row)
    requires PROVIDER in row ==> f(row[PROVIDER]) == g(row[PROVIDER])
    ensures ModuleInDBWith(f, row) == ModuleInDBWith(g, row)
  {
  }

  /** The corrected validator accepts every row the declared one accepts, with the same result. */
  lemma ModuleInDBCorrectedExtends(row: Row)
    ensures ValidateModuleInDB(row).Ok? ==> ValidateModuleInDBCorrected(row) == ValidateModuleInDB(row)
  {
    if PROVIDER in row && ProviderFieldAsWritten(row[PROVIDER]).Ok? {
      ProviderAfterValidatorKeeps(row[PROVIDER]);
      SameProviderSameModule(ProviderFieldAsWritten, ProviderField, row);
    }
  }

  /**
   * Every accepted `ModuleCreate`, given a generated `MOD` id, is accepted as a `ModuleInDB`; the
   * secret fields reach it as `SecretStr` instances and are kept unstripped.
   */
  lemma CreatedModuleValidates(row: Row, n: nat)
    requires ValidateModuleCreate(row).Ok?
    ensures ValidateModuleInDB(ValidateModuleCreate(row).value[MODULEID := Str(MakeId("MOD", n))]).Ok?
    ensures forall k :: k in ModuleSecretFields ==>
      ValidateModuleInDB(ValidateModuleCreate(row).value[MODULEID := Str(MakeId("MOD", n))]).value[k] == ValidateModuleCreate(row).value[k]
  {
    GeneratedModuleIdAccepted(n);
    ModuleFieldNamesDistinct();
    var v := ValidateModuleCreate(row).value;
    var c := v[MODULEID := Str(MakeId("MOD", n))];
    assert c.Keys <= ModuleInDBFields && IS_ACTIVE !in c;
    assert c[PROVIDER] == row[PROVIDER] && HasStr(c, NAME);
    assert forall k :: k in ModuleSecretFields ==> HasSecretInput(c, k) && c[k] == v[k];
    assert ModuleInDBAccepts(ProviderFieldAsWritten, c);
  }

  /** The field names `ModuleInDB` treats apart are distinct from the secret fields and from each other. */
  lemma ModuleFieldNamesDistinct()
    ensures PROVIDER !in ModuleSecretFields && NAME !in ModuleSecretFields && MODULEID !in ModuleSecretFields
    ensures EMAIL !in ModuleSecretFields && IS_ACTIVE !in ModuleSecretFields && BASE_URL !in ModuleSecretFields
    ensures NAME != PROVIDER && MODULEID != PROVIDER && MODULEID != NAME
    ensures EMAIL != PROVIDER && EMAIL != NAME && EMAIL != MODULEID
    ensures IS_ACTIVE != PROVIDER && IS_ACTIVE != NAME && IS_ACTIVE != MODULEID && IS_ACTIVE != EMAIL
    ensures BASE_URL != PROVIDER && BASE_URL != NAME && BASE_URL != MODULEID && BASE_URL != EMAIL && BASE_URL != IS_ACTIVE
    ensures IS_ACTIVE !in ModuleStrippedFields && BASE_URL !in ModuleStrippedFields
  {
  }

  /** The input of `ModuleInDB` with the defaults filled in and `is_active` read as a boolean. */
  function ModuleInDBInput(row: Row): (r: Row)
    requires BoolOrAbsent(row, IS_ACTIVE)
    ensures r.Keys == row.Keys + {BASE_URL, EMAIL, IS_ACTIVE}
    ensures forall k :: k in row && k != IS_ACTIVE ==> r[k] == row[k]
    ensures r[IS_ACTIVE] == Bool(BoolRead(row, IS_ACTIVE, true).value)
    ensures BASE_URL !in row ==> r[BASE_URL] == Null
    ensures EMAIL !in row ==> r[EMAIL] == Null
  {
    ModuleFieldNamesDistinct();
    CoerceBool(map[BASE_URL := Null, EMAIL := Null, IS_ACTIVE := Bool(true)] + row, IS_ACTIVE)
  }

  /** A `ModuleInDB` input holding every required field has, once the defaults are filled in, exactly the declared fields. */
  lemma ModuleInDBKeys(keys: set<string>)
    requires keys <= ModuleInDBFields
    requires PROVIDER in keys && NAME in keys && MODULEID in keys
    requires USERNAME in keys && MSISDN in keys && PIN in keys && PASSWORD in keys
    ensures keys + {BASE_URL, EMAIL, IS_ACTIVE} == ModuleInDBFields
  {
  }

  /** The `str` fields of `ModuleInDB` that `str_strip_whitespace` reaches, besides the secret ones. */
  const ModuleStrippedFields: set<string> := {NAME, MODULEID, EMAIL}

  /** One field of `ModuleInDB` as stored: secret fields wrapped, `str` fields stripped, the rest kept. */
  function ModuleField(d: Row, k: string): Value
    requires k in d
  {
    if k in ModuleSecretFields then AsSecret(d[k], true)
    else if k in ModuleStrippedFields then StripStr(d[k])
    else d[k]
  }

  /**
   * The fields of an accepted `ModuleInDB`: defaults filled in, provider normalised, `str` inputs
   * stripped, secret fields held as `SecretStr` values.
   */
  function FillModuleInDB(row: Row, p: Provider): (r: Row)
    requires BoolOrAbsent(row, IS_ACTIVE) && HasStr(row, NAME) && HasStr(row, MODULEID) && PROVIDER in row
    ensures r.Keys == row.Keys + {BASE_URL, EMAIL, IS_ACTIVE}
    ensures r[PROVIDER] == Str(ProviderValue(p))
    ensures r[MODULEID] == Str(Strip(row[MODULEID].s)) && r[NAME] == Str(Strip(row[NAME].s))
    ensures forall k :: k in row && k in ModuleSecretFields ==> r[k] == AsSecret(row[k], true)
    ensures r[EMAIL] == StripStr(GetAttr(row, EMAIL, Null))
    ensures r[IS_ACTIVE] == Bool(BoolRead(row, IS_ACTIVE, true).value)
    ensures r[BASE_URL] == GetAttr(row, BASE_URL, Null)
  {
    ModuleFieldNamesDistinct();
    var d := ModuleInDBInput(row);
    (map k | k in d :: ModuleField(d, k))[PROVIDER := Str(ProviderValue(p))]
  }



  /** `ModulePublic(**m.model_dump())`: only `moduleid` survives. */
  function ModulePublicView(m: Row): (r: Result<Row, PyError>)
    ensures r.Ok? <==> HasStr(m, MODULEID)
    ensures r.Ok? ==> r.value.Keys == {MODULEID} && r.value[MODULEID] == m[MODULEID]
  {
    if HasStr(m, MODULEID) then Ok(map[MODULEID := m[MODULEID]]) else Err(ValidationError(MODULEID))
  }
}

=== FILE: session.dfy ===
/**
 * An ORM session over one table, as the repositories and units of work use it. `rows` is
 * the table as the session sees it (committed rows plus pending changes), `stored` is what
 * the database has committed, and `trace` records every call that reached the database.
 * Whether the database rejects a flush, a commit or a rollback is fixed when the session is
 * made, so every failure path can be followed.
 */
module Sessions {
  import opened Values

  /** A call into the database and whether it succeeded. */
  datatype Call = FlushCall(ok: bool) | CommitCall(ok: bool) | RollbackCall(ok: bool) | CloseCall

  class Session {
    var rows: map<string, Row>
    var stored: map<string, Row>
    var trace: seq<Call>
    const flushFails: bool
    const commitFails: bool
    const rollbackFails: bool

    constructor (stored: map<string, Row>, flushFails: bool, commitFails: bool, rollbackFails: bool)
      ensures this.rows == stored && this.stored == stored && trace == []
      ensures this.flushFails == flushFails && this.commitFails == commitFails && this.rollbackFails == rollbackFails
    {
      this.rows := stored;
      this.stored := stored;
      trace := [];
      this.flushFails := flushFails;
      this.commitFails := commitFails;
      this.rollbackFails := rollbackFails;
    }

    /** `session.add(obj)` of a new object followed by `flush()`: a duplicate primary key also fails. */
    method Insert(id: string, row: Row) returns (ok: bool)
      modifies this
      ensures ok == (!flushFails && id !in old(rows))
      ensures trace == old(trace) + [FlushCall(ok)]
      ensures rows == if ok then old(rows)[id := row] else old(rows)
      ensures stored == old(stored)
    {
      ok := !flushFails && id !in rows;
      trace := trace + [FlushCall(ok)];
      if ok {
        rows := rows[id := row];
      }
    }

    /** `flush()` of changes already made to loaded objects. */
    method Flush() returns (ok: bool)
      modifies this
      ensures ok == !flushFails
      ensures trace == old(trace) + [FlushCall(ok)]
      ensures rows == old(rows) && stored == old(stored)
    {
      ok := !flushFails;
      trace := trace + [FlushCall(ok)];
    }

    /** `commit()`: on success the database holds what the session sees. */
    method Commit() returns (ok: bool)
      modifies this
      ensures ok == !commitFails
      ensures trace == old(trace) + [CommitCall(ok)]
      ensures rows == old(rows)
      ensures stored == if ok then old(rows) else old(stored)
    {
      ok := !commitFails;
      trace := trace + [CommitCall(ok)];
      if ok {
        stored := rows;
      }
    }

    /** `rollback()`: on success the pending changes are gone. */
    method Rollback() returns (ok: bool)
      modifies this
      ensures ok == !rollbackFails
      ensures trace == old(trace) + [RollbackCall(ok)]
      ensures stored == old(stored)
      ensures rows == if ok then old(stored) else old(rows)
    {
      ok := !rollbackFails;
      trace := trace + [RollbackCall(ok)];
      if ok {
        rows := stored;
      }
    }

    /** `close()`: releases the connection; uncommitted changes are discarded. */
    method Close()
      modifies this
      ensures trace == old(trace) + [CloseCall]
      ensures stored == old(stored) && rows == old(stored)
    {
      trace := trace + [CloseCall];
      rows := stored;
    }
  }

  /** The number of successful commits in a trace. */
  function Commits(t: seq<Call>): nat
  {
    if t == [] then 0
    else Commits(t[..|t| - 1]) + (if t[|t| - 1] == CommitCall(true) then 1 else 0)
  }

  /** One more call adds one commit exactly when it is a successful commit. */
  lemma CommitsSnoc(t: seq<Call>, c: Call)
    ensures Commits(t + [c]) == Commits(t) + (if c == CommitCall(true) then 1 else 0)
  {
    assert (t + [c])[..|t + [c]| - 1] == t;
  }

  /** Commits of consecutive stretches of a trace add up. */
  lemma {:induction false} CommitsAppend(a: seq<Call>, b: seq<Call>)
    ensures Commits(a + b) == Commits(a) + Commits(b)
    decreases |b|
  {
    if b == [] {
      assert a + b == a;
    } else {
      var b' := b[..|b| - 1];
      assert (a + b)[..|a + b| - 1] == a + b';
      CommitsAppend(a, b');
    }
  }

  /** A trace without a successful commit counts none. */
  lemma {:induction false} CommitsWithout(t: seq<Call>)
    requires CommitCall(true) !in t
    ensures Commits(t) == 0
  {
    if t != [] {
      assert CommitCall(true) !in t[..|t| - 1];
      CommitsWithout(t[..|t| - 1]);
    }
  }
}

=== FILE: signature.dfy ===
/**
 * The OtomaX request signatures: a `|`-joined raw string, its SHA-1 digest, and the digest
 * in unpadded base64url form (section 5 of RFC 4648), obtained from standard base64 by
 * stripping the padding and replacing `+` with `-` and `/` with `_`.
 * SHA-1 (FIPS 180-4) of the text's UTF-8 bytes is a parameter `sha1`.
 */
module Signature {
  import opened Wrappers
  import opened Ascii
  import opened Base64

  /** A SHA-1 digest: twenty bytes. */
  type Digest = d: seq<Byte> | |d| == 20 witness seq(20, _ => 0)

  /** The raw transaction string: a fixed header, seven `|`-separated fields, the password last and verbatim. */
  function TransactionRaw(memberid: string, product: string, dest: string, refid: string, pin: string, password: string): (r: string)
    ensures |r| == 12 + |memberid| + |product| + |dest| + |refid| + |pin| + |password|
    ensures r[..7] == "OtomaX|"
    ensures r[|r| - |password|..] == password
  {
    "OtomaX|" + Upper(memberid) + "|" + Upper(product) + "|" + dest + "|" + refid + "|" + pin + "|" + password
  }

  /** The raw balance-check string: the header `OtomaX|CheckBalance|`, then the member id upper-cased, pin and password. */
  function BalanceRaw(memberid: string, pin: string, password: string): (r: string)
    ensures |r| == 22 + |memberid| + |pin| + |password|
    ensures r[..20] == "OtomaX|CheckBalance|"
    ensures r[|r| - |password|..] == password
  {
    "OtomaX|CheckBalance|" + Upper(memberid) + "|" + pin + "|" + password
  }

  /** The raw deposit-ticket string: the header `OtomaX|ticket|`, then the member id upper-cased, pin, password and amount. */
  function DepositRaw(memberid: string, pin: string, password: string, amount: string): (r: string)
    ensures |r| == 17 + |memberid| + |pin| + |password| + |amount|
    ensures r[..14] == "OtomaX|ticket|"
    ensures r[|r| - |amount|..] == amount
  {
    "OtomaX|ticket|" + Upper(memberid) + "|" + pin + "|" + password + "|" + amount
  }

  /** `str.rstrip(c)` for a single character `c`. */
  function RStrip(s: string, c: char): (r: string)
    ensures |r| <= |s| && r == s[..|r|]
    ensures r == [] || r[|r| - 1] != c
    ensures forall i :: |r| <= i < |s| ==> s[i] == c
    decreases |s|
  {
    if s != [] && s[|s| - 1] == c then RStrip(s[..|s| - 1], c) else s
  }

  /** `str.replace(from, to)` for single characters. */
  function Replace(s: string, from: char, to: char): (r: string)
    ensures |r| == |s|
    ensures forall i :: 0 <= i < |s| ==> r[i] == (if s[i] == from then to else s[i])
  {
    if s == [] then [] else [if s[0] == from then to else s[0]] + Replace(s[1..], from, to)
  }

  /** The characters of unpadded base64url (section 5 of RFC 4648). */
  predicate IsUrlSafeChar(c: char)
  {
    'A' <= c <= 'Z' || 'a' <= c <= 'z' || '0' <= c <= '9' || c == '-' || c == '_'
  }

  /**
   * `b64encode(digest).decode().rstrip("=")` with `+` → `-` and `/` → `_`: 27 base64url characters, and
   * mapping them back and restoring the one `=` gives the standard encoding.
   */
  function EncodeDigest(d: Digest): (r: string)
    ensures |r| == 27
    ensures forall i :: 0 <= i < 27 ==> IsUrlSafeChar(r[i])
    ensures UrlSafeToStandard(r) + "=" == Encode(d)
  {
    var r := Replace(Replace(RStrip(Encode(d), '='), '+', '-'), '/', '_');
    MappedDigest(d);
    assert |r| == 27 && UrlSafeToStandard(r) + "=" == Encode(d);
    r
  }

  /** Character by character, the mapped encoding is url-safe and maps back to the standard encoding. */
  lemma MappedDigestChars(d: Digest)
    ensures |Replace(Replace(RStrip(Encode(d), '='), '+', '-'), '/', '_')| == 27
    ensures forall i :: 0 <= i < 27 ==>
      && IsUrlSafeChar(Replace(Replace(RStrip(Encode(d), '='), '+', '-'), '/', '_')[i])
      && UrlSafeToStandard(Replace(Replace(RStrip(Encode(d), '='), '+', '-'), '/', '_'))[i] == Encode(d)[i]
  {
    StrippedDigestLayout(d);
    var e := Encode(d);
    var r := Replace(Replace(RStrip(e, '='), '+', '-'), '/', '_');
    forall i | 0 <= i < 27
      ensures IsUrlSafeChar(r[i]) && UrlSafeToStandard(r)[i] == e[i]
    {
      assert IsAlphabetChar(e[i]);
    }
  }

  /** The mapped encoding is 27 url-safe characters, and mapping back and adding one `=` restores the encoding. */
  lemma MappedDigest(d: Digest)
    ensures |Replace(Replace(RStrip(Encode(d), '='), '+', '-'), '/', '_')| == 27
    ensures forall i :: 0 <= i < 27 ==> IsUrlSafeChar(Replace(Replace(RStrip(Encode(d), '='), '+', '-'), '/', '_')[i])
    ensures UrlSafeToStandard(Replace(Replace(RStrip(Encode(d), '='), '+', '-'), '/', '_')) + "=" == Encode(d)
  {
    StrippedDigestLayout(d);
    MappedDigestChars(d);
    var e := Encode(d);
    var back := UrlSafeToStandard(Replace(Replace(RStrip(e, '='), '+', '-'), '/', '_'));
    assert |back + "="| == |e|;
    assert forall i :: 0 <= i < |e| ==> (back + "=")[i] == e[i];
  }

  /** The reverse character mapping, back to the standard alphabet. */
  function UrlSafeToStandard(s: string): string
  {
    Replace(Replace(s, '-', '+'), '_', '/')
  }

  /** `generate_transaction_signature`: the url-safe, unpadded base64 of the SHA-1 of the raw transaction string. */
  function TransactionSignature(sha1: string -> Digest, memberid: string, product: string, dest: string,
                                refid: string, pin: string, password: string): (r: string)
    ensures |r| == 27 && forall i :: 0 <= i < 27 ==> IsUrlSafeChar(r[i])
    ensures UrlSafeToStandard(r) + "=" == Encode(sha1(TransactionRaw(memberid, product, dest, refid, pin, password)))
    ensures Decode(UrlSafeToStandard(r) + "=").Some?
    ensures Decode(UrlSafeToStandard(r) + "=").value == sha1(TransactionRaw(memberid, product, dest, refid, pin, password))
  {
    SignatureDecodes(sha1(TransactionRaw(memberid, product, dest, refid, pin, password)));
    EncodeDigest(sha1(TransactionRaw(memberid, product, dest, refid, pin, password)))
  }

  /** `generate_balance_check_signature`: the url-safe, unpadded base64 of the SHA-1 of the raw balance-check string. */
  function BalanceCheckSignature(sha1: string -> Digest, memberid: string, pin: string, password: string): (r: string)
    ensures |r| == 27 && forall i :: 0 <= i < 27 ==> IsUrlSafeChar(r[i])
    ensures UrlSafeToStandard(r) + "=" == Encode(sha1(BalanceRaw(memberid, pin, password)))
    ensures Decode(UrlSafeToStandard(r) + "=").Some?
    ensures Decode(UrlSafeToStandard(r) + "=").value == sha1(BalanceRaw(memberid, pin, password))
  {
    SignatureDecodes(sha1(BalanceRaw(memberid, pin, password)));
    EncodeDigest(sha1(BalanceRaw(memberid, pin, password)))
  }

  /** `generate_deposit_ticket_signature`: the url-safe, unpadded base64 of the SHA-1 of the raw deposit-ticket string. */
  function DepositTicketSignature(sha1: string -> Digest, memberid: string, pin: string, password: string, amount: string): (r: string)
    ensures |r| == 27 && forall i :: 0 <= i < 27 ==> IsUrlSafeChar(r[i])
    ensures UrlSafeToStandard(r) + "=" == Encode(sha1(DepositRaw(memberid, pin, password, amount)))
    ensures Decode(UrlSafeToStandard(r) + "=").Some?
    ensures Decode(UrlSafeToStandard(r) + "=").value == sha1(DepositRaw(memberid, pin, password, amount))
  {
    SignatureDecodes(sha1(DepositRaw(memberid, pin, password, amount)));
    EncodeDigest(sha1(DepositRaw(memberid, pin, password, amount)))
  }

  /** Stripping `=` from an encoding removes exactly its padding. */
  lemma {:induction false} StripPadding(s: string, p: nat)
    requires Layout(s, p)
    ensures RStrip(s, '=') == s[..|s| - p]
    decreases p
  {
    if p == 0 {
      assert s == [] || IsAlphabetChar(s[|s| - 1]);
      assert s[..|s|] == s;
    } else {
      var t := s[..|s| - 1];
      assert Layout(t, p - 1);
      StripPadding(t, p - 1);
      assert t[..|t| - (p - 1)] == s[..|s| - p];
    }
  }

  /** The standard encoding of a digest minus its padding: 27 alphabet characters. */
  lemma StrippedDigestLayout(d: Digest)
    ensures RStrip(Encode(d), '=') == Encode(d)[..27]
    ensures |Encode(d)| == 28 && Encode(d)[27] == '='
    ensures forall i :: 0 <= i < 27 ==> IsAlphabetChar(Encode(d)[i])
  {
    EncodeLayout(d);
    assert PadCount(|d|) == 1;
    StripPadding(Encode(d), 1);
  }

  /** Undoing the character mapping and appending the one `=` gives a string that decodes to the digest. */
  lemma SignatureDecodes(d: Digest)
    ensures Decode(UrlSafeToStandard(EncodeDigest(d)) + "=").Some?
    ensures Decode(UrlSafeToStandard(EncodeDigest(d)) + "=").value == d
  {
    DecodeEncode(d);
  }

  /** Distinct digests give distinct signatures. */
  lemma SignatureInjective(d1: Digest, d2: Digest)
    ensures EncodeDigest(d1) == EncodeDigest(d2) <==> d1 == d2
  {
    if EncodeDigest(d1) == EncodeDigest(d2) {
      SignatureDecodes(d1);
      SignatureDecodes(d2);
    }
  }

  /** The letter case of `memberid` and `product` does not affect the transaction signature. */
  lemma TransactionIgnoresCase(sha1: string -> Digest, memberid: string, product: string, dest: string,
                               refid: string, pin: string, password: string)
    ensures TransactionSignature(sha1, Lower(memberid), Lower(product), dest, refid, pin, password)
         == TransactionSignature(sha1, memberid, product, dest, refid, pin, password)
    ensures TransactionSignature(sha1, Upper(memberid), Upper(product), dest, refid, pin, password)
         == TransactionSignature(sha1, memberid, product, dest, refid, pin, password)
  {
    UpperAbsorbsCase(memberid);
    UpperAbsorbsCase(product);
  }

  /** The letter case of `memberid` does not affect the balance-check and deposit-ticket signatures. */
  lemma BalanceAndDepositIgnoreCase(sha1: string -> Digest, memberid: string, pin: string, password: string, amount: string)
    ensures BalanceCheckSignature(sha1, Lower(memberid), pin, password) == BalanceCheckSignature(sha1, memberid, pin, password)
    ensures DepositTicketSignature(sha1, Lower(memberid), pin, password, amount)
         == DepositTicketSignature(sha1, memberid, pin, password, amount)
  {
    UpperAbsorbsCase(memberid);
  }

  /** `dest` is taken verbatim: with the other fields fixed, different destinations give different raw strings. */
  lemma TransactionRawKeepsDest(memberid: string, product: string, d1: string, d2: string,
                                refid: string, pin: string, password: string)
    ensures TransactionRaw(memberid, product, d1, refid, pin, password) == TransactionRaw(memberid, product, d2, refid, pin, password)
        <==> d1 == d2
  {
    var pre := "OtomaX|" + Upper(memberid) + "|" + Upper(product) + "|";
    var raw1 := TransactionRaw(memberid, product, d1, refid, pin, password);
    var raw2 := TransactionRaw(memberid, product, d2, refid, pin, password);
    if raw1 == raw2 {
      assert |d1| == |d2|;
      assert raw1[..|pre| + |d1|] == pre + d1;
      assert raw2[..|pre| + |d2|] == pre + d2;
      assert d1 == (pre + d1)[|pre|..];
      assert d2 == (pre + d2)[|pre|..];
    }
  }

  /** The secret fields are taken verbatim too: the last field, `password`, changes the raw string whenever it changes. */
  lemma TransactionRawKeepsPassword(memberid: string, product: string, dest: string, refid: string, pin: string,
                                    p1: string, p2: string)
    ensures TransactionRaw(memberid, product, dest, refid, pin, p1) == TransactionRaw(memberid, product, dest, refid, pin, p2)
        <==> p1 == p2
  {
    var pre := "OtomaX|" + Upper(memberid) + "|" + Upper(product) + "|" + dest + "|" + refid + "|" + pin + "|";
    assert TransactionRaw(memberid, product, dest, refid, pin, p1) == pre + p1;
    assert TransactionRaw(memberid, product, dest, refid, pin, p2) == pre + p2;
    if pre + p1 == pre + p2 {
      assert p1 == (pre + p1)[|pre|..];
      assert p2 == (pre + p2)[|pre|..];
    }
  }
}

=== FILE: uow.dfy ===
/**
 * `UnitOfWork` of the database core: a `_committed` flag over a session, used as an
 * `async with` block. Leaving the block is `Exit`, told whether an exception is in flight.
 */
module Uow {
  import opened Sessions

  /** What leaves the `async with` block once `__aexit__` has run. */
  datatype Outcome =
    | Clean                      // no exception
    | Reraised                   // the block's own exception propagates
    | SessionError(call: Call)   // the failing commit or rollback raised, replacing it

  class UnitOfWork {
    const session: Session
    var committed: bool

    constructor (session: Session)
      ensures this.session == session && !committed
    {
      this.session := session;
      committed := false;
    }

    /** `commit()`: no guard, every call reaches the session; the flag is set once a commit succeeds. */
    method Commit() returns (ok: bool)
      modifies this, session
      ensures session.trace == old(session.trace) + [CommitCall(ok)]
      ensures ok == !session.commitFails
      ensures committed == (old(committed) || ok)
      ensures session.rows == old(session.rows)
      ensures session.stored == if ok then old(session.rows) else old(session.stored)
    {
      ok := session.Commit();
      if ok {
        committed := true;
      }
    }

    /** `rollback()`: the flag is left as it was. */
    method Rollback() returns (ok: bool)
      modifies session
      ensures session.trace == old(session.trace) + [RollbackCall(ok)]
      ensures ok == !session.rollbackFails
      ensures session.stored == old(session.stored)
      ensures session.rows == if ok then old(session.stored) else old(session.rows)
    {
      ok := session.Rollback();
    }

    /**
     * `__aexit__`: with an exception in flight, roll back and commit nothing; otherwise commit
     * unless already committed. The session is never closed here.
     */
    method Exit(exception: bool) returns (out: Outcome)
      modifies this, session
      ensures exception ==>
        && session.trace == old(session.trace) + [RollbackCall(!session.rollbackFails)]
        && out == (if session.rollbackFails then SessionError(RollbackCall(false)) else Reraised)
        && committed == old(committed)
        && session.stored == old(session.stored)
        && session.rows == (if session.rollbackFails then old(session.rows) else old(session.stored))
      ensures !exception && !old(committed) ==>
        && session.trace == old(session.trace) + [CommitCall(!session.commitFails)]
        && out == (if session.commitFails then SessionError(CommitCall(false)) else Clean)
        && committed == !session.commitFails
        && session.rows == old(session.rows)
        && session.stored == (if session.commitFails then old(session.stored) else old(session.rows))
      ensures !exception && old(committed) ==>
        && session.trace == old(session.trace) && out == Clean && committed
        && session.rows == old(session.rows) && session.stored == old(session.stored)
      ensures CloseCall !in session.trace[|old(session.trace)|..]
    {
      if exception {
        var ok := Rollback();
        out := if ok then Reraised else SessionError(RollbackCall(false));
      } else if !committed {
        var ok := Commit();
        out := if ok then Clean else SessionError(CommitCall(false));
      } else {
        out := Clean;
      }
    }
  }

  /**
   * Because `commit` has no guard, committing explicitly twice reaches the session twice;
   * leaving the block afterwards adds no third commit.
   */
  method CommitTwiceThenExit(session: Session) returns (uow: UnitOfWork, out: Outcome)
    requires !session.commitFails
    modifies session
    ensures fresh(uow) && uow.session == session && uow.committed && out == Clean
    ensures session.trace == old(session.trace) + [CommitCall(true), CommitCall(true)]
    ensures Commits(session.trace[|old(session.trace)|..]) == 2
  {
    uow := new UnitOfWork(session);
    var _ := uow.Commit();
    var _ := uow.Commit();
    out := uow.Exit(false);
    var tail := [CommitCall(true), CommitCall(true)];
    assert session.trace[|old(session.trace)|..] == tail;
    assert tail[..1] == [CommitCall(true)] && tail[..1][..0] == [];
  }
}

=== FILE: validators.dfy ===
/**
 * The shared string validators: `is_alphanumeric_underscore`, `is_alphanumric_withspace` and
 * `validate_password`. Each checks a length first, then a regular expression applied with
 * `re.match`, whose `$` matches at the end of the string and also just before a final newline.
 * The `...Strict` variants are the same checks with the whole string matched.
 */
module Validators {
  import opened Wrappers
  import opened Ascii
  import opened Exceptions

  const MIN3_MESSAGE := "Input minimal 3 karakter."
  const UNDERSCORE_MESSAGE := "Input harus alphanumeric dan underscore saja."
  const SPACE_MESSAGE := "Input harus alphanumeric dan spasi saja."
  const PASSWORD_MIN_MESSAGE := "Password minimal 6 karakter."
  const PASSWORD_SPACE_MESSAGE := "Password tidak boleh mengandung spasi."
  const PASSWORD_CLASS_MESSAGE := "Password harus mengandung alphanumeric dan special character (kecuali spasi)."

  /** `[a-zA-Z0-9_]` */
  predicate IsWordChar(c: char) { IsAlnum(c) || c == '_' }

  /** `[a-zA-Z0-9 ]` */
  predicate IsAlnumOrSpace(c: char) { IsAlnum(c) || c == ' ' }

  /** `[^a-zA-Z0-9\s]`: neither an ASCII letter or digit nor whitespace. */
  predicate IsSpecial(c: char) { !IsAlnum(c) && !IsPyWhitespace(c) }

  /** Where `$` matches in a string without MULTILINE: the end, or just before a final newline. */
  predicate DollarAt(v: string, k: nat)
  {
    k == |v| || (k == |v| - 1 && v[k] == '\n')
  }

  /** The string without one final newline, if it has one. */
  function Body(v: string): (b: string)
    ensures v == b || v == b + "\n"
  {
    if |v| > 0 && v[|v| - 1] == '\n' then v[..|v| - 1] else v
  }

  /** How many leading characters a greedy `[...]+` consumes. */
  function Run(v: string, cls: char -> bool): (n: nat)
    ensures n <= |v|
    ensures forall i :: 0 <= i < n ==> cls(v[i])
    ensures n < |v| ==> !cls(v[n])
  {
    if v == [] || !cls(v[0]) then 0 else 1 + Run(v[1..], cls)
  }

  /** `re.match("^[...]+$", v)`. */
  predicate ClassPlusDollar(v: string, cls: char -> bool)
  {
    var n := Run(v, cls);
    n >= 1 && DollarAt(v, n)
  }

  /** `re.fullmatch("[...]+", v)`. */
  predicate ClassPlusFull(v: string, cls: char -> bool)
  {
    |v| >= 1 && forall i :: 0 <= i < |v| ==> cls(v[i])
  }

  /** For a class without the newline, `^[...]+$` accepts exactly the non-empty class strings, with or without one final newline. */
  lemma ClassPlusDollarIff(v: string, cls: char -> bool)
    requires !cls('\n')
    ensures ClassPlusDollar(v, cls) <==> ClassPlusFull(Body(v), cls)
  {
    var n := Run(v, cls);
    var b := Body(v);
    if ClassPlusDollar(v, cls) {
      if n == |v| {
        assert b == v;
      } else {
        assert b == v[..n];
      }
    }
    if ClassPlusFull(b, cls) {
      if b == v {
        assert n == |v|;
      } else {
        assert forall i :: 0 <= i < |b| ==> cls(v[i]) by {
          forall i | 0 <= i < |b| ensures cls(v[i]) { assert v[i] == b[i]; }
        }
        assert n >= |b|;
        assert n == |v| - 1;
      }
    }
  }

  /** The shape shared by the two character-set validators: length first, then the pattern. */
  function CharsetValidator(v: string, cls: char -> bool, charsetMessage: string, strict: bool): (r: Result<string, PyError>)
    ensures r.Ok? ==> r.value == v
    ensures |v| < 3 ==> r == Err(ValueError(MIN3_MESSAGE))
    ensures |v| >= 3 && r.Err? ==> r == Err(ValueError(charsetMessage))
  {
    if |v| < 3 then Err(ValueError(MIN3_MESSAGE))
    else if (if strict then ClassPlusFull(v, cls) else ClassPlusDollar(v, cls)) then Ok(v)
    else Err(ValueError(charsetMessage))
  }

  /** `is_alphanumeric_underscore`, as written. */
  function IsAlphanumericUnderscore(v: string): (r: Result<string, PyError>)
    ensures r.Ok? ==> r.value == v
    ensures |v| < 3 ==> r == Err(ValueError(MIN3_MESSAGE))
    ensures |v| >= 3 && r.Err? ==> r == Err(ValueError(UNDERSCORE_MESSAGE))
  {
    CharsetValidator(v, IsWordChar, UNDERSCORE_MESSAGE, false)
  }

  /** `is_alphanumeric_underscore` with the whole string matched. */
  function IsAlphanumericUnderscoreStrict(v: string): (r: Result<string, PyError>)
    ensures r.Ok? ==> r.value == v
    ensures |v| < 3 ==> r == Err(ValueError(MIN3_MESSAGE))
    ensures |v| >= 3 && r.Err? ==> r == Err(ValueError(UNDERSCORE_MESSAGE))
  {
    CharsetValidator(v, IsWordChar, UNDERSCORE_MESSAGE, true)
  }

  /** `is_alphanumric_withspace`, as written. */
  function IsAlphanumericWithSpace(v: string): (r: Result<string, PyError>)
    ensures r.Ok? ==> r.value == v
    ensures |v| < 3 ==> r == Err(ValueError(MIN3_MESSAGE))
    ensures |v| >= 3 && r.Err? ==> r == Err(ValueError(SPACE_MESSAGE))
  {
    CharsetValidator(v, IsAlnumOrSpace, SPACE_MESSAGE, false)
  }

  /** `is_alphanumric_withspace` with the whole string matched. */
  function IsAlphanumericWithSpaceStrict(v: string): (r: Result<string, PyError>)
    ensures r.Ok? ==> r.value == v
    ensures |v| < 3 ==> r == Err(ValueError(MIN3_MESSAGE))
    ensures |v| >= 3 && r.Err? ==> r == Err(ValueError(SPACE_MESSAGE))
  {
    CharsetValidator(v, IsAlnumOrSpace, SPACE_MESSAGE, true)
  }

  /** As written: accepted iff at least three characters and a non-empty `[a-zA-Z0-9_]` body, one final newline allowed; the value is returned unchanged. */
  lemma AlphanumericUnderscoreAccepts(v: string)
    ensures IsAlphanumericUnderscore(v).Ok? <==> |v| >= 3 && ClassPlusFull(Body(v), IsWordChar)
    ensures IsAlphanumericUnderscore(v).Ok? ==> IsAlphanumericUnderscore(v).value == v
  {
    ClassPlusDollarIff(v, IsWordChar);
  }

  /** As written: the same for `[a-zA-Z0-9 ]`. */
  lemma AlphanumericWithSpaceAccepts(v: string)
    ensures IsAlphanumericWithSpace(v).Ok? <==> |v| >= 3 && ClassPlusFull(Body(v), IsAlnumOrSpace)
    ensures IsAlphanumericWithSpace(v).Ok? ==> IsAlphanumericWithSpace(v).value == v
  {
    ClassPlusDollarIff(v, IsAlnumOrSpace);
  }

  /** The trailing newline counts toward the minimum length and is accepted: two real characters pass. */
  lemma CharsetValidatorsAcceptTrailingNewline()
    ensures IsAlphanumericUnderscore("ab\n") == Ok("ab\n")
    ensures IsAlphanumericWithSpace("ab\n") == Ok("ab\n")
    ensures IsAlphanumericUnderscoreStrict("ab\n").Err?
    ensures IsAlphanumericWithSpaceStrict("ab\n").Err?
  {
    AlphanumericUnderscoreAccepts("ab\n");
    AlphanumericWithSpaceAccepts("ab\n");
    assert Body("ab\n") == "ab";
    assert !IsWordChar("ab\n"[2]);
    assert !IsAlnumOrSpace("ab\n"[2]);
  }

  /** Strictly: accepted iff at least three characters, every one from the class. */
  lemma StrictCharsetAccepts(v: string)
    ensures IsAlphanumericUnderscoreStrict(v).Ok? <==> |v| >= 3 && forall i :: 0 <= i < |v| ==> IsWordChar(v[i])
    ensures IsAlphanumericWithSpaceStrict(v).Ok? <==> |v| >= 3 && forall i :: 0 <= i < |v| ==> IsAlnumOrSpace(v[i])
  {
  }

  /** The length of the first line: the index of the first newline, or the whole length. */
  function FirstLineLength(v: string): (n: nat)
    ensures n <= |v|
    ensures forall i :: 0 <= i < n ==> v[i] != '\n'
    ensures n < |v| ==> v[n] == '\n'
  {
    if v == [] || v[0] == '\n' then 0 else 1 + FirstLineLength(v[1..])
  }

  /**
   * `re.match(r"^(?=.*[a-zA-Z0-9])(?=.*[^a-zA-Z0-9\s]).{6,}$", v)`: `.` stops at a newline, so both
   * lookaheads look only at the first line, and `.{6,}` must reach a place where `$` matches.
   */
  predicate PasswordPatternMatches(v: string)
  {
    var l := FirstLineLength(v);
    (exists i :: 0 <= i < l && IsAlnum(v[i]))
    && (exists i :: 0 <= i < l && IsSpecial(v[i]))
    && (exists k :: 6 <= k <= l && DollarAt(v, k))
  }

  /** The same pattern matched against the whole string. */
  predicate PasswordPatternFull(v: string)
  {
    |v| >= 6 && (forall i :: 0 <= i < |v| ==> v[i] != '\n')
    && (exists i :: 0 <= i < |v| && IsAlnum(v[i]))
    && (exists i :: 0 <= i < |v| && IsSpecial(v[i]))
  }

  /** The pattern accepts exactly what the whole-string pattern accepts, with or without one final newline. */
  lemma PasswordPatternIff(v: string)
    ensures PasswordPatternMatches(v) <==> PasswordPatternFull(Body(v))
  {
    var l := FirstLineLength(v);
    var b := Body(v);
    if PasswordPatternMatches(v) {
      var k :| 6 <= k <= l && DollarAt(v, k);
      assert k == l;
      if k == |v| {
        assert b == v;
      } else {
        assert b == v[..k];
        assert forall i :: 0 <= i < |b| ==> b[i] == v[i];
      }
      var i :| 0 <= i < l && IsAlnum(v[i]);
      var j :| 0 <= j < l && IsSpecial(v[j]);
      assert b[i] == v[i] && b[j] == v[j];
    }
    if PasswordPatternFull(b) {
      var i :| 0 <= i < |b| && IsAlnum(b[i]);
      var j :| 0 <= j < |b| && IsSpecial(b[j]);
      if b == v {
        assert l == |v|;
        assert DollarAt(v, l);
      } else {
        assert forall i :: 0 <= i < |b| ==> v[i] == b[i];
        assert l == |b|;
        assert DollarAt(v, l);
        assert v[i] == b[i] && v[j] == b[j];
      }
    }
  }

  /** `validate_password`: length, then no space, then the pattern; the value comes back unchanged. */
  function ValidatePassword(v: string): (r: Result<string, PyError>)
    ensures r.Ok? ==> r.value == v
    ensures |v| < 6 ==> r == Err(ValueError(PASSWORD_MIN_MESSAGE))
    ensures |v| >= 6 && ' ' in v ==> r == Err(ValueError(PASSWORD_SPACE_MESSAGE))
  {
    if |v| < 6 then Err(ValueError(PASSWORD_MIN_MESSAGE))
    else if ' ' in v then Err(ValueError(PASSWORD_SPACE_MESSAGE))
    else if !PasswordPatternMatches(v) then Err(ValueError(PASSWORD_CLASS_MESSAGE))
    else Ok(v)
  }

  /** `validate_password` with the pattern matched against the whole string. */
  function ValidatePasswordStrict(v: string): (r: Result<string, PyError>)
    ensures r.Ok? ==> r.value == v
    ensures |v| < 6 ==> r == Err(ValueError(PASSWORD_MIN_MESSAGE))
    ensures |v| >= 6 && ' ' in v ==> r == Err(ValueError(PASSWORD_SPACE_MESSAGE))
    ensures r.Err? && |v| >= 6 && ' ' !in v ==> r == Err(ValueError(PASSWORD_CLASS_MESSAGE))
  {
    if |v| < 6 then Err(ValueError(PASSWORD_MIN_MESSAGE))
    else if ' ' in v then Err(ValueError(PASSWORD_SPACE_MESSAGE))
    else if !PasswordPatternFull(v) then Err(ValueError(PASSWORD_CLASS_MESSAGE))
    else Ok(v)
  }

  /** For newline-free input: accepted iff six or more characters, no space, a letter or digit, and a special character. */
  lemma PasswordAcceptsNewlineFree(v: string)
    requires forall i :: 0 <= i < |v| ==> v[i] != '\n'
    ensures ValidatePassword(v).Ok? <==>
      |v| >= 6 && ' ' !in v
      && (exists i :: 0 <= i < |v| && IsAlnum(v[i]))
      && (exists i :: 0 <= i < |v| && IsSpecial(v[i]))
  {
    PasswordPatternIff(v);
    assert Body(v) == v;
  }

  /** Strictly: accepted iff six or more characters, no space, no newline, a letter or digit, and a special character. */
  lemma PasswordStrictAccepts(v: string)
    ensures ValidatePasswordStrict(v).Ok? <==>
      |v| >= 6 && ' ' !in v && (forall i :: 0 <= i < |v| ==> v[i] != '\n')
      && (exists i :: 0 <= i < |v| && IsAlnum(v[i]))
      && (exists i :: 0 <= i < |v| && IsSpecial(v[i]))
  {
  }

  /** Every password the whole-string check accepts is accepted as written too. */
  lemma PasswordStrictImpliesAccepted(v: string)
    ensures ValidatePasswordStrict(v).Ok? ==> ValidatePassword(v).Ok?
  {
    if ValidatePasswordStrict(v).Ok? {
      PasswordAcceptsNewlineFree(v);
    }
  }

  /** A final newline is accepted after a valid six-character password; the whole-string check rejects it. */
  lemma PasswordAcceptsTrailingNewline()
    ensures ValidatePassword("abcde!\n") == Ok("abcde!\n")
    ensures ValidatePasswordStrict("abcde!\n").Err?
  {
    var v := "abcde!\n";
    PasswordPatternIff(v);
    var b := Body(v);
    assert b == "abcde!";
    assert IsAlnum(b[0]) && IsSpecial(b[5]);
    assert v[6] == '\n';
  }

  /** Whitespace other than the space character passes the space check but never counts as special. */
  lemma TabIsNeitherSpaceNorSpecial()
    ensures ValidatePassword("abc\t\t1").Err?
    ensures ValidatePassword("abc\t\t1") == Err(ValueError(PASSWORD_CLASS_MESSAGE))
  {
    var v := "abc\t\t1";
    PasswordAcceptsNewlineFree(v);
    assert ' ' !in v;
    forall i | 0 <= i < |v| ensures !IsSpecial(v[i]) {
    }
  }
}

=== FILE: values.dfy ===
/**
 * Dynamic Python values as they appear in ORM rows, `model_dump()` dicts and
 * decoded token payloads, together with Python's truthiness rule.
 */
module Values {

  /**
   * A column or dict value. `Time` is a timestamp (a `datetime`), always truthy; `Secret` is a
   * Pydantic `SecretStr` instance holding the given string.
   */
  datatype Value = Null | Str(s: string) | Bool(b: bool) | Int(i: int) | Time(t: int) | Secret(secret: string)

  /** An ORM instance or a dict: attribute name to value; an absent key is a missing attribute. */
  type Row = map<string, Value>

  /** Python's `bool(v)`. */
  predicate Truthy(v: Value)
  {
    match v
    case Null => false
    case Str(s) => s != ""
    case Bool(b) => b
    case Int(i) => i != 0
    case Time(_) => true
    case Secret(x) => x != ""
  }

  /** `getattr(row, key, default)` / `dict.get(key, default)`. */
  function GetAttr(row: Row, key: string, default: Value): Value
  {
    if key in row then row[key] else default
  }
}

=== FILE: wrappers.dfy ===
/** Failure-carrying wrappers shared by every module of the model. */
module Wrappers {

  /** A value that may be absent (Python's `X | None`). */
  datatype Option<T> = None | Some(value: T)

  /** The outcome of an operation that either returns a value or raises. */
  datatype Result<T, E> = Ok(value: T) | Err(error: E)
}
